=== FILE: README.md ===
# VinFast dealership: a Dafny model of its core

The VinFast dealership is a web shop for electric cars. Customers browse a car catalogue,
compare cars, read news, book test drives, fill a deposit cart and place orders. The back
office is an Express and Mongoose server. It stores test-drive bookings, orders, contacts,
cars and news posts, and it validates them. This project models the parts of that system that
make decisions, and proves what those decisions guarantee.

- **Test-drive scheduling** is the centre of the model (`TestDriveModel`,
  `TestDriveController`, `TestDriveRoutes`). It covers the slot catalogue and the conflict
  filter. It covers the free-slot query and the create, update, status-patch and delete
  handlers, together with their ownership checks. It covers the request validation and the
  guards of the routes. The property that matters is that no two active bookings hold the same
  confirmed date, time and location (`UniqueActiveSlots`). The model proves which handlers keep
  it. It also exhibits the two paths that can break it: the admin status patch, and a creation
  request that carries its own confirmed pair.
- **Cart and order arithmetic**: the client-side deposit cart (`CartStore`), plus the order
  document, its number and its total (`OrderModel`). The order controller is `OrderController`,
  and the client's order filters and summary are `OrderHooks`.
- **Catalogue and list queries**:
  - the static car and news catalogues (`CarCatalog`, `NewsArticle`, `NewsData`);
  - the client's car filters (`CarHooks`);
  - the compare page and the news page (`ComparePage`, `NewsPage`);
  - the paging shared by the list endpoints (`Paging`).
- **Document hooks and decision tables**:
  - the slug rule (`Slug`), used by cars and news posts (`CarModel`, `NewsModel`);
  - the contact form with its priority rule and its admin reply (`ContactModel`,
    `ContactController`);
  - the error middleware (`ErrorHandler`);
  - the sample-body generator of the API collection script (`Postman`);
  - the page-title rule (`Seo`).

`Wrappers`, `Seqs`, `Text`, `Sorting`, `Stores` and `Access` hold shared definitions:
- `Option` and `Result`;
- filtering, counting and summing over sequences;
- lower-casing, trimming and number formatting;
- a stable insertion sort on numeric or string keys;
- stored collections keyed by id;
- the owner-or-admin rule.

Dates are milliseconds since the epoch, held as `int`. Document ids are `nat`. A collection of
stored documents is a `map` from id to document. The clock, the store's id allocator and
Unicode folding are parameters.

## Model

| member | source | states |
|---|---|---|
| TestDriveModel.ParseLocation | backend/models/TestDrive.js:55-59 | a location string is accepted exactly when it is the code of one of the five showrooms, and the parsed showroom has that code |
| TestDriveModel.LocationCodesMatchParse | backend/models/TestDrive.js:55-59 | membership in the schema's enum list and successful parsing are the same condition |
| TestDriveModel.LocationRoundTrip | backend/models/TestDrive.js:55-59 | parsing a showroom's code gives back that showroom |
| TestDriveModel.ParseStatus | backend/models/TestDrive.js:60-64 | a status string is accepted exactly when it is one of the five booking states |
| TestDriveModel.StatusCodesMatchParse | backend/models/TestDrive.js:60-64 | membership in the status enum and successful parsing coincide |
| TestDriveModel.StatusRoundTrip | backend/models/TestDrive.js:60-64 | parsing a state's code gives back that state |
| TestDriveModel.CheckConflict | backend/models/TestDrive.js:149-162 | it returns a booking id only when that booking is active, is not the excluded one, and holds the requested date, time and showroom; it returns none exactly when no such booking exists |
| TestDriveModel.BookedTimes | backend/models/TestDrive.js:165-175 | the collected times are exactly the times taken by an active confirmed booking on that date at that showroom |
| TestDriveModel.GetAvailableSlots | backend/models/TestDrive.js:165-175 | the free slots keep the catalogue order; a slot is listed exactly when it is in the catalogue and not taken; on a day with nothing booked, the whole catalogue is free |
| TestDriveModel.AvailabilityAgreesWithConflict | backend/models/TestDrive.js:149-175 | a slot is shown as taken exactly when the conflict check would reject a booking for it, so the two statics agree |
| TestDriveModel.ExcludedNeverConflicts | backend/models/TestDrive.js:149-162 | a booking never conflicts with itself when it is the excluded id, so re-saving the same slot is allowed |
| TestDriveModel.UnconfirmedMatchesNothing | backend/models/TestDrive.js:149-162 | a booking without both a confirmed date and a confirmed time blocks no slot |
| TestDriveModel.NonOccupyingBookingIsInvisible | backend/models/TestDrive.js:149-175 | adding a booking that is unconfirmed or inactive changes neither the taken slots nor any conflict answer |
| TestDriveModel.AddingUnconfirmedKeepsUnique | backend/models/TestDrive.js:52-53 | adding an unconfirmed booking keeps every confirmed slot held by at most one active booking |
| TestDriveModel.CheckedReplacementKeepsUnique | backend/models/TestDrive.js:149-162 | replacing a booking with one the conflict check (excluding itself) lets through keeps slot uniqueness |
| TestDriveModel.UnconfirmedReplacementKeepsUnique | backend/models/TestDrive.js:149-162 | replacing a booking by one without a confirmed date and time keeps every confirmed slot held by at most one active booking |
| TestDriveModel.StatusDisplay | backend/models/TestDrive.js:113-122 | a known status gets a label different from its code; an unknown one is shown raw |
| TestDriveModel.StatusDisplayInjective | backend/models/TestDrive.js:113-122 | different states get different labels |
| TestDriveModel.LocationDisplay | backend/models/TestDrive.js:125-134 | a known showroom gets a label different from its code; an unknown one is shown raw |
| TestDriveModel.FormattedSchedule | backend/models/TestDrive.js:137-146 | a confirmed date and time end the text with " lúc " and the time; otherwise a requested time ends it with " lúc ", the time and the pending marker; without either the text is the undetermined one. The prefixes are stated by TestDriveModel.FormattedScheduleCases |
| TestDriveModel.FormattedScheduleCases | backend/models/TestDrive.js:137-146 | a confirmed schedule starts with the confirmed date and has no pending marker; an unconfirmed one with a preferred time starts with the preferred date and ends with the pending marker; otherwise the text is the undetermined one |
| TestDriveController.ManageImpliesRead | backend/controllers/testDrive.js:93-98 | whoever may change a booking may read it; a booking without an owner is readable by anyone and changeable only by an admin |
| TestDriveController.CreateTestDrive | backend/controllers/testDrive.js:112-161 | an unusable car is refused before the slot check; a taken slot is refused; creation succeeds exactly when the car is usable, the slot is free and the document validates; the booking belongs to the caller (or nobody), starts pending, keeps the schedule, admin notes and feedback it was given, has an e-mail that matches the schema pattern, and is the only store change; without a confirmed date uniqueness is kept |
| TestDriveController.UpdateTestDrive | backend/controllers/testDrive.js:174-239 | an unknown id is not found, then a stranger is forbidden, then a confirmed date the store cannot cast is a cast error and a clash found by the re-check (excluding the booking itself) is refused; success exactly when all checks pass and the assigned booking validates, where a `schedule` or customer in the body replaces the stored one as a whole; only that booking changes; a schedule replacement with a truthy or absent confirmed time and showroom, or a change that leaves the slot alone, keeps uniqueness |
| TestDriveController.SameSlotReplacementKeepsUnique | backend/controllers/testDrive.js:207-226 | rewriting a booking without changing its status, showroom or confirmed slot keeps uniqueness |
| TestDriveController.GetTestDrive | backend/controllers/testDrive.js:78-101 | a booking is returned exactly when it exists and the caller may read it; otherwise not found or forbidden |
| TestDriveController.UpdateTestDriveStatus | backend/controllers/testDrive.js:291-310 | an invalid status is a validation error on the status field; an unknown id is not found; otherwise only the status of that booking changes |
| TestDriveController.DeleteTestDrive | backend/controllers/testDrive.js:244-257 | deleting removes exactly that id and leaves every other booking as it was; an unknown id is not found |
| TestDriveController.DeleteKeepsUnique | backend/controllers/testDrive.js:244-257 | deletion keeps slot uniqueness |
| TestDriveController.PastBookingNeedsReschedule | backend/models/TestDrive.js:37-46 | once the requested date has passed, an update (feedback included) is accepted only if its body brings a schedule whose requested date is in the future, because the date validator runs again on every save |
| TestDriveController.RescheduleRevivesPastBooking | backend/controllers/testDrive.js:223-225 | a past booking is accepted again when the body brings a new requested date and time; the conflict re-check is skipped and the confirmed pair is dropped |
| TestDriveController.ConfirmOnlyScheduleRejected | backend/controllers/testDrive.js:206-225 | a `schedule` carrying only the confirmed pair unsets the requested date, so the save refuses it whatever the stored booking holds |
| TestDriveController.ScheduleReplacedWhole | backend/controllers/testDrive.js:223-225 | the schedule after an update with a `schedule` body does not depend on the stored schedule, and a confirmed date survives only if the body brought one |
| TestDriveController.StatusPatchCanBreakUniqueness | backend/controllers/testDrive.js:291-310 | there is a store where setting a status to confirmed, with no conflict check, makes two active bookings share a slot |
| TestDriveController.PendingRequestDoesNotBlockCreate | backend/controllers/testDrive.js:134-153 | a stored pending request without a confirmed slot never makes a later request for the same preferred slot conflict |
| TestDriveController.CreateWithConfirmedPairCanBreakUniqueness | backend/controllers/testDrive.js:134-153 | the create check looks at the preferred slot only, so a body carrying its own confirmed pair can duplicate a confirmed slot |
| TestDriveController.SortNewestFirst | backend/controllers/testDrive.js:40 | the listing is a permutation of the matched bookings, newest first |
| TestDriveController.GetTestDrives | backend/controllers/testDrive.js:8-68 | the total counts every matching booking; the page is exactly the slice at the skip, of at most `limit` bookings, of some newest-first ordering of all matching bookings; the links follow the total |
| TestDriveController.GetUserTestDrives | backend/models/TestDrive.js:178-191 | a negative skip is an error; otherwise the page is exactly the slice at the skip of some newest-first ordering of the user's bookings with the requested status, and the total counts all the user's bookings, whatever their status |
| TestDriveRoutes.Failing | backend/routes/testDrive.js:19-54 | the reported fields are exactly the rules that fail, and none are reported exactly when all pass |
| TestDriveRoutes.ValidateCreate | backend/routes/testDrive.js:19-54 | a request is refused exactly when a rule fails, with the failing fields; an accepted body has a trimmed name of 2 to 100 characters, a normalised e-mail, a valid phone, a future date, a catalogue slot, a known showroom and a message of at most 500 characters |
| TestDriveRoutes.ValidCreateMeetsSchema | backend/routes/testDrive.js:19-54 | a body the route accepts, without a status and with admin notes and feedback within the schema bounds, yields a pending booking, and the schema accepts it exactly when the lower-cased e-mail matches the schema pattern |
| TestDriveRoutes.LongNotesRefusedAtInsert | backend/models/TestDrive.js:69-88 | the route does not check admin notes or feedback, so a body it accepts with notes over 1000 characters or an out-of-range rating is refused by the schema at insert, whatever its status |
| TestDriveRoutes.GuardOf | backend/routes/testDrive.js:258-271 | the admin-only endpoints are exactly the list, the admin update, delete, the status patch and the statistics; the login-only ones are exactly my-bookings, read-one and feedback |
| TestDriveRoutes.Admit | backend/routes/testDrive.js:258-271 | a caller passes exactly when the guard is public or optional, or a login is required and present, or an admin is required and present; otherwise the answer is unauthenticated or forbidden |
| TestDriveRoutes.HandleCreate | backend/routes/testDrive.js:258 | an invalid request is refused with its failing fields and changes nothing; a stored booking passed validation, has a future date, belongs to the caller, has an e-mail matching the schema pattern, and brought admin notes and feedback within the schema bounds |
| TestDriveRoutes.HandleAdminUpdate | backend/routes/testDrive.js:268 | anonymous callers are unauthenticated, non-admins forbidden, invalid patches refused, and a valid patch for an unknown id is not found; an ISO-checked patch never meets a cast error; success means an admin sent a valid patch and only that booking changed |
| TestDriveRoutes.HandleFeedback | backend/routes/testDrive.js:264 | the feedback route needs a login and a valid feedback body; then an unknown id is not found, a stranger is forbidden, and a confirmed date that is not a date is a cast error; on success only that booking changed, to the assigned document |
| TestDriveRoutes.OwnerSetsStatusThroughFeedback | backend/routes/testDrive.js:76-85 | an owner who is refused the status patch can still cancel a booking through the feedback route, whose body may carry a status |
| TestDriveRoutes.FeedbackRouteTakesLooseDates | backend/routes/testDrive.js:76-85 | a confirmed date that parses but is not ISO 8601 is refused by the admin update route and passed through by the feedback route, which treats it as the same instant |
| TestDriveRoutes.HandleList | backend/routes/testDrive.js:87-104 | only admins list; an accepted query has page at least 1 and limit 1 to 50 (default 10); the page is exactly the slice at the skip of some newest-first ordering of the bookings matching the status and showroom filters |
| TestDriveRoutes.HandleAvailableSlots | backend/routes/testDrive.js:106-119 | the query is refused exactly when the date is not in the future or the showroom is unknown; otherwise a slot is listed exactly when it is in the catalogue and not taken |
| CartStore.AddItem | src/stores/useCartStore.ts:32-49 | a car already in the cart gets one more unit and nothing else changes; a new car is appended with quantity 1 |
| CartStore.RemoveItem | src/stores/useCartStore.ts:51-55 | the lines kept are exactly those of other cars, in their order, and the car is gone |
| CartStore.UpdateQuantity | src/stores/useCartStore.ts:57-70 | a quantity of zero or less removes the car; otherwise only that car's quantity is set |
| CartStore.ClearCart | src/stores/useCartStore.ts:72-74 | the cart is empty, with zero items and zero amount |
| CartStore.TotalItems | src/stores/useCartStore.ts:76-78 | a well-formed cart counts at least one unit per line |
| CartStore.TotalAmount | src/stores/useCartStore.ts:80-82 | with non-negative quantities and deposits the amount is non-negative |
| CartStore.OpenCart | src/stores/useCartStore.ts:84 | the cart opens and its lines are kept |
| CartStore.CloseCart | src/stores/useCartStore.ts:85 | the cart closes and its lines are kept |
| CartStore.ToggleCart | src/stores/useCartStore.ts:86 | the open flag flips and the lines are kept |
| CartStore.ToggleTwice | src/stores/useCartStore.ts:86 | toggling twice restores the cart |
| CartStore.AddItemKeepsWellFormed | src/stores/useCartStore.ts:32-49 | adding keeps one line per car and positive quantities |
| CartStore.RemoveItemKeepsWellFormed | src/stores/useCartStore.ts:51-55 | removing keeps one line per car and positive quantities |
| CartStore.UpdateQuantityKeepsWellFormed | src/stores/useCartStore.ts:57-70 | setting a quantity keeps one line per car and positive quantities |
| CartStore.AddItemTotals | src/stores/useCartStore.ts:32-49 | adding raises the item count by one and the amount by the car's deposit |
| CartStore.RemoveItemTotals | src/stores/useCartStore.ts:51-55 | removing lowers the count by the car's quantity and the amount by its subtotal |
| CartStore.UpdateQuantityTotals | src/stores/useCartStore.ts:57-70 | setting a quantity changes the count by the difference and the amount by the deposit times the difference |
| OrderModel.ParseOrderStatus | backend/models/Order.js:81-85 | an order status is accepted exactly when it is one of the enum's codes |
| OrderModel.OrderStatusRoundTrip | backend/models/Order.js:81-85 | parsing a status code gives back that status |
| OrderModel.ParsePaymentStatus | backend/models/Order.js:69-73 | a payment status is accepted exactly when it is one of the enum's codes |
| OrderModel.PaymentStatusRoundTrip | backend/models/Order.js:69-73 | parsing a payment code gives back that status |
| OrderModel.ItemsTotalNonNegative | backend/models/Order.js:20-33 | lines with a valid quantity and deposit have a non-negative total |
| OrderModel.ItemsTotalAppend | backend/models/Order.js:126-135 | the total of joined lines is the sum of the totals |
| OrderModel.OrderNumber | backend/models/Order.js:112-123 | an order number starts with "VF"; its layout and injectivity are stated by OrderModel.OrderNumberLayout and OrderModel.OrderNumberInjective |
| OrderModel.OrderNumberLayout | backend/models/Order.js:112-123 | an order number is 14 characters: "VF", then the year, month and day, then the sequence number, each a zero-padded decimal field |
| OrderModel.LongSequenceNumber | backend/models/Order.js:112-123 | from the 10000th order of the collection, the sequence field outgrows four digits |
| OrderModel.OrderNumberInjective | backend/models/Order.js:112-123 | on one date, different counts give different order numbers |
| OrderModel.NumberHook | backend/models/Order.js:112-123 | a new order gets the number of its date and count; an old one keeps its number; nothing else changes |
| OrderModel.TotalHook | backend/models/Order.js:126-135 | when the lines changed, the total and the payment amount become the lines' total; nothing else changes |
| OrderModel.CreatedOrderTotals | backend/models/Order.js:112-135 | a created order carries its number, the lines' total as both total and payment amount, and its own lines, owner and status |
| OrderModel.PreSave | backend/models/Order.js:112-135 | only the order number, the total and the payment amount change; a new order gets the number of its date and count; changed lines set both amounts to the lines' total, and unchanged lines keep them. See also OrderModel.CreatedOrderTotals and OrderModel.ResaveKeepsOrder |
| OrderModel.ResaveKeepsOrder | backend/models/Order.js:112-135 | re-saving an old order with unchanged lines changes nothing |
| OrderModel.FormattedOrderNumber | backend/models/Order.js:138-140 | the formatted number is the order number behind a '#' |
| OrderModel.OrderStatusDisplay | backend/models/Order.js:143-152 | known statuses get a label different from the code; unknown ones are shown raw |
| OrderModel.OrderStatusDisplayInjective | backend/models/Order.js:143-152 | different statuses get different labels |
| OrderModel.PaymentStatusDisplay | backend/models/Order.js:155-163 | known payment statuses get a label different from the code; unknown ones are shown raw |
| OrderModel.PaymentStatusDisplayInjective | backend/models/Order.js:155-163 | different payment statuses get different labels |
| OrderModel.SaveAsWritten | backend/models/Order.js:4-8 | as written, a save succeeds exactly when the document validates before the hooks run |
| OrderModel.NewOrderWithoutNumberRejected | backend/models/Order.js:4-8 | as written, a new order without a number is rejected, although the hook would have numbered it |
| OrderModel.Save | backend/models/Order.js:112-135 | corrected: a save succeeds exactly when the document the hooks produce validates, and stores that document |
| OrderModel.NewOrderSaved | backend/models/Order.js:112-135 | corrected: a new order is saved exactly when its own fields are valid, numbered and totalled |
| OrderController.CarIds | backend/controllers/orders.js:123-131 | the id set holds exactly the cars named by the lines |
| OrderController.CarIdsCard | backend/controllers/orders.js:123-131 | there are no more distinct cars than lines, and as many exactly when no car repeats |
| OrderController.CarCheckPasses | backend/controllers/orders.js:123-131 | the found-count check passes exactly when the lines name distinct cars that are all active, so a repeated car fails it |
| OrderController.StampPrices | backend/controllers/orders.js:134-140 | each line keeps its car, quantity and deposit and takes the car's current price |
| OrderController.StampKeepsTotal | backend/controllers/orders.js:134-140 | stamping prices leaves the order total unchanged |
| OrderController.NewOrder | backend/models/Order.js:39-62 | the customer's name is empty after the trim setter exactly when it was all white space; the e-mail holds no capital letters after the lowercase setter; lines, owner, phone, address and city are the body's |
| OrderController.BlankNameRefused | backend/models/Order.js:40-44 | a customer name of only white space fails the `required` rule, whichever order the hooks and validation run in |
| OrderController.CreateOrder | backend/controllers/orders.js:110-149 | as written: missing or repeated cars are refused; success exactly when the car check passes, the body brings both amounts and a non-empty order number (the schema is checked before the hook runs), the fields validate once the name is trimmed and the e-mail lower-cased, and the generated number is not already taken; the stored order belongs to the caller, has stamped lines, the generated number and the lines' total |
| OrderController.CreateOrderIntended | backend/controllers/orders.js:110-149 | corrected: success exactly when the car check passes, the fields validate once the name is trimmed and the e-mail lower-cased, and the generated number is free; a taken number is a duplicate-key error; the stored order is numbered, totalled and valid |
| OrderController.DeleteOrder | backend/controllers/orders.js:210-230 | deleting removes exactly that order, leaves every other one as it was and lowers the order count by one; an unknown id is not found |
| OrderController.DeletionReusesNumber | backend/models/Order.js:112-123 | after an order of a day is deleted, the number the next order of that day is given (from the document count) is still held by a stored order, so the unique index refuses it |
| OrderController.GetOrder | backend/controllers/orders.js:77-100 | an unknown id is not found; an order of another user is forbidden unless the caller is an admin; otherwise the stored order is returned |
| OrderController.GetOrders | backend/controllers/orders.js:8-60 | `page || 1` and `limit || 10`; a negative skip is an error; the total counts every matching order; the page is exactly the slice at the skip of some newest-first ordering of the matching orders |
| OrderController.Aggregate | backend/models/Order.js:182-199 | the aggregation yields one group when some paid order falls in the window and no document otherwise |
| OrderController.StatsOrDefault | backend/controllers/orders.js:297-301 | an empty aggregation reads as zero revenue and zero orders; otherwise the group is returned |
| OrderController.StatsDefaultIsEmptyGroup | backend/controllers/orders.js:288-302 | the default equals the group the matched orders would form, so the caller always sees their revenue and count |
| OrderController.GetOrderStats | backend/controllers/orders.js:288-302 | without dates the window is the last 30 days; the revenue and count are those of the paid orders inside the window |
| OrderHooks.Narrow | src/hooks/useOrders.ts:158-197 | the kept orders are exactly the matching ones, with their multiplicities, in their order; with no filters nothing is dropped |
| OrderHooks.ApplyFilters | src/hooks/useOrders.ts:158-226 | a permutation of the matching orders: sorted by the chosen key when one is given, in the original order otherwise |
| OrderHooks.FilteredOrdersMatch | src/hooks/useOrders.ts:158-226 | an order is shown exactly when it is in the list and matches every filter |
| OrderHooks.CalculateTotalMatchesHook | src/hooks/useOrders.ts:233-237 | the client computes the same total as the server's hook |
| OrderHooks.TallyAllCounts | src/hooks/useOrders.ts:239-273 | the tally adds each order's amount to the revenue and counts each order under its own status |
| OrderHooks.StatusCountsCover | src/hooks/useOrders.ts:239-273 | every order has exactly one of the five statuses or an unknown one |
| OrderHooks.CalculateOrderSummary | src/hooks/useOrders.ts:239-273 | the order count is the number of orders; revenue and status counters are stated by OrderHooks.SummaryCounts and OrderHooks.SummaryCountersCoverAll |
| OrderHooks.SummaryCounts | src/hooks/useOrders.ts:239-273 | the summary counts every order and all revenue; the status counters miss only orders with an unknown status |
| OrderHooks.SummaryCountersCoverAll | src/hooks/useOrders.ts:239-273 | when every status is known, the status counters add up to the order count |
| OrderHooks.NoUnknownStatus | src/hooks/useOrders.ts:239-273 | orders with known statuses leave the unknown count at zero |
| Paging.ParamOr | backend/controllers/testDrive.js:20-21 | `parseInt(x) || d`: a missing or zero parameter takes the default, any other value is kept |
| Paging.Paginate | backend/controllers/testDrive.js:49-61 | the next link points to the following page and the previous link to the one before, each with the same limit |
| Paging.Window | backend/controllers/testDrive.js:36-42 | the page is the run of at most `limit` items starting at the skip, in order; past the end it is empty |
| Paging.PaginateMatchesPages | backend/controllers/testDrive.js:49-61 | a next link appears exactly when the following page is non-empty, and a previous link exactly when the page is after the first |
| Paging.SortedWindow | backend/controllers/testDrive.js:36-42 | a page of a sorted listing is sorted |
| Paging.WindowOfSize | backend/controllers/testDrive.js:36-42 | a page cut from a sorted ordering of the matched documents holds only matched documents, and as many as the window between the skip and the total allows |
| Stores.Collect | backend/controllers/testDrive.js:25-36 | the collected documents are exactly the matching documents of the collection, each as often as ids hold it |
| Paging.FindPage | backend/controllers/orders.js:36-43 | the total counts every matching document; the page holds only matching documents, is in key order, and is exactly the slice at the skip of some key-ordered arrangement of all matching documents |
| Text.TrimBlank | backend/models/Order.js:40-44 | a value trims to the empty string exactly when it is all white space |
| Text.TrimIdempotent | backend/models/TestDrive.js:15-19 | trimming a trimmed value changes nothing, so the stored name is what the route already trimmed |
| Email.PlainAddressMatches | backend/models/TestDrive.js:21-29 | an ordinary address such as an@example.com matches the schema pattern |
| Email.SuffixesEndShort | backend/models/TestDrive.js:25-28 | the `(\.\w{2,3})+` tail of an address ends in a dot and two or three characters |
| Email.MatchEndsShort | backend/models/TestDrive.js:25-28 | every matching address ends in a dot followed by two or three characters |
| Email.InfoAddressRefused | backend/models/Contact.js:14-17 | no address under a four-letter top-level domain such as `.info` matches, so such a booking or contact is refused |
| CarHooks.NarrowText | src/hooks/useCars.ts:191-208 | the text filters keep exactly the cars matching search, type and brand, in order |
| CarHooks.Narrow | src/hooks/useCars.ts:191-221 | all filters keep exactly the matching cars, in order; with no filters nothing is dropped |
| CarHooks.ApplyFilters | src/hooks/useCars.ts:188-252 | a permutation of the matching cars, sorted by the chosen key when one is given, in catalogue order otherwise |
| CarHooks.FilteredCarsMatch | src/hooks/useCars.ts:188-252 | a car is shown exactly when it matches every filter, and its price lies within the given bounds |
| CarCatalog.CatalogIdsDistinct | src/data/cars.ts:32-349 | no two catalogue cars share an id |
| CarCatalog.GetCarById | src/data/cars.ts:351-353 | a found car is in the catalogue with that id; nothing is found exactly when no car has it |
| CarCatalog.GetCarByIdFindsEach | src/data/cars.ts:351-353 | each catalogue car is found by its own id |
| CarCatalog.GetCarsByType | src/data/cars.ts:355-358 | "all" lists the whole catalogue; another type lists exactly the cars of that type, in catalogue order |
| CarCatalog.GetFeaturedCars | src/data/cars.ts:360-362 | exactly the featured cars, in catalogue order |
| CarCatalog.FeaturedAreSmallVfs | src/data/cars.ts:360-362 | the featured cars of the catalogue are the VF3, VF5, VF6 and VF7 |
| CarCatalog.GetCarsByPriceRange | src/data/cars.ts:364-366 | exactly the cars priced within the closed range, in catalogue order; an inverted range lists none |
| ComparePage.IsSelectedMember | src/app/compare/page.tsx:15 | the selection check holds exactly when some selected car has the id |
| ComparePage.AddCar | src/app/compare/page.tsx:14-19 | the selection is unchanged exactly when it is full or holds the car already; otherwise the car is appended |
| ComparePage.RemoveCar | src/app/compare/page.tsx:21-23 | exactly the cars with another id stay, in order |
| ComparePage.AvailableCars | src/app/compare/page.tsx:25 | exactly the catalogue cars not selected, in catalogue order |
| ComparePage.AddCarKeepsSelectionOk | src/app/compare/page.tsx:14-19 | adding keeps at most three cars with distinct ids |
| ComparePage.RemoveCarKeepsSelectionOk | src/app/compare/page.tsx:21-23 | removing keeps at most three cars with distinct ids |
| ComparePage.AddThenRemove | src/app/compare/page.tsx:14-23 | removing a car just added restores the selection |
| ComparePage.SelectedNotAvailable | src/app/compare/page.tsx:21-25 | a selected car is not offered, and is offered again once removed |
| NewsArticle.CategoryList | src/data/news.ts:112-114 | the category of each article, in order |
| NewsArticle.CategoryListMembers | src/data/news.ts:112-114 | a category is listed exactly when some article has it |
| NewsArticle.Categories | src/data/news.ts:112-114 | the distinct categories of the articles, in order of first appearance |
| NewsData.GetNewsById | src/data/news.ts:100-102 | a found article has that id; nothing is found exactly when no article has it |
| NewsData.GetFeaturedNews | src/data/news.ts:104-106 | exactly the featured articles, in order |
| NewsData.GetNewsByCategory | src/data/news.ts:108-110 | exactly the articles of that category, in order |
| NewsData.GetCategories | src/data/news.ts:112-114 | each category once, and exactly the categories some article of the catalogue has; the catalogue's three are named by NewsData.CategoriesOfCatalogue |
| NewsData.CategoriesOfCatalogue | src/data/news.ts:14-114 | the catalogue's categories are "Sản phẩm", "Công nghệ" and "Kinh doanh" |
| NewsPage.FilteredArticles | src/app/news/page.tsx:15-20 | exactly the articles of the selected category whose title or excerpt contains the search term, in order |
| NewsPage.InitialFilterShowsAll | src/app/news/page.tsx:10-20 | the initial category "all" and empty search show every article |
| NewsPage.Rendered | src/app/news/page.tsx:115-161 | the page shows the first featured article and every non-featured one |
| NewsPage.LaterFeaturedHidden | src/app/news/page.tsx:115-161 | a featured article after the first featured one is never shown |
| NewsPage.LeadIsFirstFeatured | src/app/news/page.tsx:115 | the lead article is the first featured one, and every non-featured one still appears |
| Slug.ReplaceStrokeD | backend/models/Car.js:182 | each 'đ' or 'Đ' becomes 'd' and every other character stays |
| Slug.KeepSlugChars | backend/models/Car.js:183 | exactly the lower-case letters, digits, spaces and dashes are kept, in order |
| Slug.DashSpaces | backend/models/Car.js:184 | every run of white space becomes a dash and nothing else is introduced |
| Slug.CollapseDashes | backend/models/Car.js:185 | no two dashes remain adjacent, and only characters of the input remain |
| Slug.Finish | backend/models/Car.js:182-186 | the result is a slug: lower-case letters, digits and single dashes |
| Slug.Slugify | backend/models/Car.js:176-189 | every name gives a slug |
| Slug.FinishKeeps | backend/models/Car.js:182-186 | a slug is left unchanged by the rule |
| Slug.FinishIdempotent | backend/models/Car.js:182-186 | applying the rule twice is the same as once |
| Slug.FinishAfterReplace | backend/models/Car.js:182-186 | replacing 'đ' first changes nothing, since the rule does it anyway |
| Slug.StrokeBecomesD | backend/models/Car.js:182-186 | on lower-case letters, digits and 'đ', the rule only turns 'đ' into 'd' |
| CarModel.PrimaryImage | backend/models/Car.js:162-165 | the first image marked primary, else the first image, else none |
| CarModel.PrimaryImageIsAnImage | backend/models/Car.js:162-165 | the primary image is one of the car's images |
| CarModel.SlugHook | backend/models/Car.js:176-189 | a new or renamed car gets the slug of its name; otherwise the car is unchanged; only the slug is written |
| CarModel.SameNameSameSlug | backend/models/Car.js:176-189 | two new cars with the same name get the same slug, so the unique index refuses the second |
| CarModel.RenameRecomputesSlug | backend/models/Car.js:176-189 | after a rename the slug follows the new name |
| CarModel.SlugHookKeepsValid | backend/models/Car.js:21-136 | the slug hook keeps every schema bound |
| CarModel.GetFeatured | backend/models/Car.js:192-194 | exactly the featured active cars, newest first |
| NewsModel.SplitLength | backend/models/News.js:197-204 | the word count is between 1 and the length plus one, and 1 for text without white space |
| NewsModel.SplitLengthCountsRuns | backend/models/News.js:197-204 | the word count is exactly one more than the number of maximal runs of white space |
| NewsModel.ReadingTime | backend/models/News.js:197-204 | the reading time is at least one minute, and the smallest number of minutes that covers the words at 200 a minute |
| NewsModel.SlugHook | backend/models/News.js:181-194 | a changed title gives a new slug of it; otherwise the post is unchanged |
| NewsModel.ReadingTimeHook | backend/models/News.js:197-204 | changed content gets a fresh reading time; nothing else changes |
| NewsModel.PublishHook | backend/models/News.js:207-212 | a post gets a publication date exactly when it had one or was just published, and an existing date is never overwritten |
| NewsModel.SeoHook | backend/models/News.js:215-225 | after a title or excerpt change, blank meta fields become prefixes of the title (60 characters) and the excerpt (160); given values are kept |
| NewsModel.SeoHookIdempotent | backend/models/News.js:215-225 | running the SEO hook twice is the same as once |
| NewsModel.PreSave | backend/models/News.js:181-225 | only the slug, the reading time, the publication date and the two meta fields change; a changed title gives a well-formed slug; changed content gives a reading time of at least one minute; an existing publication date is kept. Idempotence is stated by NewsModel.PreSaveIdempotent |
| NewsModel.PreSaveIdempotent | backend/models/News.js:181-225 | saving twice with the same modified paths equals saving once, whatever the clock says the second time |
| NewsModel.ApprovedCommentsCount | backend/models/News.js:164-166 | the count is the number of approved comments, never more than the comments |
| NewsModel.AllApprovedIffFullCount | backend/models/News.js:164-166 | the count reaches the number of comments exactly when all are approved |
| NewsModel.GetPublished | backend/models/News.js:228-249 | a negative skip is an error; otherwise the result is exactly the slice at the skip, of at most `limit` posts, of some newest-first ordering of the published posts matching the filters |
| ContactModel.ParseSubject | backend/models/Contact.js:24-28 | a subject is accepted exactly when it is one of the enum's codes |
| ContactModel.ParseStatus | backend/models/Contact.js:34-38 | a status is accepted exactly when it is one of the enum's codes |
| ContactModel.ParsePriority | backend/models/Contact.js:39-43 | a priority is accepted exactly when it is one of the enum's codes |
| ContactModel.CodesRoundTrip | backend/models/Contact.js:24-43 | parsing any enum code gives back its value |
| ContactModel.AutoPriority | backend/models/Contact.js:143-155 | purchase requests are urgent, warranty and service requests high, all others keep their priority |
| ContactModel.PreSave | backend/models/Contact.js:143-155 | only a new contact is reprioritised, and only its priority changes |
| ContactModel.PreSaveIdempotent | backend/models/Contact.js:143-155 | the priority rule applied twice equals once |
| ContactModel.SubmitPriority | backend/controllers/contact.js:110-130 | a submitted form is urgent for a purchase, high for warranty or service, and otherwise the given priority or medium |
| ContactModel.Submit | backend/controllers/contact.js:110-130 | the whole body is stored: the status is the body's or new, and the assignee, response and follow-up date are the body's; a body with only the form fields starts new and unanswered; the name is trimmed, the contact is stamped with the time of submission, and its e-mail holds no capital letters |
| ContactModel.SubmissionOverdueOnlyWithFollowUp | backend/models/Contact.js:207-215 | a submission is overdue later only if its body brought a follow-up date and an open or absent status; a form-only, resolved or closed submission never is |
| ContactModel.SubmitEmailRule | backend/models/Contact.js:10-18 | a submitted contact validates only if its lower-cased e-mail matches the schema pattern, and lower-casing before submission changes nothing |
| ContactModel.PreSaveKeepsValid | backend/models/Contact.js:143-155 | the priority rule keeps a valid contact valid |
| ContactModel.StatusDisplay | backend/models/Contact.js:99-107 | unknown statuses are shown raw |
| ContactModel.SubjectDisplay | backend/models/Contact.js:110-120 | unknown subjects are shown raw |
| ContactModel.PriorityDisplay | backend/models/Contact.js:123-131 | unknown priorities are shown raw |
| ContactModel.DisplaysInjective | backend/models/Contact.js:99-131 | different statuses, and different priorities, get different labels |
| ContactModel.RoundHours | backend/models/Contact.js:134-140 | the hours are the elapsed time rounded to the nearest hour |
| ContactModel.ResponseTime | backend/models/Contact.js:134-140 | a response time exists exactly when a dated response exists, and it is the rounded hours since the contact was created |
| ContactModel.OverdueStaysOverdue | backend/models/Contact.js:207-215 | an overdue contact stays overdue as time passes |
| ContactModel.OverdueNeedsOpenFollowUp | backend/models/Contact.js:207-215 | an overdue contact is new or in progress and has a follow-up date |
| ContactController.RespondedStatus | backend/controllers/contact.js:260-262 | a new contact moves to in progress when answered; any other status is kept |
| ContactController.RespondToContact | backend/controllers/contact.js:231-273 | an unknown id is not found; otherwise the reply, its author and time are recorded, the status leaves "new", and only that contact changes |
| ContactController.RespondTwice | backend/controllers/contact.js:231-273 | a second reply replaces the first and its time, and keeps the status the first reply set |
| ContactController.LowListedBeforeHigh | backend/controllers/contact.js:46 | as written, the descending string order lists a low-priority contact before a high-priority one |
| ContactController.PriorityRank | backend/models/Contact.js:39-43 | the enum priorities rank 0 to 3, anything else −1 |
| ContactController.RankFollowsUrgency | backend/models/Contact.js:39-43 | low < medium < high < urgent in rank |
| ContactController.UrgentFirst | backend/controllers/contact.js:46 | corrected: in the urgency order no contact follows a less urgent one, and high comes before low |
| ContactController.UrgentPage | backend/controllers/contact.js:43-48 | a page of contacts is exactly the slice at the skip, of at most `limit` contacts, of some most-urgent-first ordering of the list |
| ContactController.GetContacts | backend/controllers/contact.js:19-67 | `page || 1` and `limit || 20`; a negative skip is an error; the total counts every matching contact; the page is exactly the slice at the skip of some most-urgent-first ordering of the matching contacts |
| ContactController.GetOverdue | backend/models/Contact.js:207-215 | exactly the overdue contacts of the store |
| ContactController.RespondKeepsOverdue | backend/models/Contact.js:207-215 | answering an overdue contact leaves it on the overdue list: the reply keeps it open and does not move its follow-up date |
| ErrorHandler.Join | backend/middleware/errorHandler.js:36-39 | the joined messages begin with the first one, have the parts' length plus two per separator, and are empty only when there is nothing to join |
| ErrorHandler.DuplicateKeyMessage | backend/middleware/errorHandler.js:19-33 | the duplicate-key message names the e-mail, the phone or the title by the first duplicated field, and is generic otherwise |
| ErrorHandler.Send | backend/middleware/errorHandler.js:63-66 | the reply always has a non-zero status and a non-empty message, keeping those the error gives |
| ErrorHandler.Handle | backend/middleware/errorHandler.js:4-66 | every error gets a non-zero status and a non-empty message |
| ErrorHandler.HandleFollowsLastMatch | backend/middleware/errorHandler.js:4-66 | the reply comes from the last rule that applies, or from the error itself when none does |
| ErrorHandler.CastErrorIsNotFound | backend/middleware/errorHandler.js:13-16 | an invalid identifier is a 404 for a missing resource |
| ErrorHandler.DuplicateKeyIsBadRequest | backend/middleware/errorHandler.js:19-33 | a duplicate key is a 400 naming the first duplicated field |
| ErrorHandler.ValidationIsBadRequest | backend/middleware/errorHandler.js:36-39 | a validation failure is a 400 listing the field messages, or the generic message when they are all empty |
| ErrorHandler.TokenErrorsAreUnauthorized | backend/middleware/errorHandler.js:42-50 | an invalid or expired token is a 401 with its own message |
| ErrorHandler.UploadCodesWin | backend/middleware/errorHandler.js:53-61 | the upload codes decide the reply whatever the error's name |
| ErrorHandler.UnknownErrorKeepsItsStatus | backend/middleware/errorHandler.js:63-66 | an error no rule knows keeps its status (or 500) and its message (or the generic one) |
| ErrorHandler.MatchedRuleIsClientError | backend/middleware/errorHandler.js:13-61 | whenever a rule applies, the reply is 400, 401 or 404 |
| Postman.RemoveFirst | backend/scripts/generatePostman.js:144 | removing the prefix from a reference that starts with it leaves the component name; at most one occurrence is removed |
| Postman.LeafSample | backend/scripts/generatePostman.js:164-179 | an example wins; a string is "user@example.com", "2024-12-01" or "2024-12-01T10:00:00Z" for the email, date and date-time formats, else the first enum value (undefined for an empty enum), else "string"; a number is its minimum or 0; a boolean is true; anything else is null |
| Postman.Generate | backend/scripts/generatePostman.js:142-181 | a reference yields nothing once the bound is spent; a schema that is neither object nor array yields its leaf sample; an object sample has the schema's keys in order; an array sample has one item, null when there is no item schema. The contents are stated by Postman.ObjectSample, Postman.ArraySample and Postman.RefResolution |
| Postman.EmptyIsNull | backend/scripts/generatePostman.js:178-179 | the empty schema yields null |
| Postman.RefResolution | backend/scripts/generatePostman.js:143-146 | a reference generates from the component it names, and from the empty schema when no component has that name |
| Postman.PrefixedRefNamesComponent | backend/scripts/generatePostman.js:143-146 | a reference of the usual form names the component after the prefix |
| Postman.ObjectSample | backend/scripts/generatePostman.js:148-157 | an object sample has exactly the schema's keys, in order, each generated from its property schema |
| Postman.ObjectFromProperties | backend/scripts/generatePostman.js:148-157 | once every property has a sample, the object has one made of them |
| Postman.ArraySample | backend/scripts/generatePostman.js:159-161 | an array sample holds one item generated from the item schema, or from the empty one |
| Postman.RefFreeSampleFits | backend/scripts/generatePostman.js:142-181 | a schema without references always yields a sample, and that sample fits the schema |
| Postman.MoreFuelSameSample | backend/scripts/generatePostman.js:142-181 | the recursion bound only cuts reference cycles: once a sample exists, a larger bound gives the same sample |
| Postman.SelfReferenceNeverEnds | backend/scripts/generatePostman.js:143-146 | a schema that refers to itself never yields a sample |
| Seo.FullTitle | src/components/SEO.tsx:20 | a title naming the brand is kept; any other gets " \| VinFast" appended |
| Seo.FullTitleNamesBrand | src/components/SEO.tsx:20 | every full title names the brand |
| Seo.FullTitleIdempotent | src/components/SEO.tsx:20 | applying the rule twice is the same as once, and the page's title is a prefix of what is shown |
| Seo.DefaultTitleUnchanged | src/components/SEO.tsx:13-20 | the default title already names the brand and is shown as it is |

## Left out

- I/O is not modelled. That covers HTTP, the storage engine, `populate`, the console logs and
  the collection file written by the script. Each handler takes and returns the store as a
  `map`.
- Concurrency is not modelled. In the source, `checkConflict` followed by `create` is not
  atomic, and neither is `countDocuments` followed by the order number. Two concurrent
  requests can both pass the check.
- The clock (`Date.now()`, `new Date()`), the calendar date of an order and date formatting
  (`toLocaleDateString`) are parameters. The end-of-day rounding of the order date filter is a
  parameter too.
- Unicode folding is a parameter of the slug rule (`normalize('NFD')` plus removal of the
  combining marks). `toLowerCase` is modelled on ASCII only, with 'Đ' handled explicitly by
  the slug rule.
- `Text.IsSpace` covers the ASCII white space, the no-break space and the byte-order mark.
  JavaScript's `\s` also covers the other Unicode space separators and the line and
  paragraph separators, which this model does not.
- Strings are sequences of Unicode scalar values. JavaScript counts UTF-16 code units in
  `length` and `substring`, so the 60 and 160 character limits of the SEO hook differ for
  characters outside the Basic Multilingual Plane. Sorting.StrLess compares scalar values
  where JavaScript's `<` compares UTF-16 code units, so a character outside the Basic
  Multilingual Plane sorts after U+E000-U+FFFF here and before them in JavaScript.
- JavaScript's `sort` does not fix the order of equal keys. The model sorts stably and states
  only sortedness and permutation.
- ContactController.GetContacts does not model the `createdAt` tie-break of the contact
  listing, and it sorts by the corrected urgency order (see Findings).
- The average order value of the revenue statistics is not modelled, because it is
  floating-point. A car's `ratingAverage` is a `real`.
- `getTestDriveStats` and the other aggregation pipelines are not modelled, apart from
  `getRevenueStats`.
- Request bodies are taken as already cast, apart from a creation's requested date and the dates
  of an update's `schedule`; a creation's confirmed date is taken as already cast. A rating that
  is not a number, a user, car or staff id that is not an object id, and a JSON `null` in an
  update body are not modelled.
- The `reminderSent`, `completedAt`, `cancelledAt` and `cancelReason` fields of a booking are not
  modelled, since no handler of the model reads or writes them.
- TestDriveController.UpdateTestDrive does not promise uniqueness after an update that changes
  the status or the showroom without a `schedule`, because the source re-checks conflicts only
  when the schedule carries a confirmed date or time.
- TestDriveController.GetTestDrives requires page >= 1 and limit >= 1, which the route
  validation guarantees before the controller runs (TestDriveRoutes.HandleList).
- Paging.Paginate states only the values of the links. When each link is present is stated by
  Paging.PaginateMatchesPages.
- ErrorHandler.Handle assumes `keyValue` is present on a duplicate-key error, since an absent
  one throws in the source. Printing the stack in development mode is not modelled.
- backend/utils/errorResponse.js is not part of this model. An application error is modelled
  by its `statusCode` and `message` only.
- backend/middleware/auth.js is not part of this model. `TestDriveRoutes.Admit` takes
  `protect` to answer 401 without a user and `authorize` to answer 403 for a wrong role.
- The validator library's `isEmail`, `normalizeEmail` and `isMongoId` are parameters of the
  route validation.
- OrderController.CreateOrder / OrderController.GetOrders: backend/routes/orders.js is not part
  of this model, so the controllers' own `validationResult` answer of 400 is not modelled. Their
  "exactly when" statements hold for bodies and queries the route accepts: at least one line,
  the customer fields and payment method as the route checks them, page >= 1 and limit 1-50.
  An empty `items` list passes the model's car check, whereas the route refuses it.
- ContactModel.Submit stamps `createdAt` with the time of submission; a `createdAt` sent in the
  body is not modelled. The body's `tags`, `source`, `customerType`, `notes` and `resolvedAt`
  are not modelled, since no modelled operation reads them.
- Postman.Generate bounds how often a `$ref` is followed. `None` stands for the unbounded
  recursion a cycle of references causes in the script, where a stack overflow would occur.
  Property keys are assumed distinct, as in a JSON object.
- The React rendering, the toast messages, `localStorage` persistence of the cart and the
  remaining pages are not modelled.

## Findings

| source | as written | input that shows it | evidently intended | confidence | as-written member | corrected member |
|---|---|---|---|---|---|---|
| backend/models/Order.js:4-8 | `orderNumber` is `required`, yet only the pre-save hook (lines 112-123) fills it in. Mongoose validates before running the pre-save hooks. | a new order created without `orderNumber`, as `createOrder` does | validation sees the number the hook generates, so a new order is numbered and saved | medium, not executed | OrderModel.NewOrderWithoutNumberRejected | OrderModel.NewOrderSaved |
| backend/controllers/contact.js:46 | `sort({ priority: -1 })` compares the priority strings, giving the descending order urgent, medium, low, high | one contact with priority "low" and one with "high": "low" is listed first | the most urgent contacts first: urgent, high, medium, low | high, not executed | ContactController.LowListedBeforeHigh | ContactController.UrgentFirst |

=== FILE: access.dfy ===
/** Who is calling: the `protect` middleware's `req.user`, reduced to an id and a role. */
module Access {
  import opened Wrappers

  datatype Role = Admin | User

  /** The authenticated caller (`req.user`). */
  datatype Caller = Caller(id: nat, role: Role)

  /** The owner-or-admin rule shared by the test-drive, order and comment handlers: the caller is
      the document's owner, or an admin. A document without an owner is an admin's alone. */
  predicate OwnerOrAdmin(owner: Option<nat>, caller: Caller) {
    (owner.Some? && owner.value == caller.id) || caller.role == Admin
  }
}

=== FILE: car_catalog.dfy ===
/** The static car catalogue of the storefront and its four lookups. */
module CarCatalog {
  import opened Wrappers
  import Seqs

  datatype CarType = Sedan | Suv | Electric

  function TypeCode(t: CarType): string {
    match t
    case Sedan => "sedan"
    case Suv => "suv"
    case Electric => "electric"
  }

  /** The fields of a catalogue car that the lookups read (prices in VND). */
  datatype Car = Car(id: string, name: string, carType: CarType, price: int, year: int, isElectric: bool, isFeatured: bool)

  const Vf3 := Car("vf3", "VinFast VF 3", Electric, 240000000, 2024, true, true)
  const Vf5 := Car("vf5", "VinFast VF 5", Electric, 458000000, 2024, true, true)
  const Vf6 := Car("vf6", "VinFast VF 6", Electric, 765000000, 2024, true, true)
  const Vf7 := Car("vf7", "VinFast VF 7", Electric, 999000000, 2024, true, true)
  const Vf8 := Car("vf8", "VinFast VF 8", Electric, 1200000000, 2024, true, false)
  const Vf9 := Car("vf9", "VinFast VF 9", Electric, 1500000000, 2024, true, false)
  const LuxA20 := Car("lux-a20", "VinFast Lux A2.0", Sedan, 880000000, 2023, false, false)
  const LuxSa20 := Car("lux-sa20", "VinFast Lux SA2.0", Suv, 1080000000, 2023, false, false)

  const Catalog: seq<Car> := [Vf3, Vf5, Vf6, Vf7, Vf8, Vf9, LuxA20, LuxSa20]

  /** A number that differs between any two catalogue ids: their length and third character. */
  function IdTag(id: string): int {
    |id| * 1000 + if |id| > 2 then id[2] as int else 0
  }

  /** No two cars of the list share an id. */
  predicate IdsDistinct(cars: seq<Car>) {
    forall i, j :: 0 <= i < j < |cars| ==> cars[i].id != cars[j].id
  }

  /** Numbers that grow from each one to the next grow from any one to any later one. */
  lemma {:induction false} Increasing(t: seq<int>, i: int, j: int)
    requires forall k :: 0 <= k < |t| - 1 ==> t[k] < t[k + 1]
    requires 0 <= i < j < |t|
    ensures t[i] < t[j]
    decreases j - i
  {
    if j > i + 1 {
      Increasing(t, i, j - 1);
    }
  }

  /** The catalogue's ids are pairwise distinct, so an id names at most one car. */
  lemma CatalogIdsDistinct()
    ensures IdsDistinct(Catalog)
  {
    var cars := Catalog;
    var tags := [3051, 3053, 3054, 3055, 3056, 3057, 7120, 8120];
    forall k | 0 <= k < |cars|
      ensures IdTag(cars[k].id) == tags[k]
    {
    }
    forall i, j | 0 <= i < j < |cars|
      ensures cars[i].id != cars[j].id
    {
      Increasing(tags, i, j);
    }
  }

  function HasId(id: string): Car -> bool {
    (c: Car) => c.id == id
  }

  /** `getCarById`: the first car with that id, or `undefined`. */
  function GetCarById(id: string): (r: Option<Car>)
    ensures r.Some? ==> r.value in Catalog && r.value.id == id
    ensures r.None? <==> forall c :: c in Catalog ==> c.id != id
  {
    Seqs.Find(Catalog, HasId(id))
  }

  /** In a list with distinct ids, looking a car's id up finds that car. */
  lemma FindUniqueId(cars: seq<Car>, i: int)
    requires IdsDistinct(cars) && 0 <= i < |cars|
    ensures Seqs.Find(cars, HasId(cars[i].id)) == Some(cars[i])
  {
    var r := Seqs.Find(cars, HasId(cars[i].id));
    assert cars[i] in cars && HasId(cars[i].id)(cars[i]);
    var k :| 0 <= k < |cars| && cars[k] == r.value;
    assert !(k < i) && !(i < k);
  }

  /** Every catalogue car is found by its own id, and only by it. */
  lemma GetCarByIdFindsEach(i: int)
    requires 0 <= i < |Catalog|
    ensures GetCarById(Catalog[i].id) == Some(Catalog[i])
  {
    CatalogIdsDistinct();
    FindUniqueId(Catalog, i);
  }

  function OfType(t: string): Car -> bool {
    (c: Car) => TypeCode(c.carType) == t
  }

  /** `getCarsByType`: `'all'` is the whole catalogue, any other value the cars of that type. */
  function GetCarsByType(t: string): (r: seq<Car>)
    ensures t == "all" ==> r == Catalog
    ensures t != "all" ==> forall c :: c in r <==> c in Catalog && TypeCode(c.carType) == t
    ensures Seqs.IsSubsequence(r, Catalog)
  {
    Seqs.SubsequenceRefl(Catalog);
    if t == "all" then Catalog else Seqs.Filter(Catalog, OfType(t))
  }

  function Featured(c: Car): bool {
    c.isFeatured
  }

  /** `getFeaturedCars`: the featured cars in catalogue order. */
  function GetFeaturedCars(): (r: seq<Car>)
    ensures forall c :: c in r <==> c in Catalog && c.isFeatured
    ensures Seqs.IsSubsequence(r, Catalog)
  {
    Seqs.Filter(Catalog, Featured)
  }

  /** The featured cars are exactly the VF 3, VF 5, VF 6 and VF 7, and they come in that order. */
  lemma FeaturedAreSmallVfs()
    ensures forall c :: c in GetFeaturedCars() <==> c in [Vf3, Vf5, Vf6, Vf7]
    ensures Seqs.IsSubsequence(GetFeaturedCars(), Catalog)
  {
  }

  function InRange(min: int, max: int): Car -> bool {
    (c: Car) => min <= c.price <= max
  }

  /** `getCarsByPriceRange`: both bounds inclusive; an inverted range selects nothing. */
  function GetCarsByPriceRange(min: int, max: int): (r: seq<Car>)
    ensures forall c :: c in r <==> c in Catalog && min <= c.price <= max
    ensures Seqs.IsSubsequence(r, Catalog)
    ensures min > max ==> r == []
  {
    InvertedRangeSelectsNothing(Catalog, min, max);
    Seqs.Filter(Catalog, InRange(min, max))
  }

  lemma InvertedRangeSelectsNothing(cars: seq<Car>, min: int, max: int)
    ensures min > max ==> Seqs.Filter(cars, InRange(min, max)) == []
  {
    if min > max {
      Seqs.FilterNone(cars, InRange(min, max));
    }
  }
}

=== FILE: car_hooks.dfy ===
/** The client-side list filter of the car pages (`useCarFilters.applyFilters`). */
module CarHooks {
  import opened Wrappers
  import Text
  import Seqs
  import Sorting

  /** The fields of a listed car that the filter reads; `createdAt` is the parsed timestamp. */
  datatype ListedCar = ListedCar(
    id: string,
    name: string,
    description: string,
    brand: string,
    carType: string,
    price: int,
    year: int,
    createdAt: int)

  datatype SortField = ByPrice | ByName | ByYear | ByCreatedAt

  /** The filter form. `desc` is `sortOrder === 'desc'`; any other order sorts ascending. */
  datatype Filters = Filters(
    search: Option<string>,
    carType: Option<string>,
    brand: Option<string>,
    minPrice: Option<int>,
    maxPrice: Option<int>,
    year: Option<int>,
    sortBy: Option<SortField>,
    desc: bool)

  /** A text filter is applied only when it is a non-empty string. */
  predicate Given(s: Option<string>) {
    s.Some? && s.value != ""
  }

  /** The year filter is applied only when the year is truthy, so 0 switches it off. */
  predicate YearGiven(y: Option<int>) {
    y.Some? && y.value != 0
  }

  /** Name, description and brand are all matched case-insensitively. */
  predicate MatchesSearch(c: ListedCar, term: string) {
    var t := Text.Lower(term);
    || Text.Contains(Text.Lower(c.name), t)
    || Text.Contains(Text.Lower(c.description), t)
    || Text.Contains(Text.Lower(c.brand), t)
  }

  predicate PassSearch(f: Filters, c: ListedCar) {
    Given(f.search) ==> MatchesSearch(c, f.search.value)
  }

  predicate PassType(f: Filters, c: ListedCar) {
    Given(f.carType) ==> c.carType == f.carType.value
  }

  predicate PassBrand(f: Filters, c: ListedCar) {
    Given(f.brand) ==> c.brand == f.brand.value
  }

  /** The price bounds are tested against `undefined` only, so a bound of 0 still applies. */
  predicate PassPrice(f: Filters, c: ListedCar) {
    && (f.minPrice.Some? ==> c.price >= f.minPrice.value)
    && (f.maxPrice.Some? ==> c.price <= f.maxPrice.value)
  }

  predicate PassYear(f: Filters, c: ListedCar) {
    YearGiven(f.year) ==> c.year == f.year.value
  }

  predicate PassText(f: Filters, c: ListedCar) {
    PassSearch(f, c) && PassType(f, c) && PassBrand(f, c)
  }

  /** A car passes every filter that is set. */
  predicate Matches(f: Filters, c: ListedCar) {
    PassText(f, c) && PassPrice(f, c) && PassYear(f, c)
  }

  /** No filter is set. */
  predicate NoFilters(f: Filters) {
    && !Given(f.search) && !Given(f.carType) && !Given(f.brand)
    && f.minPrice.None? && f.maxPrice.None? && !YearGiven(f.year)
  }

  function SortKey(field: SortField): ListedCar -> Sorting.Key {
    match field
    case ByPrice => (c: ListedCar) => Sorting.Num(c.price)
    case ByName => (c: ListedCar) => Sorting.Str(Text.Lower(c.name))
    case ByYear => (c: ListedCar) => Sorting.Num(c.year)
    case ByCreatedAt => (c: ListedCar) => Sorting.Num(c.createdAt)
  }

  /** The search, type and brand steps, in their order. */
  function NarrowText(cars: seq<ListedCar>, f: Filters): (r: seq<ListedCar>)
    ensures forall c :: multiset(r)[c] == if PassText(f, c) then multiset(cars)[c] else 0
    ensures Seqs.IsSubsequence(r, cars)
    ensures !Given(f.search) && !Given(f.carType) && !Given(f.brand) ==> r == cars
  {
    var bySearch := Seqs.FilterWhen(Given(f.search), cars, (c: ListedCar) => PassSearch(f, c));
    var byType := Seqs.FilterWhen(Given(f.carType), bySearch, (c: ListedCar) => PassType(f, c));
    var byBrand := Seqs.FilterWhen(Given(f.brand), byType, (c: ListedCar) => PassBrand(f, c));
    Seqs.SubsequenceTransitive(byBrand, byType, bySearch);
    Seqs.SubsequenceTransitive(byBrand, bySearch, cars);
    byBrand
  }

  /** Every filter step of `applyFilters`, in their order; the two price bounds are consecutive
      steps and act as one. The input is copied first and never changed. */
  function Narrow(cars: seq<ListedCar>, f: Filters): (r: seq<ListedCar>)
    ensures forall c :: multiset(r)[c] == if Matches(f, c) then multiset(cars)[c] else 0
    ensures Seqs.IsSubsequence(r, cars)
    ensures NoFilters(f) ==> r == cars
  {
    var byText := NarrowText(cars, f);
    var byPrice := Seqs.FilterWhen(f.minPrice.Some? || f.maxPrice.Some?, byText, (c: ListedCar) => PassPrice(f, c));
    var byYear := Seqs.FilterWhen(YearGiven(f.year), byPrice, (c: ListedCar) => PassYear(f, c));
    Seqs.SubsequenceTransitive(byYear, byPrice, byText);
    Seqs.SubsequenceTransitive(byYear, byText, cars);
    byYear
  }

  /** `applyFilters`: the filters, then the optional sort. */
  function ApplyFilters(cars: seq<ListedCar>, f: Filters): (r: seq<ListedCar>)
    ensures forall c :: multiset(r)[c] == if Matches(f, c) then multiset(cars)[c] else 0
    ensures f.sortBy.None? ==> Seqs.IsSubsequence(r, cars)
    ensures f.sortBy.Some? ==> Sorting.Sorted(r, SortKey(f.sortBy.value), f.desc)
    ensures NoFilters(f) && f.sortBy.None? ==> r == cars
  {
    var narrowed := Narrow(cars, f);
    if f.sortBy.Some? then Sorting.Sort(narrowed, SortKey(f.sortBy.value), f.desc) else narrowed
  }

  /** The filtered list holds exactly the cars that pass every filter that is set; in particular
      every listed price lies within the given bounds, both inclusive. */
  lemma FilteredCarsMatch(cars: seq<ListedCar>, f: Filters)
    ensures forall c :: c in ApplyFilters(cars, f) <==> c in cars && Matches(f, c)
    ensures forall c :: c in ApplyFilters(cars, f) && f.minPrice.Some? ==> c.price >= f.minPrice.value
    ensures forall c :: c in ApplyFilters(cars, f) && f.maxPrice.Some? ==> c.price <= f.maxPrice.value
  {
    var r := ApplyFilters(cars, f);
    forall c ensures c in r <==> c in cars && Matches(f, c) {
      assert c in r <==> multiset(r)[c] > 0;
      assert c in cars <==> multiset(cars)[c] > 0;
    }
  }
}

=== FILE: car_model.dfy ===
/** A car document of the back office: its field bounds, the `primaryImage` virtual, the slug
    hook and the `getFeatured` query. */
module CarModel {
  import opened Wrappers
  import Text
  import Seqs
  import Sorting
  import Slug

  datatype Image = Image(url: string, alt: string, isPrimary: bool)

  /** The fields of a car document that the hooks, virtuals and queries read. */
  datatype CarDoc = CarDoc(
    name: string,
    slug: string,
    carType: string,
    price: int,
    year: int,
    description: string,
    seating: int,
    stock: int,
    sold: int,
    ratingAverage: real,
    images: seq<Image>,
    isFeatured: bool,
    isActive: bool,
    createdAt: int)

  /** The schema bounds. The upper bound of `year` is read from the clock when the schema is
      loaded, so it is a parameter here. */
  predicate SchemaValid(c: CarDoc, currentYear: int) {
    && 0 < |c.name| <= 100
    && Text.OneOf(c.carType, ["sedan", "suv", "electric"])
    && c.price >= 0
    && 2020 <= c.year <= currentYear + 1
    && 0 < |c.description| <= 1000
    && 2 <= c.seating <= 9
    && c.stock >= 0
    && c.sold >= 0
    && 0.0 <= c.ratingAverage <= 5.0
    && (forall i :: 0 <= i < |c.images| ==> c.images[i].url != "")
  }

  function IsPrimary(img: Image): bool {
    img.isPrimary
  }

  /** Image `i` is the first one marked primary. */
  predicate FirstPrimary(images: seq<Image>, i: int) {
    0 <= i < |images| && images[i].isPrimary && forall j :: 0 <= j < i ==> !images[j].isPrimary
  }

  predicate NoPrimary(images: seq<Image>) {
    forall j :: 0 <= j < |images| ==> !images[j].isPrimary
  }

  /** `primaryImage`: the url of the first image marked primary, else of the first image, else
      null. */
  function PrimaryImage(c: CarDoc): (r: Option<string>)
    ensures r.None? <==> |c.images| == 0
    ensures forall i :: FirstPrimary(c.images, i) ==> r == Some(c.images[i].url)
    ensures |c.images| > 0 && NoPrimary(c.images) ==> r == Some(c.images[0].url)
  {
    match Seqs.FindIndex(c.images, IsPrimary)
    case Some(k) => Some(c.images[k].url)
    case None => if |c.images| > 0 then Some(c.images[0].url) else None
  }

  /** The primary image is always one of the car's images. */
  lemma PrimaryImageIsAnImage(c: CarDoc)
    ensures PrimaryImage(c).Some? ==> exists img :: img in c.images && img.url == PrimaryImage(c).value
  {
    match Seqs.FindIndex(c.images, IsPrimary)
    case Some(k) => assert c.images[k] in c.images;
    case None => if |c.images| > 0 { assert c.images[0] in c.images; }
  }

  /** The slug hook: recomputed from the name for a new car or a changed name. */
  function SlugHook(c: CarDoc, nameModified: bool, isNew: bool, fold: string -> string): (r: CarDoc)
    ensures nameModified || isNew ==> r.slug == Slug.Slugify(c.name, fold) && Slug.IsSlug(r.slug)
    ensures r == c.(slug := r.slug)
    ensures !nameModified && !isNew ==> r == c
  {
    if nameModified || isNew then c.(slug := Slug.Slugify(c.name, fold)) else c
  }

  /** Two cars saved with the same name get the same slug, so the unique index on `slug`
      rejects the second one. */
  lemma SameNameSameSlug(a: CarDoc, b: CarDoc, fold: string -> string)
    requires a.name == b.name
    ensures SlugHook(a, false, true, fold).slug == SlugHook(b, false, true, fold).slug
  {
  }

  /** Saving a new car and saving it again after a rename both leave a slug of the current name. */
  lemma RenameRecomputesSlug(c: CarDoc, newName: string, fold: string -> string)
    ensures var created := SlugHook(c, false, true, fold);
      var renamed := SlugHook(created.(name := newName), true, false, fold);
      renamed.slug == Slug.Slugify(newName, fold) && renamed.name == newName
  {
  }

  /** The hook keeps a valid car valid: it writes only the slug. */
  lemma SlugHookKeepsValid(c: CarDoc, nameModified: bool, isNew: bool, fold: string -> string, currentYear: int)
    requires SchemaValid(c, currentYear)
    ensures SchemaValid(SlugHook(c, nameModified, isNew, fold), currentYear)
  {
  }

  /** The query of `getFeatured`. */
  predicate FeaturedAndActive(c: CarDoc) {
    c.isFeatured && c.isActive
  }

  function CreatedAtKey(c: CarDoc): Sorting.Key {
    Sorting.Num(c.createdAt)
  }

  /** `getFeatured`: the featured active cars, newest first. */
  function GetFeatured(cars: seq<CarDoc>): (r: seq<CarDoc>)
    ensures forall c :: c in r <==> c in cars && FeaturedAndActive(c)
    ensures Sorting.Sorted(r, CreatedAtKey, true)
  {
    var matched := Seqs.Filter(cars, FeaturedAndActive);
    Sorting.SortKeepsMembers(matched, CreatedAtKey, true);
    Sorting.Sort(matched, CreatedAtKey, true)
  }
}

=== FILE: cart_store.dfy ===
/** The client-side shopping cart: a list of cart lines, one per car, and whether the cart drawer
    is open. Amounts are integer VND. */
module CartStore {
  import Seqs

  /** One cart line: the car (by id), how many, the chosen colour and the deposit per unit. */
  datatype CartItem = CartItem(carId: string, quantity: int, color: string, deposit: int)

  datatype Cart = Cart(items: seq<CartItem>, isOpen: bool)

  /** The empty, closed cart the store starts from. */
  const Initial: Cart := Cart([], false)

  /** `items.find(item => item.car.id === carId)` succeeds. */
  predicate HasCar(items: seq<CartItem>, carId: string) {
    |items| > 0 && (items[0].carId == carId || HasCar(items[1..], carId))
  }

  lemma {:induction false} HasCarIndex(items: seq<CartItem>, carId: string)
    ensures HasCar(items, carId) <==> exists i :: 0 <= i < |items| && items[i].carId == carId
  {
    if |items| > 0 {
      HasCarIndex(items[1..], carId);
      if exists i :: 0 <= i < |items| && items[i].carId == carId {
        var i :| 0 <= i < |items| && items[i].carId == carId;
        if i > 0 {
          assert items[1..][i - 1].carId == carId;
        }
      }
      if HasCar(items[1..], carId) {
        var i :| 0 <= i < |items[1..]| && items[1..][i].carId == carId;
        assert items[i + 1].carId == carId;
      }
    }
  }

  /** No car id appears on two lines. */
  predicate UniqueIds(items: seq<CartItem>) {
    |items| == 0 || (!HasCar(items[1..], items[0].carId) && UniqueIds(items[1..]))
  }

  lemma {:induction false} UniqueIdsPairwise(items: seq<CartItem>)
    ensures UniqueIds(items) <==> forall i, j :: 0 <= i < j < |items| ==> items[i].carId != items[j].carId
  {
    if |items| > 0 {
      var rest := items[1..];
      UniqueIdsPairwise(rest);
      HasCarIndex(rest, items[0].carId);
      if UniqueIds(items) {
        forall i, j | 0 <= i < j < |items| ensures items[i].carId != items[j].carId {
          if i > 0 {
            assert items[i] == rest[i - 1] && items[j] == rest[j - 1];
          } else {
            assert items[j] == rest[j - 1];
          }
        }
      }
      if forall i, j :: 0 <= i < j < |items| ==> items[i].carId != items[j].carId {
        forall i, j | 0 <= i < j < |rest| ensures rest[i].carId != rest[j].carId {
          assert rest[i] == items[i + 1] && rest[j] == items[j + 1];
        }
        forall i | 0 <= i < |rest| ensures rest[i].carId != items[0].carId {
          assert rest[i] == items[i + 1];
        }
      }
    }
  }

  /** What every reachable cart satisfies: one line per car, each with a positive quantity. */
  predicate WellFormed(c: Cart) {
    UniqueIds(c.items) && forall i :: 0 <= i < |c.items| ==> c.items[i].quantity >= 1
  }

  /** The quantity and deposit of the first line for `carId`, or 0 without one. */
  function QuantityOf(items: seq<CartItem>, carId: string): (q: int)
    ensures !HasCar(items, carId) ==> q == 0
  {
    if |items| == 0 then 0
    else if items[0].carId == carId then items[0].quantity
    else QuantityOf(items[1..], carId)
  }

  function DepositOf(items: seq<CartItem>, carId: string): (d: int)
    ensures !HasCar(items, carId) ==> d == 0
  {
    if |items| == 0 then 0
    else if items[0].carId == carId then items[0].deposit
    else DepositOf(items[1..], carId)
  }

  function Quantity(item: CartItem): int {
    item.quantity
  }

  function Subtotal(item: CartItem): int {
    item.deposit * item.quantity
  }

  /** `getTotalItems`: the sum of the quantities. */
  function TotalItems(c: Cart): (n: int)
    ensures WellFormed(c) ==> n >= |c.items|
  {
    CountAtLeastLines(c.items);
    Seqs.Sum(c.items, Quantity)
  }

  /** `getTotalAmount`: the sum of deposit times quantity. */
  function TotalAmount(c: Cart): (n: int)
    ensures (forall i :: 0 <= i < |c.items| ==> c.items[i].quantity >= 0 && c.items[i].deposit >= 0) ==> n >= 0
  {
    AmountNonNegative(c.items);
    Seqs.Sum(c.items, Subtotal)
  }

  lemma {:induction false} AmountNonNegative(items: seq<CartItem>)
    ensures (forall i :: 0 <= i < |items| ==> items[i].quantity >= 0 && items[i].deposit >= 0) ==>
      Seqs.Sum(items, Subtotal) >= 0
  {
    if |items| > 0 && forall i :: 0 <= i < |items| ==> items[i].quantity >= 0 && items[i].deposit >= 0 {
      assert forall i :: 0 <= i < |items[1..]| ==> items[1..][i] == items[i + 1];
      AmountNonNegative(items[1..]);
    }
  }

  lemma {:induction false} CountAtLeastLines(items: seq<CartItem>)
    ensures (forall i :: 0 <= i < |items| ==> items[i].quantity >= 1) ==> Seqs.Sum(items, Quantity) >= |items|
  {
    if |items| > 0 && forall i :: 0 <= i < |items| ==> items[i].quantity >= 1 {
      assert forall i :: 0 <= i < |items[1..]| ==> items[1..][i] == items[i + 1];
      CountAtLeastLines(items[1..]);
    }
  }

  /** `items.map(item => item.car.id === carId ? {...item, quantity: f(item.quantity)} : item)`. */
  function MapQuantity(items: seq<CartItem>, carId: string, f: int -> int): (r: seq<CartItem>)
    ensures |r| == |items|
    ensures forall i :: 0 <= i < |items| ==>
      r[i] == if items[i].carId == carId then items[i].(quantity := f(items[i].quantity)) else items[i]
  {
    if |items| == 0 then []
    else
      [if items[0].carId == carId then items[0].(quantity := f(items[0].quantity)) else items[0]]
      + MapQuantity(items[1..], carId, f)
  }

  /** Changing quantities leaves the set of cars, and so uniqueness, as it was. */
  lemma {:induction false} MapQuantityKeepsIds(items: seq<CartItem>, carId: string, f: int -> int, id: string)
    ensures HasCar(MapQuantity(items, carId, f), id) == HasCar(items, id)
    ensures UniqueIds(MapQuantity(items, carId, f)) == UniqueIds(items)
  {
    if |items| > 0 {
      var m := MapQuantity(items, carId, f);
      assert m[1..] == MapQuantity(items[1..], carId, f);
      MapQuantityKeepsIds(items[1..], carId, f, id);
      MapQuantityKeepsIds(items[1..], carId, f, items[0].carId);
    }
  }

  function Increment(q: int): int {
    q + 1
  }

  /** `addItem`: a car already in the cart gets one more unit and keeps its colour and deposit;
      a new car is appended with quantity 1. */
  function AddItem(c: Cart, carId: string, color: string, deposit: int): (r: Cart)
    ensures r.isOpen == c.isOpen
    ensures HasCar(c.items, carId) ==> |r.items| == |c.items| && forall i :: 0 <= i < |c.items| ==>
      && r.items[i].carId == c.items[i].carId
      && r.items[i].color == c.items[i].color
      && r.items[i].deposit == c.items[i].deposit
      && r.items[i].quantity == c.items[i].quantity + (if c.items[i].carId == carId then 1 else 0)
    ensures !HasCar(c.items, carId) ==> r.items == c.items + [CartItem(carId, 1, color, deposit)]
  {
    if HasCar(c.items, carId) then c.(items := MapQuantity(c.items, carId, Increment))
    else c.(items := c.items + [CartItem(carId, 1, color, deposit)])
  }

  lemma {:induction false} HasCarAppend(items: seq<CartItem>, x: CartItem, id: string)
    ensures HasCar(items + [x], id) == (HasCar(items, id) || x.carId == id)
  {
    if |items| > 0 {
      assert (items + [x])[1..] == items[1..] + [x];
      HasCarAppend(items[1..], x, id);
    }
  }

  lemma {:induction false} AppendKeepsUnique(items: seq<CartItem>, x: CartItem)
    requires UniqueIds(items) && !HasCar(items, x.carId)
    ensures UniqueIds(items + [x])
  {
    if |items| > 0 {
      assert (items + [x])[1..] == items[1..] + [x];
      HasCarAppend(items[1..], x, items[0].carId);
      AppendKeepsUnique(items[1..], x);
    }
  }

  /** `items.filter(item => item.car.id !== carId)`. */
  function DropCar(items: seq<CartItem>, carId: string): (r: seq<CartItem>)
    ensures forall x :: x in r <==> x in items && x.carId != carId
    ensures Seqs.IsSubsequence(r, items)
  {
    if |items| == 0 then []
    else
      var rest := DropCar(items[1..], carId);
      if items[0].carId == carId then rest
      else
        assert ([items[0]] + rest)[1..] == rest;
        [items[0]] + rest
  }

  lemma {:induction false} DropCarIds(items: seq<CartItem>, carId: string, id: string)
    ensures HasCar(DropCar(items, carId), id) == (HasCar(items, id) && id != carId)
    ensures UniqueIds(items) ==> UniqueIds(DropCar(items, carId))
  {
    if |items| > 0 {
      var rest := DropCar(items[1..], carId);
      DropCarIds(items[1..], carId, id);
      DropCarIds(items[1..], carId, items[0].carId);
      if items[0].carId != carId {
        assert ([items[0]] + rest)[1..] == rest;
      }
    }
  }

  /** `removeItem`: exactly the lines of `carId` are dropped; the others keep their order. */
  function RemoveItem(c: Cart, carId: string): (r: Cart)
    ensures r.isOpen == c.isOpen
    ensures forall x :: x in r.items <==> x in c.items && x.carId != carId
    ensures Seqs.IsSubsequence(r.items, c.items)
    ensures !HasCar(r.items, carId)
  {
    DropCarIds(c.items, carId, carId);
    c.(items := DropCar(c.items, carId))
  }

  function Constant(q: int): int -> int {
    _ => q
  }

  /** `updateQuantity`: a quantity of 0 or less removes the car; otherwise only the quantity of
      its line changes. */
  function UpdateQuantity(c: Cart, carId: string, quantity: int): (r: Cart)
    ensures quantity <= 0 ==> r == RemoveItem(c, carId)
    ensures quantity > 0 ==> r.isOpen == c.isOpen && |r.items| == |c.items| && forall i :: 0 <= i < |c.items| ==>
      && r.items[i].carId == c.items[i].carId
      && r.items[i].color == c.items[i].color
      && r.items[i].deposit == c.items[i].deposit
      && r.items[i].quantity == if c.items[i].carId == carId then quantity else c.items[i].quantity
  {
    if quantity <= 0 then RemoveItem(c, carId)
    else c.(items := MapQuantity(c.items, carId, Constant(quantity)))
  }

  /** `clearCart`: no lines; the drawer is left as it is. */
  function ClearCart(c: Cart): (r: Cart)
    ensures r.items == [] && r.isOpen == c.isOpen
    ensures TotalItems(r) == 0 && TotalAmount(r) == 0
  {
    c.(items := [])
  }

  function OpenCart(c: Cart): (r: Cart)
    ensures r.isOpen && r.items == c.items
  {
    c.(isOpen := true)
  }

  function CloseCart(c: Cart): (r: Cart)
    ensures !r.isOpen && r.items == c.items
  {
    c.(isOpen := false)
  }

  function ToggleCart(c: Cart): (r: Cart)
    ensures r.isOpen == !c.isOpen && r.items == c.items
  {
    c.(isOpen := !c.isOpen)
  }

  lemma ToggleTwice(c: Cart)
    ensures ToggleCart(ToggleCart(c)) == c
  {
  }

  /** Adding a car keeps a well-formed cart well-formed. */
  lemma AddItemKeepsWellFormed(c: Cart, carId: string, color: string, deposit: int)
    requires WellFormed(c)
    ensures WellFormed(AddItem(c, carId, color, deposit))
  {
    if HasCar(c.items, carId) {
      MapQuantityKeepsIds(c.items, carId, Increment, carId);
    } else {
      AppendKeepsUnique(c.items, CartItem(carId, 1, color, deposit));
    }
  }

  /** Removing a car keeps a well-formed cart well-formed. */
  lemma RemoveItemKeepsWellFormed(c: Cart, carId: string)
    requires WellFormed(c)
    ensures WellFormed(RemoveItem(c, carId))
  {
    DropCarIds(c.items, carId, carId);
    var rem := RemoveItem(c, carId).items;
    forall i | 0 <= i < |rem| ensures rem[i].quantity >= 1 {
      assert rem[i] in rem;
    }
  }

  /** Setting a quantity keeps a well-formed cart well-formed: a non-positive one removes the line. */
  lemma UpdateQuantityKeepsWellFormed(c: Cart, carId: string, quantity: int)
    requires WellFormed(c)
    ensures WellFormed(UpdateQuantity(c, carId, quantity))
  {
    if quantity <= 0 {
      RemoveItemKeepsWellFormed(c, carId);
    } else {
      MapQuantityKeepsIds(c.items, carId, Constant(quantity), carId);
    }
  }

  /** With one line per car, changing the quantity of `carId`'s line through `f` moves the
      totals by exactly that line's change. */
  lemma {:induction false} MapQuantityTotals(items: seq<CartItem>, carId: string, f: int -> int)
    requires UniqueIds(items)
    ensures var q, d := QuantityOf(items, carId), DepositOf(items, carId);
      && Seqs.Sum(MapQuantity(items, carId, f), Quantity)
         == Seqs.Sum(items, Quantity) + (if HasCar(items, carId) then f(q) - q else 0)
      && Seqs.Sum(MapQuantity(items, carId, f), Subtotal)
         == Seqs.Sum(items, Subtotal) + (if HasCar(items, carId) then d * f(q) - d * q else 0)
  {
    if |items| > 0 {
      var rest := items[1..];
      var m := MapQuantity(items, carId, f);
      assert m[1..] == MapQuantity(rest, carId, f);
      if items[0].carId == carId {
        UnchangedWithout(rest, carId, f);
      } else {
        MapQuantityTotals(rest, carId, f);
      }
    }
  }

  /** Mapping over a car that is absent changes nothing. */
  lemma {:induction false} UnchangedWithout(items: seq<CartItem>, carId: string, f: int -> int)
    requires !HasCar(items, carId)
    ensures MapQuantity(items, carId, f) == items
  {
    if |items| > 0 {
      UnchangedWithout(items[1..], carId, f);
    }
  }

  /** With one line per car, removing `carId` subtracts exactly its line from the totals. */
  lemma {:induction false} DropCarTotals(items: seq<CartItem>, carId: string)
    requires UniqueIds(items)
    ensures Seqs.Sum(DropCar(items, carId), Quantity) == Seqs.Sum(items, Quantity) - QuantityOf(items, carId)
    ensures Seqs.Sum(DropCar(items, carId), Subtotal)
      == Seqs.Sum(items, Subtotal) - DepositOf(items, carId) * QuantityOf(items, carId)
  {
    if |items| > 0 {
      var rest := items[1..];
      if items[0].carId == carId {
        DropAbsent(rest, carId);
      } else {
        DropCarTotals(rest, carId);
        assert ([items[0]] + DropCar(rest, carId))[1..] == DropCar(rest, carId);
      }
    }
  }

  /** Dropping a car that is absent changes nothing. */
  lemma {:induction false} DropAbsent(items: seq<CartItem>, carId: string)
    requires !HasCar(items, carId)
    ensures DropCar(items, carId) == items
  {
    if |items| > 0 {
      DropAbsent(items[1..], carId);
    }
  }

  /** Adding a car raises the item count by one, and the amount by that car's deposit: the
      stored one when it was already in the cart, the given one when it is new. */
  lemma AddItemTotals(c: Cart, carId: string, color: string, deposit: int)
    requires WellFormed(c)
    ensures TotalItems(AddItem(c, carId, color, deposit)) == TotalItems(c) + 1
    ensures TotalAmount(AddItem(c, carId, color, deposit)) == TotalAmount(c)
      + (if HasCar(c.items, carId) then DepositOf(c.items, carId) else deposit)
  {
    if HasCar(c.items, carId) {
      var q, d := QuantityOf(c.items, carId), DepositOf(c.items, carId);
      assert AddItem(c, carId, color, deposit).items == MapQuantity(c.items, carId, Increment);
      MapQuantityTotals(c.items, carId, Increment);
      assert d * Increment(q) - d * q == d by {
        assert d * (q + 1) == d * q + d;
      }
    } else {
      var line := CartItem(carId, 1, color, deposit);
      Seqs.SumAppend(c.items, [line], Quantity);
      Seqs.SumAppend(c.items, [line], Subtotal);
    }
  }

  /** Removing a car subtracts exactly its line from both totals. */
  lemma RemoveItemTotals(c: Cart, carId: string)
    requires WellFormed(c)
    ensures TotalItems(RemoveItem(c, carId)) == TotalItems(c) - QuantityOf(c.items, carId)
    ensures TotalAmount(RemoveItem(c, carId))
      == TotalAmount(c) - DepositOf(c.items, carId) * QuantityOf(c.items, carId)
  {
    DropCarTotals(c.items, carId);
  }

  /** Setting a positive quantity on a car in the cart replaces its line's share of both totals. */
  lemma UpdateQuantityTotals(c: Cart, carId: string, quantity: int)
    requires WellFormed(c) && quantity > 0 && HasCar(c.items, carId)
    ensures TotalItems(UpdateQuantity(c, carId, quantity)) == TotalItems(c) - QuantityOf(c.items, carId) + quantity
    ensures TotalAmount(UpdateQuantity(c, carId, quantity))
      == TotalAmount(c) + DepositOf(c.items, carId) * (quantity - QuantityOf(c.items, carId))
  {
    var q, d := QuantityOf(c.items, carId), DepositOf(c.items, carId);
    MapQuantityTotals(c.items, carId, Constant(quantity));
    assert d * Constant(quantity)(q) - d * q == d * (quantity - q);
  }
}

=== FILE: compare_page.dfy ===
/** The selection rule of the comparison page: up to three catalogue cars, each at most once,
    and the catalogue cars still offered for selection. */
module ComparePage {
  import opened CarCatalog
  import Seqs

  /** The page compares at most this many cars side by side. */
  const MaxSelected: nat := 3

  /** `selected.find(c => c.id === id)` succeeds. */
  predicate IsSelected(selected: seq<Car>, id: string) {
    |selected| > 0 && (selected[0].id == id || IsSelected(selected[1..], id))
  }

  /** The linear scan succeeds exactly when some selected car carries the id. */
  lemma {:induction false} IsSelectedMember(selected: seq<Car>, id: string)
    ensures IsSelected(selected, id) <==> exists c :: c in selected && c.id == id
  {
    if |selected| > 0 {
      IsSelectedMember(selected[1..], id);
      assert selected == [selected[0]] + selected[1..];
    }
  }

  /** No id is selected twice. */
  predicate DistinctIds(selected: seq<Car>) {
    |selected| == 0 || (!IsSelected(selected[1..], selected[0].id) && DistinctIds(selected[1..]))
  }

  /** What the page keeps true of its selection. */
  predicate SelectionOk(selected: seq<Car>) {
    |selected| <= MaxSelected && DistinctIds(selected)
  }

  /** `addCar`: appends the car unless three are already selected or its id is already there. */
  function AddCar(selected: seq<Car>, car: Car): (r: seq<Car>)
    ensures r == selected <==> |selected| >= MaxSelected || IsSelected(selected, car.id)
    ensures r != selected ==> r == selected + [car]
    ensures |selected| < MaxSelected ==> IsSelected(r, car.id)
  {
    if |selected| < MaxSelected && !IsSelected(selected, car.id) then
      IsSelectedMember(selected + [car], car.id);
      assert car in selected + [car];
      selected + [car]
    else
      selected
  }

  function OtherId(id: string): Car -> bool {
    (c: Car) => c.id != id
  }

  /** `removeCar`: the selection without the cars of that id, the rest in their order. */
  function RemoveCar(selected: seq<Car>, id: string): (r: seq<Car>)
    ensures forall c :: c in r <==> c in selected && c.id != id
    ensures Seqs.IsSubsequence(r, selected)
    ensures !IsSelected(r, id)
  {
    var r := Seqs.Filter(selected, OtherId(id));
    IsSelectedMember(r, id);
    r
  }

  /** `availableCars`: the catalogue cars whose id is not selected, in catalogue order. */
  function AvailableCars(selected: seq<Car>): (r: seq<Car>)
    ensures forall c :: c in r <==> c in Catalog && !IsSelected(selected, c.id)
    ensures Seqs.IsSubsequence(r, Catalog)
  {
    Seqs.Filter(Catalog, (c: Car) => !IsSelected(selected, c.id))
  }

  /** Appending a car whose id is new keeps the ids distinct. */
  lemma {:induction false} AppendKeepsDistinct(selected: seq<Car>, car: Car)
    requires DistinctIds(selected)
    requires !IsSelected(selected, car.id)
    ensures DistinctIds(selected + [car])
  {
    if |selected| > 0 {
      assert (selected + [car])[1..] == selected[1..] + [car];
      AppendKeepsDistinct(selected[1..], car);
      IsSelectedMember(selected[1..], selected[0].id);
      IsSelectedMember(selected[1..] + [car], selected[0].id);
    }
  }

  /** Adding never breaks the selection invariant: at most three cars, no id twice. */
  lemma AddCarKeepsSelectionOk(selected: seq<Car>, car: Car)
    requires SelectionOk(selected)
    ensures SelectionOk(AddCar(selected, car))
  {
    if |selected| < MaxSelected && !IsSelected(selected, car.id) {
      AppendKeepsDistinct(selected, car);
    }
  }

  /** Filtering a selection keeps its ids distinct. */
  lemma {:induction false} FilterKeepsDistinct(selected: seq<Car>, p: Car -> bool)
    requires DistinctIds(selected)
    ensures DistinctIds(Seqs.Filter(selected, p))
  {
    if |selected| > 0 {
      FilterKeepsDistinct(selected[1..], p);
      var rest := Seqs.Filter(selected[1..], p);
      IsSelectedMember(rest, selected[0].id);
      IsSelectedMember(selected[1..], selected[0].id);
      if p(selected[0]) {
        assert ([selected[0]] + rest)[1..] == rest;
      }
    }
  }

  /** Removing never breaks the selection invariant. */
  lemma RemoveCarKeepsSelectionOk(selected: seq<Car>, id: string)
    requires SelectionOk(selected)
    ensures SelectionOk(RemoveCar(selected, id))
  {
    FilterKeepsDistinct(selected, OtherId(id));
  }

  /** A car that was added can be removed again, which restores the selection exactly. */
  lemma {:induction false} AddThenRemove(selected: seq<Car>, car: Car)
    requires !IsSelected(selected, car.id)
    ensures RemoveCar(AddCar(selected, car), car.id) == selected
  {
    IsSelectedMember(selected, car.id);
    Seqs.FilterAll(selected, OtherId(car.id));
    if |selected| < MaxSelected {
      Seqs.FilterAppend(selected, [car], OtherId(car.id));
    }
  }

  /** A selected car is never offered again, and removing it offers every catalogue car of that
      id once more. */
  lemma SelectedNotAvailable(selected: seq<Car>, car: Car)
    requires car in selected
    ensures car !in AvailableCars(selected)
    ensures forall c :: c in Catalog && c.id == car.id ==> c in AvailableCars(RemoveCar(selected, car.id))
  {
    IsSelectedMember(selected, car.id);
  }
}

=== FILE: contact_controller.dfy ===
/** The admin side of the contact controller: answering a contact and listing contacts. */
module ContactController {
  import opened Wrappers
  import opened ContactModel
  import Paging
  import Sorting
  import Stores
  import Text

  type ContactStore = map<nat, Contact>

  datatype Error = NotFound | ServerError

  function HttpStatus(e: Error): int {
    match e
    case NotFound => 404
    case ServerError => 500
  }

  /** The status rule of a response: a `new` contact moves to `in_progress`, any other keeps its
      status. */
  function RespondedStatus(status: string): (r: string)
    ensures r != "new"
    ensures status != "new" ==> r == status
  {
    if status == "new" then "in_progress" else status
  }

  /** `respondToContact`: an unknown id is not found and nothing is written; otherwise the
      response record is replaced by this message from the caller at `now`, the status rule
      applies, and the save hook runs on an existing document. */
  function RespondToContact(store: ContactStore, id: nat, message: string, caller: nat, now: int)
    : (r: Result<(ContactStore, Contact), Error>)
    ensures r.Err? <==> id !in store
    ensures r.Err? ==> r.error == NotFound
    ensures r.Ok? ==> var (store', c) := r.value;
      && store' == store[id := c]
      && c.response == Some(Response(message, Some(caller), Some(now)))
      && c.status == RespondedStatus(store[id].status)
      && c == store[id].(response := c.response, status := c.status)
  {
    if id !in store then Err(NotFound)
    else
      var c := store[id];
      var c' := PreSave(c.(response := Some(Response(message, Some(caller), Some(now))), status := RespondedStatus(c.status)), false);
      Ok((store[id := c'], c'))
  }

  /** Answering a second time changes the status no further and keeps only the latest answer;
      the response time is then measured to that answer. */
  lemma RespondTwice(store: ContactStore, id: nat, m1: string, m2: string, a: nat, b: nat, t1: int, t2: int)
    requires id in store
    ensures var first := RespondToContact(store, id, m1, a, t1).value.0;
      var second := RespondToContact(first, id, m2, b, t2).value;
      && second.1.status == RespondToContact(store, id, m1, a, t1).value.1.status
      && second.1.response == Some(Response(m2, Some(b), Some(t2)))
      && ResponseTime(second.1) == Some(RoundHours(t2 - store[id].createdAt))
      && second.0 == store[id := second.1]
  {
  }

  /** The filter of `getContacts`: each non-empty query parameter must match. */
  predicate ListFilter(c: Contact, status: Option<string>, subject: Option<string>,
                       priority: Option<string>, assignedTo: Option<nat>) {
    && (status.None? || status.value == "" || c.status == status.value)
    && (subject.None? || subject.value == "" || c.subject == subject.value)
    && (priority.None? || priority.value == "" || c.priority == priority.value)
    && (assignedTo.None? || c.assignedTo == assignedTo)
  }

  function Listed(status: Option<string>, subject: Option<string>, priority: Option<string>,
                  assignedTo: Option<nat>): Contact -> bool {
    c => ListFilter(c, status, subject, priority, assignedTo)
  }

  /** The ids `find` and `countDocuments` select are those of the matching contacts. */
  lemma ListedIds(store: ContactStore, status: Option<string>, subject: Option<string>,
                  priority: Option<string>, assignedTo: Option<nat>)
    ensures Stores.Matching(store, Listed(status, subject, priority, assignedTo))
      == set id | id in store && ListFilter(store[id], status, subject, priority, assignedTo)
  {
  }

  /** `sort({ priority: -1 })` as written: the store compares the priority strings. */
  function PriorityKeyAsWritten(c: Contact): Sorting.Key {
    Sorting.Str(c.priority)
  }

  /** With the strings compared, a `low` contact is listed before a `high` one: the only
      descending order of the two puts `low` first. */
  lemma LowListedBeforeHigh(low: Contact, high: Contact)
    requires low.priority == "low" && high.priority == "high"
    ensures Sorting.Sorted([low, high], PriorityKeyAsWritten, true)
    ensures !Sorting.Sorted([high, low], PriorityKeyAsWritten, true)
  {
    assert [high, low][0] == high && [high, low][1] == low;
    assert Sorting.StrLess("high", "low");
    assert !Sorting.StrLess("low", "high");
  }

  /** The urgency of a priority; a value outside the enum ranks below all of them. */
  function PriorityRank(priority: string): (n: int)
    ensures -1 <= n <= 3
    ensures n == -1 <==> ParsePriority(priority).None?
  {
    match ParsePriority(priority)
    case Some(Low) => 0
    case Some(Medium) => 1
    case Some(High) => 2
    case Some(Urgent) => 3
    case None => -1
  }

  /** The ranks follow the urgency the priorities name. */
  lemma RankFollowsUrgency()
    ensures PriorityRank("low") < PriorityRank("medium") < PriorityRank("high") < PriorityRank("urgent")
  {
  }

  /** The intended order: most urgent first. */
  function PriorityKey(c: Contact): Sorting.Key {
    Sorting.Num(PriorityRank(c.priority))
  }

  /** Sorted by urgency, no contact is listed after a less urgent one; in particular a `high`
      contact now comes before a `low` one. */
  lemma UrgentFirst(s: seq<Contact>, low: Contact, high: Contact)
    requires low.priority == "low" && high.priority == "high"
    ensures Sorting.Sorted(s, PriorityKey, true) ==>
      forall i, j :: 0 <= i < j < |s| ==> PriorityRank(s[i].priority) >= PriorityRank(s[j].priority)
    ensures Sorting.Sorted([high, low], PriorityKey, true)
    ensures !Sorting.Sorted([low, high], PriorityKey, true)
  {
    assert [low, high][0] == low && [low, high][1] == high;
  }

  /** `sort(...).limit(limit).skip(skip)`: one window of the contacts, most urgent first. */
  function UrgentPage(contacts: seq<Contact>, skip: nat, limit: nat): (r: seq<Contact>)
    ensures Sorting.Sorted(r, PriorityKey, true)
    ensures |r| <= |contacts|
    ensures forall c :: c in r ==> c in contacts
    ensures Paging.SortedWindowOf(r, multiset(contacts), PriorityKey, true, skip, limit)
  {
    Sorting.SortKeepsMembers(contacts, PriorityKey, true);
    var sorted := Sorting.Sort(contacts, PriorityKey, true);
    Paging.SortedWindow(sorted, skip, limit, PriorityKey, true);
    Paging.Window(sorted, skip, limit)
  }

  /** `getContacts`: `page || 1`, `limit || 20`; the matching contacts most urgent first, one page
      of them, their count and the next/prev links. A negative skip is a storage error. */
  method GetContacts(store: ContactStore, pageParam: Option<int>, limitParam: Option<int>,
                     status: Option<string>, subject: Option<string>, priority: Option<string>,
                     assignedTo: Option<nat>)
    returns (r: Result<(seq<Contact>, nat, Paging.Pagination), Error>)
    ensures var page, limit := Paging.ParamOr(pageParam, 1), Paging.ParamOr(limitParam, 20);
      && (r.Err? <==> Paging.StartIndex(page, limit) < 0)
      && (r.Ok? ==> r.value.2 == Paging.Paginate(page, limit, r.value.1))
    ensures r.Ok? ==>
      r.value.1 == |set id | id in store && ListFilter(store[id], status, subject, priority, assignedTo)|
    ensures r.Ok? ==>
      forall c :: c in r.value.0 ==> c in store.Values && ListFilter(c, status, subject, priority, assignedTo)
    ensures r.Ok? ==> Sorting.Sorted(r.value.0, PriorityKey, true)
    ensures r.Ok? ==> |r.value.0| <= r.value.1
    ensures var page, limit := Paging.ParamOr(pageParam, 1), Paging.ParamOr(limitParam, 20);
      r.Ok? ==> Paging.SortedWindowOf(r.value.0,
                                      Stores.Docs(store, Stores.Matching(store, Listed(status, subject, priority, assignedTo))),
                                      PriorityKey, true, Paging.StartIndex(page, limit),
                                      if limit < 0 then -limit else limit)
  {
    var page := Paging.ParamOr(pageParam, 1);
    var limit := Paging.ParamOr(limitParam, 20);
    var start := Paging.StartIndex(page, limit);
    if start < 0 {
      return Err(ServerError);
    }
    var data, total := Paging.FindPage(store, Listed(status, subject, priority, assignedTo), PriorityKey, true,
                                       start, if limit < 0 then -limit else limit);
    ListedIds(store, status, subject, priority, assignedTo);
    return Ok((data, total, Paging.Paginate(page, limit, total)));
  }

  /** The overdue contacts of the store at `now`. */
  function GetOverdue(store: ContactStore, now: int): (r: set<nat>)
    ensures forall id :: id in r <==> id in store && Overdue(store[id], now)
  {
    set id | id in store && Overdue(store[id], now)
  }

  /** Answering an overdue contact does not take it off the overdue list: the status rule keeps
      it open, and only resolving, closing or moving the follow-up date does. */
  lemma RespondKeepsOverdue(store: ContactStore, id: nat, message: string, caller: nat, now: int, t: int)
    requires id in store && Overdue(store[id], t)
    ensures id in GetOverdue(RespondToContact(store, id, message, caller, now).value.0, t)
  {
    Text.OneOfIsMembership(store[id].status, ["new", "in_progress"]);
    var c := RespondToContact(store, id, message, caller, now).value.1;
    Text.OneOfIsMembership(c.status, ["new", "in_progress"]);
  }
}

=== FILE: contact_model.dfy ===
/** A contact-form submission: its enums, field bounds, the automatic priority of new
    submissions, the display maps, the response time and the overdue selection. */
module ContactModel {
  import opened Wrappers
  import Text
  import Email

  datatype Subject = ProductInquiry | TestDriveRequest | Purchase | Service | Warranty | OtherSubject

  function SubjectCode(s: Subject): string {
    match s
    case ProductInquiry => "product-inquiry"
    case TestDriveRequest => "test-drive"
    case Purchase => "purchase"
    case Service => "service"
    case Warranty => "warranty"
    case OtherSubject => "other"
  }

  function ParseSubject(code: string): (r: Option<Subject>)
    ensures r.Some? ==> SubjectCode(r.value) == code
    ensures r.None? ==> forall s :: SubjectCode(s) != code
  {
    if code == "product-inquiry" then Some(ProductInquiry)
    else if code == "test-drive" then Some(TestDriveRequest)
    else if code == "purchase" then Some(Purchase)
    else if code == "service" then Some(Service)
    else if code == "warranty" then Some(Warranty)
    else if code == "other" then Some(OtherSubject)
    else None
  }

  datatype ContactStatus = New | InProgress | Resolved | Closed

  function StatusCode(s: ContactStatus): string {
    match s
    case New => "new"
    case InProgress => "in_progress"
    case Resolved => "resolved"
    case Closed => "closed"
  }

  function ParseStatus(code: string): (r: Option<ContactStatus>)
    ensures r.Some? ==> StatusCode(r.value) == code
    ensures r.None? ==> forall s :: StatusCode(s) != code
  {
    if code == "new" then Some(New)
    else if code == "in_progress" then Some(InProgress)
    else if code == "resolved" then Some(Resolved)
    else if code == "closed" then Some(Closed)
    else None
  }

  datatype Priority = Low | Medium | High | Urgent

  function PriorityCode(p: Priority): string {
    match p
    case Low => "low"
    case Medium => "medium"
    case High => "high"
    case Urgent => "urgent"
  }

  function ParsePriority(code: string): (r: Option<Priority>)
    ensures r.Some? ==> PriorityCode(r.value) == code
    ensures r.None? ==> forall p :: PriorityCode(p) != code
  {
    if code == "low" then Some(Low)
    else if code == "medium" then Some(Medium)
    else if code == "high" then Some(High)
    else if code == "urgent" then Some(Urgent)
    else None
  }

  /** Each enum's codes read back to the value they name. */
  lemma CodesRoundTrip(s: Subject, st: ContactStatus, p: Priority)
    ensures ParseSubject(SubjectCode(s)) == Some(s)
    ensures ParseStatus(StatusCode(st)) == Some(st)
    ensures ParsePriority(PriorityCode(p)) == Some(p)
  {
  }

  /** The `response` sub-document. */
  datatype Response = Response(message: string, respondedBy: Option<nat>, respondedAt: Option<int>)

  /** The fields of a contact that the hooks, virtuals and queries read. Dates are milliseconds. */
  datatype Contact = Contact(
    name: string,
    email: string,
    phone: string,
    subject: string,
    message: string,
    status: string,
    priority: string,
    assignedTo: Option<nat>,
    response: Option<Response>,
    followUpDate: Option<int>,
    createdAt: int)

  /** The schema bounds that the model can state: a name of at most 100 characters, the e-mail
      pattern, a phone number of 10 or 11 digits, a message of at most 2000 characters and the
      three enums. */
  predicate SchemaValid(c: Contact) {
    && 0 < |c.name| <= 100
    && Email.Matches(c.email)
    && 10 <= |c.phone| <= 11 && Text.AllDigits(c.phone)
    && 0 < |c.message| <= 2000
    && ParseSubject(c.subject).Some?
    && ParseStatus(c.status).Some?
    && ParsePriority(c.priority).Some?
  }

  /** The automatic priority of the pre-save hook: purchases are urgent, warranty and service
      requests are high, and any other subject keeps the priority it has. */
  function AutoPriority(subject: string, priority: string): (r: string)
    ensures subject == "purchase" ==> r == "urgent"
    ensures Text.OneOf(subject, ["warranty", "service"]) ==> r == "high"
    ensures !Text.OneOf(subject, ["purchase", "warranty", "service"]) ==> r == priority
  {
    if subject == "purchase" then "urgent"
    else if Text.OneOf(subject, ["warranty", "service"]) then "high"
    else priority
  }

  /** The pre-save hook: the automatic priority applies to new documents only. */
  function PreSave(c: Contact, isNew: bool): (r: Contact)
    ensures !isNew ==> r == c
    ensures r == c.(priority := r.priority)
    ensures isNew ==> r.priority == AutoPriority(c.subject, c.priority)
  {
    if isNew then c.(priority := AutoPriority(c.subject, c.priority)) else c
  }

  /** Running the hook again changes nothing: the automatic priority is a fixed point. */
  lemma PreSaveIdempotent(c: Contact, isNew: bool)
    ensures PreSave(PreSave(c, isNew), isNew) == PreSave(c, isNew)
  {
  }

  /** The body of a public submission. The whole body is handed to `create`, so besides the
      form fields it may bring a status, an assignee, a response and a follow-up date. */
  datatype SubmitBody = SubmitBody(
    name: string,
    email: string,
    phone: string,
    subject: string,
    message: string,
    priority: Option<string>,
    status: Option<string>,
    assignedTo: Option<nat>,
    response: Option<Response>,
    followUpDate: Option<int>)

  /** A body that carries only the fields of the contact form. */
  predicate FormOnly(b: SubmitBody) {
    b.status.None? && b.assignedTo.None? && b.response.None? && b.followUpDate.None?
  }

  /** A new submission: the name trimmed and the e-mail lower-cased by the schema setters,
      status and priority as supplied or the defaults `new` and `medium`, the other body fields
      stored as given, then the hook. */
  function Submit(b: SubmitBody, now: int): (r: Contact)
    ensures r.status == b.status.GetOr("new") && r.createdAt == now
    ensures r.response == b.response && r.assignedTo == b.assignedTo && r.followUpDate == b.followUpDate
    ensures FormOnly(b) ==> r.status == "new" && r.response.None? && r.followUpDate.None?
    ensures r.name == Text.Trim(b.name) && r.phone == b.phone && r.subject == b.subject && r.message == b.message
    ensures forall i :: 0 <= i < |r.email| ==> !('A' <= r.email[i] <= 'Z')
  {
    Text.LowerIdempotent(b.email);
    PreSave(Contact(Text.Trim(b.name), Text.Lower(b.email), b.phone, b.subject, b.message,
                    b.status.GetOr("new"), b.priority.GetOr("medium"),
                    b.assignedTo, b.response, b.followUpDate, now), true)
  }

  /** A submission only becomes overdue when it is open and brings its own follow-up date: a
      form-only submission never does, and neither does one that arrives resolved or closed. */
  lemma SubmissionOverdueOnlyWithFollowUp(b: SubmitBody, now: int, later: int)
    ensures Overdue(Submit(b, now), later) ==>
      b.followUpDate.Some? && Text.OneOf(b.status.GetOr("new"), ["new", "in_progress"])
    ensures FormOnly(b) ==> !Overdue(Submit(b, now), later)
    ensures b.status == Some("closed") || b.status == Some("resolved") ==> !Overdue(Submit(b, now), later)
  {
    Text.OneOfIsMembership(b.status.GetOr("new"), ["new", "in_progress"]);
  }

  /** The e-mail rule of a submission: it is accepted exactly when the address, lower-cased,
      fits the pattern, so the case of the letters never decides it. */
  lemma SubmitEmailRule(b: SubmitBody, now: int)
    ensures SchemaValid(Submit(b, now)) ==> Email.Matches(Text.Lower(b.email))
    ensures Submit(b, now).email == Submit(b.(email := Text.Lower(b.email)), now).email
  {
    Text.LowerIdempotent(b.email);
  }

  /** The priority a new submission ends up with, for each kind of subject. */
  lemma SubmitPriority(b: SubmitBody, now: int)
    ensures var p := Submit(b, now).priority;
      && (b.subject == "purchase" ==> p == "urgent")
      && (b.subject == "warranty" || b.subject == "service" ==> p == "high")
      && (b.subject != "purchase" && b.subject != "warranty" && b.subject != "service" ==>
            p == if b.priority.Some? then b.priority.value else "medium")
  {
    Text.OneOfIsMembership(b.subject, ["warranty", "service"]);
    Text.OneOfIsMembership(b.subject, ["purchase", "warranty", "service"]);
  }

  /** A valid new submission stays valid after the hook: the hook only picks enum values. */
  lemma PreSaveKeepsValid(c: Contact, isNew: bool)
    requires SchemaValid(c)
    ensures SchemaValid(PreSave(c, isNew))
  {
  }

  /** `statusDisplay`: the Vietnamese label, or the raw value when it has none. */
  function StatusDisplay(status: string): (r: string)
    ensures ParseStatus(status).None? ==> r == status
  {
    match ParseStatus(status)
    case Some(New) => "Mới"
    case Some(InProgress) => "Đang xử lý"
    case Some(Resolved) => "Đã giải quyết"
    case Some(Closed) => "Đã đóng"
    case None => status
  }

  /** `subjectDisplay`. */
  function SubjectDisplay(subject: string): (r: string)
    ensures ParseSubject(subject).None? ==> r == subject
  {
    match ParseSubject(subject)
    case Some(ProductInquiry) => "Tư vấn sản phẩm"
    case Some(TestDriveRequest) => "Đăng ký lái thử"
    case Some(Purchase) => "Mua xe"
    case Some(Service) => "Dịch vụ sau bán hàng"
    case Some(Warranty) => "Bảo hành"
    case Some(OtherSubject) => "Khác"
    case None => subject
  }

  /** `priorityDisplay`. */
  function PriorityDisplay(priority: string): (r: string)
    ensures ParsePriority(priority).None? ==> r == priority
  {
    match ParsePriority(priority)
    case Some(Low) => "Thấp"
    case Some(Medium) => "Trung bình"
    case Some(High) => "Cao"
    case Some(Urgent) => "Khẩn cấp"
    case None => priority
  }

  /** The maps give different enum values different labels, so a label names its value. */
  lemma DisplaysInjective(a: ContactStatus, b: ContactStatus, p: Priority, q: Priority)
    ensures StatusDisplay(StatusCode(a)) == StatusDisplay(StatusCode(b)) ==> a == b
    ensures PriorityDisplay(PriorityCode(p)) == PriorityDisplay(PriorityCode(q)) ==> p == q
  {
  }

  const HourMs: int := 1000 * 60 * 60

  /** `Math.round(diffMs / HourMs)`: the nearest whole hour, halves rounded up. */
  function RoundHours(diffMs: int): (h: int)
    ensures 2 * h * HourMs - HourMs <= 2 * diffMs < 2 * h * HourMs + HourMs
  {
    (2 * diffMs + HourMs) / (2 * HourMs)
  }

  /** `responseTime`: the hours from submission to response, or null without a response date. */
  function ResponseTime(c: Contact): (r: Option<int>)
    ensures r.Some? <==> c.response.Some? && c.response.value.respondedAt.Some?
    ensures r.Some? ==> r.value == RoundHours(c.response.value.respondedAt.value - c.createdAt)
  {
    match c.response
    case Some(Response(_, _, Some(at))) => Some(RoundHours(at - c.createdAt))
    case _ => None
  }

  const DayMs: int := 24 * HourMs

  /** The `getOverdue` query: still open, submitted more than two days ago, and with a follow-up
      date that has passed. A `$lt` condition never matches a missing date. */
  predicate Overdue(c: Contact, now: int) {
    && Text.OneOf(c.status, ["new", "in_progress"])
    && c.createdAt < now - 2 * DayMs
    && c.followUpDate.Some? && c.followUpDate.value < now
  }

  /** Overdue is monotone in time: an overdue contact stays overdue until it is changed. */
  lemma OverdueStaysOverdue(c: Contact, now: int, later: int)
    requires Overdue(c, now) && now <= later
    ensures Overdue(c, later)
  {
  }

  /** Only open contacts with a follow-up date can be overdue. */
  lemma OverdueNeedsOpenFollowUp(c: Contact, now: int)
    ensures Overdue(c, now) ==> ParseStatus(c.status) in {Some(New), Some(InProgress)} && c.followUpDate.Some?
  {
    Text.OneOfIsMembership(c.status, ["new", "in_progress"]);
  }
}

=== FILE: email.dfy ===
/** The e-mail pattern of the booking and contact schemas, `^\w+([.-]?\w+)*@\w+([.-]?\w+)*(\.\w{2,3})+$`,
    stated over the three parts it splits an address into. */
module Email {

  /** `\w`: an ASCII letter, a digit or `_`. */
  predicate WordChar(c: char) {
    'a' <= c <= 'z' || 'A' <= c <= 'Z' || '0' <= c <= '9' || c == '_'
  }

  predicate Separator(c: char) {
    c == '.' || c == '-'
  }

  /** `\w+([.-]?\w+)*`: runs of word characters joined by single dots or hyphens. */
  predicate Dotted(s: string) {
    && |s| > 0 && WordChar(s[0]) && WordChar(s[|s| - 1])
    && (forall i :: 0 <= i < |s| ==> WordChar(s[i]) || Separator(s[i]))
    && (forall i :: 0 <= i < |s| - 1 ==> WordChar(s[i]) || WordChar(s[i + 1]))
  }

  /** `(\.\w{2,3})+`: one or more groups of a dot and two or three word characters. */
  predicate Suffixes(s: string)
    decreases |s|
  {
    && |s| >= 3 && s[0] == '.' && WordChar(s[1]) && WordChar(s[2])
    && (|s| == 3 || Suffixes(s[3..]) || (WordChar(s[3]) && (|s| == 4 || Suffixes(s[4..]))))
  }

  /** The address splits at `at` (its `@`) and at `dot` (where the suffix groups begin). */
  predicate SplitsAt(s: string, at: int, dot: int) {
    && 0 < at < dot < |s| && s[at] == '@'
    && Dotted(s[..at]) && Dotted(s[at + 1..dot]) && Suffixes(s[dot..])
  }

  /** The schema's `match` validator. */
  predicate Matches(s: string) {
    exists at, dot | 0 < at < dot < |s| :: SplitsAt(s, at, dot)
  }

  /** A common address matches. */
  lemma PlainAddressMatches()
    ensures Matches("an@example.com")
  {
    var s := "an@example.com";
    assert s[..2] == "an" && s[3..10] == "example" && s[10..] == ".com";
    assert Suffixes(".com");
    assert SplitsAt(s, 2, 10);
  }

  /** The suffix groups end in a group of two or three word characters. */
  lemma {:induction false} SuffixesEndShort(s: string)
    requires Suffixes(s)
    ensures s[|s| - 3] == '.' || (|s| >= 4 && s[|s| - 4] == '.')
    decreases |s|
  {
    if |s| > 3 && Suffixes(s[3..]) {
      SuffixesEndShort(s[3..]);
    } else if |s| > 4 && WordChar(s[3]) && Suffixes(s[4..]) {
      SuffixesEndShort(s[4..]);
    }
  }

  /** A matching address ends in a dot followed by two or three characters; in particular an
      address under a four-letter top-level domain such as `.info` never matches. */
  lemma MatchEndsShort(s: string)
    requires Matches(s)
    ensures s[|s| - 3] == '.' || (|s| >= 4 && s[|s| - 4] == '.')
  {
    var at, dot :| 0 < at < dot < |s| && SplitsAt(s, at, dot);
    var t := s[dot..];
    SuffixesEndShort(t);
    assert t[|t| - 3] == s[|s| - 3];
    assert |t| >= 4 ==> t[|t| - 4] == s[|s| - 4];
  }

  /** No address with an `.info` ending matches. */
  lemma InfoAddressRefused(s: string)
    requires |s| >= 5 && s[|s| - 5..] == ".info"
    ensures !Matches(s)
  {
    if Matches(s) {
      MatchEndsShort(s);
    }
  }
}

=== FILE: error_handler.dfy ===
/** The Express error middleware: how a thrown error becomes the status and message of the
    reply. Seven rules are tried in order and each one that matches replaces the result of the
    earlier ones, so the last matching rule decides. */
module ErrorHandler {
  import opened Wrappers

  /** The `code` property of an error: absent, a number (the storage driver's codes) or a string
      (the upload middleware's codes). */
  datatype Code = NoCode | NumCode(n: int) | StrCode(s: string)

  /** The parts of a thrown error the handler reads. `keyFields` are the keys of `keyValue` in
      order, `fieldMessages` the messages of the entries of `errors` in order, and `statusCode`
      the status an error raised by the application itself carries. */
  datatype ThrownError = ThrownError(
    name: string,
    code: Code,
    message: string,
    statusCode: Option<int>,
    keyFields: seq<string>,
    fieldMessages: seq<string>)

  /** An error response under construction: a message and a status, either possibly falsy. */
  datatype ErrorResponse = ErrorResponse(message: string, statusCode: Option<int>)

  /** What is sent: the HTTP status and the `message` field of the body. */
  datatype Reply = Reply(status: int, message: string)

  const DuplicateKey: int := 11000

  const NotFoundMessage: string := "Tài nguyên không tồn tại"
  const DuplicateMessage: string := "Dữ liệu đã tồn tại"
  const EmailTakenMessage: string := "Email đã được sử dụng"
  const PhoneTakenMessage: string := "Số điện thoại đã được sử dụng"
  const TitleTakenMessage: string := "Tiêu đề đã tồn tại"
  const BadTokenMessage: string := "Token không hợp lệ"
  const ExpiredTokenMessage: string := "Token đã hết hạn"
  const FileTooLargeMessage: string := "File quá lớn"
  const BadFileTypeMessage: string := "Loại file không được hỗ trợ"
  const ServerErrorMessage: string := "Lỗi server"

  /** `values.join(', ')`. */
  function Join(parts: seq<string>): (r: string)
    ensures |parts| > 0 ==> |r| == TotalLength(parts) + 2 * (|parts| - 1)
    ensures |parts| == 0 ==> r == ""
    ensures r == "" <==> |parts| == 0 || (|parts| == 1 && parts[0] == "")
    ensures |parts| > 0 ==> r[..|parts[0]|] == parts[0]
  {
    if |parts| == 0 then ""
    else if |parts| == 1 then parts[0]
    else parts[0] + ", " + Join(parts[1..])
  }

  function TotalLength(parts: seq<string>): nat {
    if |parts| == 0 then 0 else |parts[0]| + TotalLength(parts[1..])
  }

  /** The duplicate-key message, chosen by the first key of `keyValue`. */
  function DuplicateKeyMessage(keyFields: seq<string>): (r: string)
    ensures |keyFields| == 0 ==> r == DuplicateMessage
    ensures |keyFields| > 0 && keyFields[0] == "email" ==> r == EmailTakenMessage
    ensures |keyFields| > 0 && keyFields[0] == "phone" ==> r == PhoneTakenMessage
    ensures |keyFields| > 0 && keyFields[0] == "slug" ==> r == TitleTakenMessage
    ensures |keyFields| > 0 && keyFields[0] != "email" && keyFields[0] != "phone" && keyFields[0] != "slug" ==>
      r == DuplicateMessage
  {
    if |keyFields| == 0 then DuplicateMessage
    else if keyFields[0] == "email" then EmailTakenMessage
    else if keyFields[0] == "phone" then PhoneTakenMessage
    else if keyFields[0] == "slug" then TitleTakenMessage
    else DuplicateMessage
  }

  /** The number of rules. */
  const RuleCount: nat := 7

  /** Whether rule `k` (0-based, in source order) applies to `err`. */
  predicate Matches(k: nat, err: ThrownError) {
    match k
    case 0 => err.name == "CastError"
    case 1 => err.code == NumCode(DuplicateKey)
    case 2 => err.name == "ValidationError"
    case 3 => err.name == "JsonWebTokenError"
    case 4 => err.name == "TokenExpiredError"
    case 5 => err.code == StrCode("LIMIT_FILE_SIZE")
    case 6 => err.code == StrCode("LIMIT_UNEXPECTED_FILE")
    case _ => false
  }

  /** The response rule `k` builds. */
  function RuleResponse(k: nat, err: ThrownError): ErrorResponse {
    match k
    case 0 => ErrorResponse(NotFoundMessage, Some(404))
    case 1 => ErrorResponse(DuplicateKeyMessage(err.keyFields), Some(400))
    case 2 => ErrorResponse(Join(err.fieldMessages), Some(400))
    case 3 => ErrorResponse(BadTokenMessage, Some(401))
    case 4 => ErrorResponse(ExpiredTokenMessage, Some(401))
    case 5 => ErrorResponse(FileTooLargeMessage, Some(400))
    case _ => ErrorResponse(BadFileTypeMessage, Some(400))
  }

  /** The last rule below `n` that applies, if any. */
  function LastMatchBelow(err: ThrownError, n: nat): (r: Option<nat>)
    ensures r.Some? ==> r.value < n && Matches(r.value, err)
    ensures r.Some? ==> forall k :: r.value < k < n ==> !Matches(k, err)
    ensures r.None? ==> forall k :: 0 <= k < n ==> !Matches(k, err)
  {
    if n == 0 then None
    else if Matches(n - 1, err) then Some(n - 1)
    else LastMatchBelow(err, n - 1)
  }

  function LastMatch(err: ThrownError): Option<nat> {
    LastMatchBelow(err, RuleCount)
  }

  /** `error.statusCode || 500` and `error.message || 'Lỗi server'`. */
  function Send(e: ErrorResponse): (r: Reply)
    ensures r.status != 0 && r.message != ""
    ensures e.statusCode.Some? && e.statusCode.value != 0 ==> r.status == e.statusCode.value
    ensures e.message != "" ==> r.message == e.message
  {
    Reply(if e.statusCode.None? || e.statusCode.value == 0 then 500 else e.statusCode.value,
          if e.message == "" then ServerErrorMessage else e.message)
  }

  /** `errorHandler`: a copy of the error, then the seven rules in order, each replacing the
      response when it applies, then the reply. */
  function Handle(err: ThrownError): (r: Reply)
    ensures r.status != 0 && r.message != ""
  {
    var e0 := ErrorResponse(err.message, err.statusCode);
    var e1 := if err.name == "CastError" then ErrorResponse(NotFoundMessage, Some(404)) else e0;
    var e2 := if err.code == NumCode(DuplicateKey) then ErrorResponse(DuplicateKeyMessage(err.keyFields), Some(400)) else e1;
    var e3 := if err.name == "ValidationError" then ErrorResponse(Join(err.fieldMessages), Some(400)) else e2;
    var e4 := if err.name == "JsonWebTokenError" then ErrorResponse(BadTokenMessage, Some(401)) else e3;
    var e5 := if err.name == "TokenExpiredError" then ErrorResponse(ExpiredTokenMessage, Some(401)) else e4;
    var e6 := if err.code == StrCode("LIMIT_FILE_SIZE") then ErrorResponse(FileTooLargeMessage, Some(400)) else e5;
    var e7 := if err.code == StrCode("LIMIT_UNEXPECTED_FILE") then ErrorResponse(BadFileTypeMessage, Some(400)) else e6;
    Send(e7)
  }

  /** The sequence of overriding rules agrees with the reference reading: the reply is built by
      the last rule that applies, or from the error itself when none does. */
  lemma {:induction false} HandleFollowsLastMatch(err: ThrownError)
    ensures LastMatch(err).None? ==> Handle(err) == Send(ErrorResponse(err.message, err.statusCode))
    ensures LastMatch(err).Some? ==> Handle(err) == Send(RuleResponse(LastMatch(err).value, err))
  {
    assert LastMatchBelow(err, 1) == if Matches(0, err) then Some(0) else None;
    assert LastMatchBelow(err, 2) == if Matches(1, err) then Some(1) else LastMatchBelow(err, 1);
    assert LastMatchBelow(err, 3) == if Matches(2, err) then Some(2) else LastMatchBelow(err, 2);
    assert LastMatchBelow(err, 4) == if Matches(3, err) then Some(3) else LastMatchBelow(err, 3);
    assert LastMatchBelow(err, 5) == if Matches(4, err) then Some(4) else LastMatchBelow(err, 4);
    assert LastMatchBelow(err, 6) == if Matches(5, err) then Some(5) else LastMatchBelow(err, 5);
    assert LastMatch(err) == if Matches(6, err) then Some(6) else LastMatchBelow(err, 6);
  }

  /** A code other than the duplicate-key number and the two upload strings. */
  predicate PlainCode(c: Code) {
    c != NumCode(DuplicateKey) && c != StrCode("LIMIT_FILE_SIZE") && c != StrCode("LIMIT_UNEXPECTED_FILE")
  }

  /** An invalid identifier is reported as a missing resource. */
  lemma CastErrorIsNotFound(err: ThrownError)
    requires err.name == "CastError" && PlainCode(err.code)
    ensures Handle(err) == Reply(404, NotFoundMessage)
  {
  }

  /** A duplicate key is a bad request whose message names the first duplicated field. */
  lemma DuplicateKeyIsBadRequest(err: ThrownError)
    requires err.code == NumCode(DuplicateKey)
    requires err.name != "ValidationError" && err.name != "JsonWebTokenError" && err.name != "TokenExpiredError"
    ensures Handle(err).status == 400
    ensures Handle(err).message == DuplicateKeyMessage(err.keyFields)
  {
  }

  /** A validation failure is a bad request listing every field message, or the generic server
      message when they are all empty. */
  lemma ValidationIsBadRequest(err: ThrownError)
    requires err.name == "ValidationError" && !(err.code in {StrCode("LIMIT_FILE_SIZE"), StrCode("LIMIT_UNEXPECTED_FILE")})
    ensures Handle(err).status == 400
    ensures Join(err.fieldMessages) != "" ==> Handle(err).message == Join(err.fieldMessages)
    ensures Join(err.fieldMessages) == "" ==> Handle(err).message == ServerErrorMessage
  {
  }

  /** Both token errors are unauthorised. */
  lemma TokenErrorsAreUnauthorized(err: ThrownError)
    requires err.name == "JsonWebTokenError" || err.name == "TokenExpiredError"
    requires !(err.code in {StrCode("LIMIT_FILE_SIZE"), StrCode("LIMIT_UNEXPECTED_FILE")})
    ensures Handle(err).status == 401
    ensures Handle(err).message == if err.name == "JsonWebTokenError" then BadTokenMessage else ExpiredTokenMessage
  {
  }

  /** The upload codes come last, so they decide whatever the name says. */
  lemma UploadCodesWin(err: ThrownError)
    requires err.code == StrCode("LIMIT_FILE_SIZE") || err.code == StrCode("LIMIT_UNEXPECTED_FILE")
    ensures Handle(err).status == 400
    ensures Handle(err).message == if err.code == StrCode("LIMIT_FILE_SIZE") then FileTooLargeMessage else BadFileTypeMessage
  {
  }

  /** An error no rule knows keeps its own status, or 500, and its own message, or the generic
      one. */
  lemma UnknownErrorKeepsItsStatus(err: ThrownError)
    requires PlainCode(err.code)
    requires err.name !in {"CastError", "ValidationError", "JsonWebTokenError", "TokenExpiredError"}
    ensures Handle(err).status == if err.statusCode.Some? && err.statusCode.value != 0 then err.statusCode.value else 500
    ensures Handle(err).message == if err.message != "" then err.message else ServerErrorMessage
  {
    assert LastMatch(err).None? by {
      forall k | 0 <= k < RuleCount ensures !Matches(k, err) {
      }
    }
  }

  /** Whenever a rule applies the reply is a client error, never the 500 of the fallback. */
  lemma {:induction false} MatchedRuleIsClientError(err: ThrownError, k: nat)
    requires k < RuleCount && Matches(k, err)
    ensures 400 <= Handle(err).status < 500
    ensures Handle(err).status in {400, 401, 404}
  {
    HandleFollowsLastMatch(err);
    var last := LastMatch(err);
    assert last.Some?;
    var e := RuleResponse(last.value, err);
    assert e.statusCode.Some? && e.statusCode.value in {400, 401, 404};
  }
}

=== FILE: news_data.dfy ===
/** A news article, as far as the lookups and the news page read it. */
module NewsArticle {
  import Seqs

  datatype Article = Article(id: string, title: string, excerpt: string, category: string, featured: bool)

  function IsFeatured(a: Article): bool {
    a.featured
  }

  /** `articles.map(article => article.category)`. */
  function CategoryList(articles: seq<Article>): (r: seq<string>)
    ensures |r| == |articles|
    ensures forall i :: 0 <= i < |articles| ==> r[i] == articles[i].category
  {
    if |articles| == 0 then [] else [articles[0].category] + CategoryList(articles[1..])
  }

  /** A category occurs in the mapped list exactly when some article carries it. */
  lemma CategoryListMembers(articles: seq<Article>, c: string)
    ensures c in CategoryList(articles) <==> exists a :: a in articles && a.category == c
  {
    var l := CategoryList(articles);
    if c in l {
      var i :| 0 <= i < |l| && l[i] == c;
      assert articles[i] in articles;
    }
    if exists a :: a in articles && a.category == c {
      var a :| a in articles && a.category == c;
      var i :| 0 <= i < |articles| && articles[i] == a;
      assert l[i] == c;
    }
  }

  /** `[...new Set(articles.map(article => article.category))]`: each category once, in order
      of first occurrence. */
  function Categories(articles: seq<Article>): (r: seq<string>)
    ensures Seqs.Distinct(r)
    ensures forall c :: c in r <==> c in CategoryList(articles)
    ensures forall c :: c in r <==> exists a :: a in articles && a.category == c
    ensures forall i, j :: 0 <= i < j < |r| ==>
      Seqs.IndexOf(CategoryList(articles), r[i]) < Seqs.IndexOf(CategoryList(articles), r[j])
  {
    forall c ensures c in CategoryList(articles) <==> exists a :: a in articles && a.category == c {
      CategoryListMembers(articles, c);
    }
    Seqs.Dedup(CategoryList(articles))
  }
}

/** The static news articles of the storefront and their four lookups. */
module NewsData {
  import opened Wrappers
  import Seqs
  import opened NewsArticle

  const VfThreeLaunch := Article(
    "vinfast-vf3-ra-mat",
    "VinFast VF 3 chính thức ra mắt với giá 240 triệu đồng",
    "Mẫu xe điện mini VinFast VF 3 đã chính thức được công bố giá bán và mở đặt hàng tại thị trường Việt Nam.",
    "Sản phẩm",
    true)
  const ChargingNetwork := Article(
    "vinfast-mo-rong-he-thong-sac",
    "VinFast mở rộng hệ thống trạm sạc trên toàn quốc",
    "Hệ thống trạm sạc VinFast sẽ được mở rộng lên 150.000 điểm sạc vào cuối năm 2024.",
    "Công nghệ",
    true)
  const ExportTarget := Article(
    "vinfast-dat-muc-tieu-xuat-khau",
    "VinFast đặt mục tiêu xuất khẩu 50.000 xe trong năm 2024",
    "VinFast tiếp tục mở rộng thị trường quốc tế với kế hoạch xuất khẩu tham vọng.",
    "Kinh doanh",
    false)
  const TechPartners := Article(
    "vinfast-hop-tac-cong-nghe",
    "VinFast hợp tác với các đối tác công nghệ hàng đầu thế giới",
    "Những thỏa thuận hợp tác chiến lược giúp VinFast nâng cao chất lượng sản phẩm.",
    "Công nghệ",
    false)

  const Articles: seq<Article> := [VfThreeLaunch, ChargingNetwork, ExportTarget, TechPartners]

  function HasId(id: string): Article -> bool {
    (a: Article) => a.id == id
  }

  /** `getNewsById`: the first article with that id, or `undefined`. */
  function GetNewsById(id: string): (r: Option<Article>)
    ensures r.Some? ==> r.value in Articles && r.value.id == id
    ensures r.None? <==> forall a :: a in Articles ==> a.id != id
  {
    Seqs.Find(Articles, HasId(id))
  }

  /** `getFeaturedNews`: the featured articles, in order. */
  function GetFeaturedNews(): (r: seq<Article>)
    ensures forall a :: a in r <==> a in Articles && a.featured
    ensures Seqs.IsSubsequence(r, Articles)
  {
    Seqs.Filter(Articles, IsFeatured)
  }

  function InCategory(c: string): Article -> bool {
    (a: Article) => a.category == c
  }

  /** `getNewsByCategory`: the articles of exactly that category, in order. */
  function GetNewsByCategory(c: string): (r: seq<Article>)
    ensures forall a :: a in r <==> a in Articles && a.category == c
    ensures Seqs.IsSubsequence(r, Articles)
  {
    Seqs.Filter(Articles, InCategory(c))
  }

  /** `getCategories`. */
  function GetCategories(): (r: seq<string>)
    ensures Seqs.Distinct(r)
    ensures forall c :: c in r <==> exists a :: a in Articles && a.category == c
  {
    Categories(Articles)
  }

  /** The articles carry exactly three categories. */
  lemma CategoriesOfCatalogue()
    ensures forall c :: c in GetCategories() <==> c in ["Sản phẩm", "Công nghệ", "Kinh doanh"]
  {
    forall c ensures c in GetCategories() <==> c in ["Sản phẩm", "Công nghệ", "Kinh doanh"] {
      CategoryListMembers(Articles, c);
      assert c in CategoryList(Articles) <==> c in ["Sản phẩm", "Công nghệ", "Kinh doanh"];
    }
  }
}

=== FILE: news_model.dfy ===
/** A news post: the four pre-save hooks (slug, reading time, publication date, SEO defaults),
    the approved-comment count and the `getPublished` query. */
module NewsModel {
  import opened Wrappers
  import Text
  import Seqs
  import Sorting
  import Paging
  import Slug

  datatype Comment = Comment(author: nat, content: string, status: string)

  /** The fields of a post that the hooks and the query read or write. Dates are milliseconds;
      `metaTitle` and `metaDescription` are the `seo` sub-document. */
  datatype Post = Post(
    title: string,
    slug: string,
    excerpt: string,
    content: string,
    category: string,
    status: string,
    featured: bool,
    tags: seq<string>,
    publishedAt: Option<int>,
    readingTime: int,
    metaTitle: Option<string>,
    metaDescription: Option<string>,
    comments: seq<Comment>)

  /** Which paths `isModified` reports for this save. */
  datatype Modified = Modified(title: bool, excerpt: bool, content: bool, status: bool)

  /** `content.split(/\s+/).length`: one more than the number of maximal runs of white space,
      so leading or trailing white space yields an empty first or last piece. */
  function SplitLength(s: string): (n: nat)
    ensures 1 <= n <= |s| + 1
    ensures (forall i :: 0 <= i < |s| ==> !Text.IsSpace(s[i])) ==> n == 1
    decreases |s|
  {
    if |s| == 0 then 1
    else if Text.IsSpace(s[0]) then 1 + SplitLength(Text.TrimStart(s[1..]))
    else SplitLength(s[1..])
  }

  /** The number of maximal runs of white space in `s`, scanning from the left; `afterSpace`
      says whether the character before `s` was white space, so a run that began there is not
      counted again. */
  function SpaceRuns(s: string, afterSpace: bool): nat
    decreases |s|
  {
    if |s| == 0 then 0
    else (if Text.IsSpace(s[0]) && !afterSpace then 1 else 0) + SpaceRuns(s[1..], Text.IsSpace(s[0]))
  }

  /** Leading white space after white space starts no new run. */
  lemma {:induction false} SpaceRunsSkipSpace(s: string)
    ensures SpaceRuns(s, true) == SpaceRuns(Text.TrimStart(s), true)
    decreases |s|
  {
    if |s| > 0 && Text.IsSpace(s[0]) {
      SpaceRunsSkipSpace(s[1..]);
    }
  }

  /** The split yields one piece more than there are runs of white space. */
  lemma {:induction false} SplitLengthCountsRuns(s: string)
    ensures SplitLength(s) == 1 + SpaceRuns(s, false)
    decreases |s|
  {
    if |s| > 0 {
      if Text.IsSpace(s[0]) {
        var t := Text.TrimStart(s[1..]);
        SpaceRunsSkipSpace(s[1..]);
        SplitLengthCountsRuns(t);
        assert SpaceRuns(t, true) == SpaceRuns(t, false);
      } else {
        SplitLengthCountsRuns(s[1..]);
      }
    }
  }

  const WordsPerMinute: nat := 200

  /** `Math.ceil(wordCount / 200)`. */
  function CeilMinutes(words: nat): (m: nat)
    ensures (m - 1) * WordsPerMinute < words <= m * WordsPerMinute || (words == 0 && m == 0)
  {
    (words + WordsPerMinute - 1) / WordsPerMinute
  }

  /** The reading time of a content: at least one minute, and enough minutes at 200 words a
      minute. */
  function ReadingTime(content: string): (m: nat)
    ensures m >= 1
    ensures (m - 1) * WordsPerMinute < SplitLength(content) <= m * WordsPerMinute
  {
    CeilMinutes(SplitLength(content))
  }

  /** `!value`: an absent or empty string is falsy. */
  predicate Blank(s: Option<string>) {
    s.None? || s.value == ""
  }

  /** `s.substring(0, n)`. */
  function Prefix(s: string, n: nat): (r: string)
    ensures |r| == if |s| < n then |s| else n
    ensures Text.IsPrefix(r, s)
  {
    if |s| < n then s else s[..n]
  }

  /** The slug hook: recomputed from the title when the title changed. */
  function SlugHook(p: Post, m: Modified, fold: string -> string): (r: Post)
    ensures m.title ==> r.slug == Slug.Slugify(p.title, fold) && Slug.IsSlug(r.slug)
    ensures r == p.(slug := r.slug)
    ensures !m.title ==> r == p
  {
    if m.title then p.(slug := Slug.Slugify(p.title, fold)) else p
  }

  /** The reading-time hook: recomputed from the content when the content changed. */
  function ReadingTimeHook(p: Post, m: Modified): (r: Post)
    ensures m.content ==> r.readingTime >= 1
    ensures m.content ==> (r.readingTime - 1) * WordsPerMinute < SplitLength(p.content) <= r.readingTime * WordsPerMinute
    ensures r == p.(readingTime := r.readingTime)
    ensures !m.content ==> r == p
  {
    if m.content then p.(readingTime := ReadingTime(p.content)) else p
  }

  /** The publication hook: a post whose status changed to `published` gets `now` as its date,
      unless it already has one, which is never overwritten. */
  function PublishHook(p: Post, m: Modified, now: int): (r: Post)
    ensures p.publishedAt.Some? ==> r == p
    ensures r.publishedAt.Some? <==> p.publishedAt.Some? || (m.status && p.status == "published")
    ensures p.publishedAt.None? && r.publishedAt.Some? ==> r.publishedAt.value == now
    ensures r == p.(publishedAt := r.publishedAt)
  {
    if m.status && p.status == "published" && p.publishedAt.None? then p.(publishedAt := Some(now)) else p
  }

  /** The SEO hook: when the title or the excerpt changed, a blank meta title becomes the first
      60 characters of the title and a blank meta description the first 160 of the excerpt;
      values already given are kept. */
  function SeoHook(p: Post, m: Modified): (r: Post)
    ensures !Blank(p.metaTitle) || !(m.title || m.excerpt) ==> r.metaTitle == p.metaTitle
    ensures Blank(p.metaTitle) && (m.title || m.excerpt) ==>
      r.metaTitle.Some? && |r.metaTitle.value| == (if |p.title| < 60 then |p.title| else 60)
      && Text.IsPrefix(r.metaTitle.value, p.title)
    ensures !Blank(p.metaDescription) || !(m.title || m.excerpt) ==> r.metaDescription == p.metaDescription
    ensures Blank(p.metaDescription) && (m.title || m.excerpt) ==>
      r.metaDescription.Some? && |r.metaDescription.value| == (if |p.excerpt| < 160 then |p.excerpt| else 160)
      && Text.IsPrefix(r.metaDescription.value, p.excerpt)
    ensures r == p.(metaTitle := r.metaTitle, metaDescription := r.metaDescription)
  {
    if m.title || m.excerpt then
      var p1 := if Blank(p.metaTitle) then p.(metaTitle := Some(Prefix(p.title, 60))) else p;
      if Blank(p1.metaDescription) then p1.(metaDescription := Some(Prefix(p1.excerpt, 160))) else p1
    else p
  }

  /** The four pre-save hooks, in the order they are registered. None of them reads a field an
      earlier one writes. */
  function PreSave(p: Post, m: Modified, now: int, fold: string -> string): (r: Post)
    ensures r == p.(slug := r.slug, readingTime := r.readingTime, publishedAt := r.publishedAt,
                    metaTitle := r.metaTitle, metaDescription := r.metaDescription)
    ensures m.title ==> Slug.IsSlug(r.slug)
    ensures m.content ==> r.readingTime >= 1
    ensures p.publishedAt.Some? ==> r.publishedAt == p.publishedAt
  {
    SeoHook(PublishHook(ReadingTimeHook(SlugHook(p, m, fold), m), m, now), m)
  }

  /** A filled-in meta field is blank only when its source text is empty, so a second run
      writes the same value again. */
  lemma SeoHookIdempotent(p: Post, m: Modified)
    ensures SeoHook(SeoHook(p, m), m) == SeoHook(p, m)
  {
    if m.title || m.excerpt {
      var q := SeoHook(p, m);
      if Blank(p.metaTitle) && |p.title| > 0 {
        assert q.metaTitle.value[0] == p.title[0];
      }
      if Blank(p.metaDescription) && |p.excerpt| > 0 {
        assert q.metaDescription.value[0] == p.excerpt[0];
      }
    }
  }

  /** Saving again with the same paths reported as modified changes nothing, whatever the clock
      says: the publication date, once set, is kept. */
  lemma PreSaveIdempotent(p: Post, m: Modified, now: int, later: int, fold: string -> string)
    ensures PreSave(PreSave(p, m, now, fold), m, later, fold) == PreSave(p, m, now, fold)
  {
    var c := PublishHook(ReadingTimeHook(SlugHook(p, m, fold), m), m, now);
    var d := SeoHook(c, m);
    assert SlugHook(d, m, fold) == d;
    assert ReadingTimeHook(d, m) == d;
    assert PublishHook(d, m, later) == d;
    SeoHookIdempotent(c, m);
  }

  function Approved(c: Comment): bool {
    c.status == "approved"
  }

  /** `approvedCommentsCount`: the comments with status `approved`. */
  function ApprovedCommentsCount(p: Post): (n: nat)
    ensures n <= |p.comments|
    ensures n == |Seqs.Filter(p.comments, Approved)|
  {
    Seqs.CountIsFilterLength(p.comments, Approved);
    Seqs.Count(p.comments, Approved)
  }

  /** Every comment is approved exactly when the count reaches the number of comments. */
  lemma {:induction false} AllApprovedIffFullCount(comments: seq<Comment>)
    ensures Seqs.Count(comments, Approved) == |comments| <==> forall c :: c in comments ==> Approved(c)
  {
    if |comments| > 0 {
      AllApprovedIffFullCount(comments[1..]);
      assert comments == [comments[0]] + comments[1..];
    }
  }

  /** The query of `getPublished`: published posts, the category when it is truthy, `featured`
      when it is given, and any of the tags when the list is non-empty. */
  predicate PublishedFilter(p: Post, category: Option<string>, featured: Option<bool>, tags: seq<string>) {
    && p.status == "published"
    && (category.None? || category.value == "" || p.category == category.value)
    && (featured.None? || p.featured == featured.value)
    && (|tags| == 0 || exists t :: t in tags && t in p.tags)
  }

  function PublishedAtKey(p: Post): Sorting.Key {
    Sorting.Num(p.publishedAt.GetOr(0))
  }

  function Listed(category: Option<string>, featured: Option<bool>, tags: seq<string>): Post -> bool {
    (p: Post) => PublishedFilter(p, category, featured, tags)
  }

  /** `getPublished`: page and limit default to 1 and 10 when absent; the matching posts newest
      first, skipping `(page - 1) * limit` of them. A negative skip is a storage error. */
  function GetPublished(posts: seq<Post>, page: Option<int>, limit: Option<int>,
                        category: Option<string>, featured: Option<bool>, tags: seq<string>)
    : (r: Result<seq<Post>, string>)
    ensures r.Err? <==> Paging.StartIndex(page.GetOr(1), limit.GetOr(10)) < 0
    ensures r.Ok? ==> forall p :: p in r.value ==> p in posts && PublishedFilter(p, category, featured, tags)
    ensures r.Ok? ==> Sorting.Sorted(r.value, PublishedAtKey, true)
    ensures r.Ok? && limit.GetOr(10) != 0 ==> |r.value| <= if limit.GetOr(10) < 0 then -limit.GetOr(10) else limit.GetOr(10)
    ensures var lim := limit.GetOr(10);
      r.Ok? ==> Paging.SortedWindowOf(r.value, multiset(Seqs.Filter(posts, Listed(category, featured, tags))),
                                      PublishedAtKey, true, Paging.StartIndex(page.GetOr(1), lim),
                                      if lim < 0 then -lim else lim)
  {
    var pg, lim := page.GetOr(1), limit.GetOr(10);
    var start := Paging.StartIndex(pg, lim);
    if start < 0 then Err("negative skip")
    else
      var matched := Seqs.Filter(posts, Listed(category, featured, tags));
      var sorted := Sorting.Sort(matched, PublishedAtKey, true);
      Sorting.SortKeepsMembers(matched, PublishedAtKey, true);
      var n := if lim < 0 then -lim else lim;
      Paging.SortedWindow(sorted, start, n, PublishedAtKey, true);
      Ok(Paging.Window(sorted, start, n))
  }
}

=== FILE: news_page.dfy ===
/** The article filter of the news page and the split of its result into the one lead article
    and the grid of regular articles. */
module NewsPage {
  import opened Wrappers
  import Text
  import Seqs
  import opened NewsArticle

  /** The category `'all'` selects every article; any other value selects by equality. */
  predicate MatchesCategory(a: Article, selected: string) {
    selected == "all" || a.category == selected
  }

  /** The term is looked for, case-insensitively, in the title or the excerpt. */
  predicate MatchesSearch(a: Article, term: string) {
    Text.Contains(Text.Lower(a.title), Text.Lower(term)) || Text.Contains(Text.Lower(a.excerpt), Text.Lower(term))
  }

  /** `filteredArticles`: the articles matching both the category and the search, in order. */
  function FilteredArticles(articles: seq<Article>, selected: string, term: string): (r: seq<Article>)
    ensures forall a :: a in r <==> a in articles && MatchesCategory(a, selected) && MatchesSearch(a, term)
    ensures Seqs.IsSubsequence(r, articles)
  {
    Seqs.Filter(articles, (a: Article) => MatchesCategory(a, selected) && MatchesSearch(a, term))
  }

  /** The page's initial state, category `'all'` and an empty search box, shows every article. */
  lemma InitialFilterShowsAll(articles: seq<Article>)
    ensures FilteredArticles(articles, "all", "") == articles
  {
    forall a | a in articles
      ensures MatchesCategory(a, "all") && MatchesSearch(a, "")
    {
      Text.ContainsSelf(Text.Lower(a.title));
    }
    Seqs.FilterAll(articles, (a: Article) => MatchesCategory(a, "all") && MatchesSearch(a, ""));
  }

  function NotFeatured(a: Article): bool {
    !a.featured
  }

  /** The articles the page renders: the first featured match in the lead slot, then every
      non-featured match in the grid. */
  function Rendered(filtered: seq<Article>): (r: seq<Article>)
    ensures forall a :: a in r <==>
      (a in filtered && !a.featured) || Seqs.Find(filtered, IsFeatured) == Some(a)
  {
    var lead := match Seqs.Find(filtered, IsFeatured) case Some(a) => [a] case None => [];
    lead + Seqs.Filter(filtered, NotFeatured)
  }

  /** A featured match after the first featured match is not rendered at all. */
  lemma LaterFeaturedHidden(filtered: seq<Article>, i: int, j: int)
    requires 0 <= i < j < |filtered|
    requires filtered[i].featured && filtered[j].featured
    requires filtered[j] !in filtered[..j]
    ensures filtered[j] !in Rendered(filtered)
  {
    var k := Seqs.FindIndex(filtered, IsFeatured);
    assert k.Some? && k.value <= i;
    assert filtered[k.value] in filtered[..j];
  }

  /** Every non-featured match is rendered, and the lead article is the earliest featured one. */
  lemma LeadIsFirstFeatured(filtered: seq<Article>, i: int)
    requires 0 <= i < |filtered| && filtered[i].featured
    requires forall j :: 0 <= j < i ==> !filtered[j].featured
    ensures Rendered(filtered)[0] == filtered[i]
    ensures forall a :: a in filtered && !a.featured ==> a in Rendered(filtered)
  {
  }
}

=== FILE: order_controller.dfy ===
/** The order request handlers: create (car lookup and price stamping), read with the ownership
    check, the admin list with pagination, and the revenue statistics. */
module OrderController {
  import opened Wrappers
  import opened Access
  import opened OrderModel
  import Paging
  import Sorting
  import Stores
  import Seqs

  type OrderStore = map<nat, Order>

  /** What `createOrder` reads of a car document. */
  datatype CarDoc = CarDoc(price: int, isActive: bool)

  type CarCollection = map<nat, CarDoc>

  datatype Error =
    | CarsMissing   // some listed car is missing or inactive (or a car is listed twice)
    | Invalid       // the schema rejected the order
    | DuplicateNumber // another stored order has the number (duplicate key on the unique index)
    | NotFound
    | Forbidden
    | ServerError   // a storage error passed on to the error middleware

  function HttpStatus(e: Error): nat {
    match e
    case NotFound => 404
    case Forbidden => 403
    case ServerError => 500
    case _ => 400
  }

  predicate ActiveCar(cars: CarCollection, id: nat) {
    id in cars && cars[id].isActive
  }

  /** The distinct car ids an order lists (`items.map(item => item.car)` as an `$in` set). */
  function CarIds(items: seq<OrderItem>): (r: set<nat>)
    ensures forall c :: c in r <==> exists i :: 0 <= i < |items| && items[i].car == c
  {
    if |items| == 0 then {}
    else
      var rest := CarIds(items[1..]);
      assert forall c :: c in rest <==> exists i :: 1 <= i < |items| && items[i].car == c by {
        forall c | c in rest ensures exists i :: 1 <= i < |items| && items[i].car == c {
          var i :| 0 <= i < |items[1..]| && items[1..][i].car == c;
          assert items[i + 1].car == c;
        }
        forall c | (exists i :: 1 <= i < |items| && items[i].car == c) ensures c in rest {
          var i :| 1 <= i < |items| && items[i].car == c;
          assert items[1..][i - 1].car == c;
        }
      }
      {items[0].car} + rest
  }

  /** `Car.find({_id: {$in: carIds}, isActive: true})`: each active listed car, once. */
  function FoundCars(cars: CarCollection, items: seq<OrderItem>): set<nat> {
    set c | c in CarIds(items) && ActiveCar(cars, c)
  }

  predicate DistinctCars(items: seq<OrderItem>) {
    forall i, j :: 0 <= i < j < |items| ==> items[i].car != items[j].car
  }

  /** An order lists at least as many items as distinct cars, and exactly as many when no car
      is listed twice. */
  lemma {:induction false} CarIdsCard(items: seq<OrderItem>)
    ensures |CarIds(items)| <= |items|
    ensures |CarIds(items)| == |items| <==> DistinctCars(items)
  {
    if |items| > 0 {
      var rest := items[1..];
      CarIdsCard(rest);
      var h := items[0].car;
      assert CarIds(items) == {h} + CarIds(rest);
      if h in CarIds(rest) {
        assert CarIds(items) == CarIds(rest);
        RepeatedHead(items);
      } else {
        assert |CarIds(items)| == |CarIds(rest)| + 1;
        FreshHead(items);
      }
    }
  }

  /** A first car listed again later makes the lines not distinct. */
  lemma RepeatedHead(items: seq<OrderItem>)
    requires |items| > 0 && items[0].car in CarIds(items[1..])
    ensures !DistinctCars(items)
  {
    var i :| 0 <= i < |items[1..]| && items[1..][i].car == items[0].car;
    assert items[i + 1].car == items[0].car;
  }

  /** A first car not listed again leaves distinctness to the other lines. */
  lemma FreshHead(items: seq<OrderItem>)
    requires |items| > 0 && items[0].car !in CarIds(items[1..])
    ensures DistinctCars(items) <==> DistinctCars(items[1..])
  {
    var rest := items[1..];
    if DistinctCars(rest) {
      forall i, j | 0 <= i < j < |items| ensures items[i].car != items[j].car {
        if i == 0 {
          assert items[j] == rest[j - 1];
        } else {
          assert items[i] == rest[i - 1] && items[j] == rest[j - 1];
        }
      }
    }
    if DistinctCars(items) {
      forall i, j | 0 <= i < j < |rest| ensures rest[i].car != rest[j].car {
        assert rest[i] == items[i + 1] && rest[j] == items[j + 1];
      }
    }
  }

  /** The car check of `createOrder` passes exactly when every listed car is active and no car
      is listed twice: an order naming the same car on two lines is rejected. */
  lemma CarCheckPasses(cars: CarCollection, items: seq<OrderItem>)
    ensures |FoundCars(cars, items)| == |items| <==>
      DistinctCars(items) && forall i :: 0 <= i < |items| ==> ActiveCar(cars, items[i].car)
  {
    var ids, found := CarIds(items), FoundCars(cars, items);
    CarIdsCard(items);
    assert found <= ids;
    Stores.SubsetCard(found, ids);
    if |found| == |items| {
      Stores.SubsetSameCard(found, ids);
      forall i | 0 <= i < |items| ensures ActiveCar(cars, items[i].car) {
        assert items[i].car in ids;
      }
    }
    if DistinctCars(items) && forall i :: 0 <= i < |items| ==> ActiveCar(cars, items[i].car) {
      forall c | c in ids ensures c in found {
        var i :| 0 <= i < |items| && items[i].car == c;
      }
      assert found == ids;
    }
  }

  /** `{...item, unitPrice: car.price}` for every item. */
  function StampPrices(items: seq<OrderItem>, cars: CarCollection): (r: seq<OrderItem>)
    requires forall i :: 0 <= i < |items| ==> items[i].car in cars
    ensures |r| == |items|
    ensures forall i :: 0 <= i < |items| ==> r[i] == items[i].(unitPrice := cars[items[i].car].price)
  {
    seq(|items|, i requires 0 <= i < |items| => items[i].(unitPrice := cars[items[i].car].price))
  }

  /** Prices do not enter the total: stamping them leaves the deposit sum as it was. */
  lemma {:induction false} StampKeepsTotal(items: seq<OrderItem>, cars: CarCollection)
    requires forall i :: 0 <= i < |items| ==> items[i].car in cars
    ensures ItemsTotal(StampPrices(items, cars)) == ItemsTotal(items)
  {
    if |items| > 0 {
      var r := StampPrices(items, cars);
      assert r[1..] == StampPrices(items[1..], cars);
      StampKeepsTotal(items[1..], cars);
    }
  }

  /** The create request; `status` and `payment.status` default to pending. The order number and
      the two amounts are whatever the body says, absent when it says nothing. */
  datatype OrderBody = OrderBody(
    items: seq<OrderItem>,
    customer: CustomerInfo,
    paymentMethod: string,
    paymentStatus: Option<string>,
    status: Option<string>,
    orderNumber: Option<string>,
    totalAmount: Option<int>,
    paymentAmount: Option<int>)

  /** The document handed to `Order.create`, before its hooks; an absent order number is empty.
      The schema setters trim the customer's name and lower-case the e-mail, so a name of only
      white space is empty by the time `required` looks at it. */
  function NewOrder(body: OrderBody, items: seq<OrderItem>, caller: Caller, now: int): (r: Order)
    ensures r.items == items && r.user == caller.id
    ensures r.customer.fullName == "" <==> forall i :: 0 <= i < |body.customer.fullName| ==> Text.IsSpace(body.customer.fullName[i])
    ensures forall i :: 0 <= i < |r.customer.email| ==> !('A' <= r.customer.email[i] <= 'Z')
    ensures r.customer.phone == body.customer.phone && r.customer.address == body.customer.address
      && r.customer.city == body.customer.city
  {
    Text.TrimBlank(body.customer.fullName);
    Text.LowerIdempotent(body.customer.email);
    var customer := body.customer.(fullName := Text.Trim(body.customer.fullName),
                                   email := Text.Lower(body.customer.email));
    Order(body.orderNumber.GetOr(""), caller.id, items, customer, body.paymentMethod,
      body.paymentStatus.GetOr("pending"), body.paymentAmount.GetOr(0), body.status.GetOr("pending"),
      body.totalAmount.GetOr(0), now)
  }

  /** A customer name of only white space is refused whichever way the order is saved: the trim
      setter empties it before `required` runs. An upper-case e-mail is stored lower-cased. */
  lemma BlankNameRefused(body: OrderBody, items: seq<OrderItem>, caller: Caller, now: int)
    requires forall i :: 0 <= i < |body.customer.fullName| ==> Text.IsSpace(body.customer.fullName[i])
    ensures !FieldsValid(NewOrder(body, items, caller, now))
    ensures !SchemaValid(NewOrder(body, items, caller, now))
  {
  }

  /** Stamping the prices does not change whether the draft order validates. */
  lemma StampedDraftValidity(body: OrderBody, cars: CarCollection, caller: Caller, now: int)
    requires forall i :: 0 <= i < |body.items| ==> body.items[i].car in cars
    ensures var stamped := NewOrder(body, StampPrices(body.items, cars), caller, now);
      var plain := NewOrder(body, body.items, caller, now);
      && FieldsValid(stamped) == FieldsValid(plain)
      && SchemaValid(stamped) == SchemaValid(plain)
  {
    var items := StampPrices(body.items, cars);
    assert forall i :: 0 <= i < |items| ==> ItemValid(items[i]) == ItemValid(body.items[i]);
  }

  /** The body sets the two amounts the schema requires (`totalAmount`, `payment.amount`); when
      validation runs before the hooks, an absent one fails the `required` rule. */
  predicate AmountsGiven(body: OrderBody) {
    body.totalAmount.Some? && body.paymentAmount.Some?
  }

  /** Some stored order already has the number `n`; the unique index refuses a second one. */
  predicate NumberTaken(store: OrderStore, n: string) {
    exists k | k in store :: store[k].orderNumber == n
  }

  /** `createOrder` as written. `date` is the local calendar date, and the number of stored
      orders is the `countDocuments()` the number hook reads. The schema is checked before the
      hooks, so only a body that brings its own order number and both amounts gets through; the
      hooks then replace all three. The insert fails on a number another order holds. */
  method CreateOrder(store: OrderStore, cars: CarCollection, caller: Caller, body: OrderBody,
                     newId: nat, date: CalendarDate, now: int)
    returns (store': OrderStore, r: Result<nat, Error>)
    requires newId !in store
    ensures r.Err? ==> store' == store
    ensures r == Err(CarsMissing) <==> |FoundCars(cars, body.items)| != |body.items|
    ensures r == Err(Invalid) <==>
      && |FoundCars(cars, body.items)| == |body.items|
      && !(AmountsGiven(body) && SchemaValid(NewOrder(body, body.items, caller, now)))
    ensures r.Ok? <==> && |FoundCars(cars, body.items)| == |body.items|
                       && AmountsGiven(body) && SchemaValid(NewOrder(body, body.items, caller, now))
                       && !NumberTaken(store, OrderNumber(date, |store|))
    ensures r.Ok? ==> body.orderNumber.Some? && body.orderNumber.value != ""
    ensures r.Ok? ==> r.value == newId && newId in store' && store' == store[newId := store'[newId]]
    ensures r.Ok? ==>
      var o := store'[newId];
      && o.user == caller.id
      && |o.items| == |body.items|
      && (forall i :: 0 <= i < |o.items| ==>
            body.items[i].car in cars && o.items[i] == body.items[i].(unitPrice := cars[body.items[i].car].price))
      && o.orderNumber == OrderNumber(date, |store|)
      && o.totalAmount == ItemsTotal(body.items) && o.paymentAmount == o.totalAmount
  {
    if |FoundCars(cars, body.items)| != |body.items| {
      return store, Err(CarsMissing);
    }
    CarCheckPasses(cars, body.items);
    var items := StampPrices(body.items, cars);
    StampKeepsTotal(body.items, cars);
    var draft := NewOrder(body, items, caller, now);
    StampedDraftValidity(body, cars, caller, now);
    if !AmountsGiven(body) {
      return store, Err(Invalid);
    }
    match SaveAsWritten(draft, true, true, date, |store|) {
      case None =>
        return store, Err(Invalid);
      case Some(o) =>
        if NumberTaken(store, o.orderNumber) {
          return store, Err(DuplicateNumber);
        }
        return store[newId := o], Ok(newId);
    }
  }

  /** `createOrder` with the hooks run before validation: the order is numbered and totalled by
      the hooks, so it is stored exactly when the car check passes, its own fields are valid and
      its number is free. */
  method CreateOrderIntended(store: OrderStore, cars: CarCollection, caller: Caller, body: OrderBody,
                             newId: nat, date: CalendarDate, now: int)
    returns (store': OrderStore, r: Result<nat, Error>)
    requires newId !in store
    ensures r.Err? ==> store' == store
    ensures r == Err(CarsMissing) <==> |FoundCars(cars, body.items)| != |body.items|
    ensures r.Ok? <==> (|FoundCars(cars, body.items)| == |body.items|
      && FieldsValid(NewOrder(body, body.items, caller, now))
      && !NumberTaken(store, OrderNumber(date, |store|)))
    ensures r == Err(DuplicateNumber) <==>
      && |FoundCars(cars, body.items)| == |body.items|
      && FieldsValid(NewOrder(body, body.items, caller, now))
      && NumberTaken(store, OrderNumber(date, |store|))
    ensures r.Ok? ==> r.value == newId && newId in store' && store' == store[newId := store'[newId]]
    ensures r.Ok? ==>
      var o := store'[newId];
      && o.user == caller.id
      && |o.items| == |body.items|
      && (forall i :: 0 <= i < |o.items| ==>
            body.items[i].car in cars && o.items[i] == body.items[i].(unitPrice := cars[body.items[i].car].price))
      && o.orderNumber == OrderNumber(date, |store|)
      && o.totalAmount == ItemsTotal(body.items) && o.paymentAmount == o.totalAmount
      && SchemaValid(o)
  {
    if |FoundCars(cars, body.items)| != |body.items| {
      return store, Err(CarsMissing);
    }
    CarCheckPasses(cars, body.items);
    var items := StampPrices(body.items, cars);
    StampKeepsTotal(body.items, cars);
    var draft := NewOrder(body, items, caller, now);
    StampedDraftValidity(body, cars, caller, now);
    NewOrderSaved(draft, date, |store|);
    match Save(draft, true, true, date, |store|) {
      case None =>
        return store, Err(Invalid);
      case Some(o) =>
        if NumberTaken(store, o.orderNumber) {
          return store, Err(DuplicateNumber);
        }
        return store[newId := o], Ok(newId);
    }
  }

  /** `deleteOrder`: not-found, or the order is removed and nothing else changes; the count the
      next order number is drawn from drops by one. */
  function DeleteOrder(store: OrderStore, id: nat): (r: Result<OrderStore, Error>)
    ensures r.Err? <==> id !in store
    ensures r.Err? ==> r.error == NotFound
    ensures r.Ok? ==> id !in r.value && forall k :: k in r.value <==> k in store && k != id
    ensures r.Ok? ==> forall k :: k in r.value ==> r.value[k] == store[k]
    ensures r.Ok? ==> |r.value| == |store| - 1
  {
    if id !in store then Err(NotFound)
    else
      assert (store - {id}).Keys == store.Keys - {id};
      Ok(store - {id})
  }

  /** The number hook counts the stored orders, so deleting one makes the next create of the day
      reuse the number of the newest: after the first of two orders numbered on one day is
      deleted, the next number is the one the second already holds. */
  lemma DeletionReusesNumber(store: OrderStore, first: nat, second: nat, d: CalendarDate)
    requires store.Keys == {first, second} && first != second
    requires store[second].orderNumber == OrderNumber(d, 1)
    ensures DeleteOrder(store, first).Ok?
    ensures var after := DeleteOrder(store, first).value;
      |after| == 1 && NumberTaken(after, OrderNumber(d, |after|))
  {
    var after := DeleteOrder(store, first).value;
    assert after.Keys == {second};
    assert |after.Keys| == 1;
    assert after[second].orderNumber == OrderNumber(d, 1);
  }

  /** `getOrder`: not found, or forbidden unless the caller owns the order or is an admin. */
  function GetOrder(store: OrderStore, id: nat, caller: Caller): (r: Result<Order, Error>)
    ensures id !in store <==> r == Err(NotFound)
    ensures r == Err(Forbidden) <==> id in store && store[id].user != caller.id && caller.role != Admin
    ensures r.Ok? ==> id in store && r.value == store[id]
  {
    if id !in store then Err(NotFound)
    else if !OwnerOrAdmin(Some(store[id].user), caller) then Err(Forbidden)
    else Ok(store[id])
  }

  /** The filter of `getOrders`: a non-empty `status` / `paymentStatus` must match. */
  predicate ListFilter(o: Order, status: Option<string>, paymentStatus: Option<string>) {
    && (status.None? || status.value == "" || o.status == status.value)
    && (paymentStatus.None? || paymentStatus.value == "" || o.paymentStatus == paymentStatus.value)
  }

  function CreatedAtKey(o: Order): Sorting.Key {
    Sorting.Num(o.createdAt)
  }

  function Listed(status: Option<string>, paymentStatus: Option<string>): Order -> bool {
    o => ListFilter(o, status, paymentStatus)
  }

  /** The ids `find` and `countDocuments` select are those of the matching orders. */
  lemma ListedIds(store: OrderStore, status: Option<string>, paymentStatus: Option<string>)
    ensures Stores.Matching(store, Listed(status, paymentStatus))
      == set id | id in store && ListFilter(store[id], status, paymentStatus)
  {
  }

  /** `getOrders` (admin): `page || 1`, `limit || 10`; the matching orders newest first, one page
      of them, their count and the next/prev links. A negative skip is a storage error. */
  method GetOrders(store: OrderStore, pageParam: Option<int>, limitParam: Option<int>,
                   status: Option<string>, paymentStatus: Option<string>)
    returns (r: Result<(seq<Order>, nat, Paging.Pagination), Error>)
    ensures var page, limit := Paging.ParamOr(pageParam, 1), Paging.ParamOr(limitParam, 10);
      && (r.Err? <==> Paging.StartIndex(page, limit) < 0)
      && (r.Ok? ==> r.value.1 == |set id | id in store && ListFilter(store[id], status, paymentStatus)|
                    && r.value.2 == Paging.Paginate(page, limit, r.value.1))
    ensures r.Ok? ==> forall o :: o in r.value.0 ==> o in store.Values && ListFilter(o, status, paymentStatus)
    ensures r.Ok? ==> Sorting.Sorted(r.value.0, CreatedAtKey, true)
    ensures r.Ok? ==> |r.value.0| <= r.value.1
    ensures var page, limit := Paging.ParamOr(pageParam, 1), Paging.ParamOr(limitParam, 10);
      r.Ok? ==> Paging.SortedWindowOf(r.value.0, Stores.Docs(store, Stores.Matching(store, Listed(status, paymentStatus))),
                                      CreatedAtKey, true, Paging.StartIndex(page, limit),
                                      if limit < 0 then -limit else limit)
  {
    var page := Paging.ParamOr(pageParam, 1);
    var limit := Paging.ParamOr(limitParam, 10);
    var start := Paging.StartIndex(page, limit);
    if start < 0 {
      return Err(ServerError);
    }
    var data, total := Paging.FindPage(store, Listed(status, paymentStatus), CreatedAtKey, true,
                                       start, if limit < 0 then -limit else limit);
    ListedIds(store, status, paymentStatus);
    return Ok((data, total, Paging.Paginate(page, limit, total)));
  }

  /** The fields of the revenue statistics that are integers (the average is a float). */
  datatype RevenueStats = RevenueStats(totalRevenue: int, totalOrders: nat)

  /** `$match` of `getRevenueStats`: paid orders created in [start, end]. */
  predicate Counted(o: Order, start: int, end: int) {
    start <= o.createdAt <= end && o.paymentStatus == "completed"
  }

  /** `getRevenueStats`: one group over the matched orders, or no document at all when nothing
      matched (`$group` on an empty input yields nothing). */
  function Aggregate(orders: seq<Order>, start: int, end: int): (r: seq<RevenueStats>)
    ensures |r| <= 1
    ensures |r| == 0 <==> Seqs.Count(orders, o => Counted(o, start, end)) == 0
  {
    var matched := Seqs.Filter(orders, o => Counted(o, start, end));
    Seqs.CountIsFilterLength(orders, o => Counted(o, start, end));
    if |matched| == 0 then [] else [RevenueStats(Seqs.Sum(matched, Amount), |matched|)]
  }

  /** `stats[0] || {totalRevenue: 0, totalOrders: 0, ...}`. */
  function StatsOrDefault(stats: seq<RevenueStats>): (r: RevenueStats)
    ensures |stats| == 0 ==> r == RevenueStats(0, 0)
    ensures |stats| > 0 ==> r == stats[0]
  {
    if |stats| == 0 then RevenueStats(0, 0) else stats[0]
  }

  /** The all-zero default is exactly what the group would say of an empty selection, so the
      statistics are the count and revenue of the paid orders in range in every case. */
  lemma StatsDefaultIsEmptyGroup(orders: seq<Order>, start: int, end: int)
    ensures var matched := Seqs.Filter(orders, o => Counted(o, start, end));
      StatsOrDefault(Aggregate(orders, start, end)) == RevenueStats(Seqs.Sum(matched, Amount), |matched|)
  {
    Seqs.CountIsFilterLength(orders, o => Counted(o, start, end));
  }

  /** `getOrderStats`: the range defaults to the last 30 days up to `now`. */
  function GetOrderStats(orders: seq<Order>, startParam: Option<int>, endParam: Option<int>, now: int): (r: RevenueStats)
    ensures var start, end := startParam.GetOr(now - 30 * 24 * 60 * 60 * 1000), endParam.GetOr(now);
      var matched := Seqs.Filter(orders, o => Counted(o, start, end));
      r.totalOrders == |matched| && r.totalRevenue == Seqs.Sum(matched, Amount)
  {
    var start, end := startParam.GetOr(now - 30 * 24 * 60 * 60 * 1000), endParam.GetOr(now);
    StatsDefaultIsEmptyGroup(orders, start, end);
    StatsOrDefault(Aggregate(orders, start, end))
  }
}

=== FILE: order_hooks.dfy ===
/** The client-side order helpers: the list filter of the admin order table, and the total and
    summary calculations. */
module OrderHooks {
  import opened Wrappers
  import Text
  import Seqs
  import Sorting
  import opened OrderModel

  datatype SortField = ByCreatedAt | ByTotalAmount | ByStatus

  /** The filter form. Dates are already parsed; `endOfDay` stands for
      `setHours(23, 59, 59, 999)` in the local time zone. */
  datatype Filters = Filters(
    search: Option<string>,
    status: Option<string>,
    startDate: Option<int>,
    endDate: Option<int>,
    sortBy: Option<SortField>,
    desc: bool)

  predicate Given(s: Option<string>) {
    s.Some? && s.value != ""
  }

  /** Order number, name and e-mail are matched case-insensitively; the phone number is matched
      against the lowered term as it is. */
  predicate MatchesSearch(o: Order, term: string) {
    var t := Text.Lower(term);
    || Text.Contains(Text.Lower(o.orderNumber), t)
    || Text.Contains(Text.Lower(o.customer.fullName), t)
    || Text.Contains(Text.Lower(o.customer.email), t)
    || Text.Contains(o.customer.phone, t)
  }

  predicate PassSearch(f: Filters, o: Order) {
    Given(f.search) ==> MatchesSearch(o, f.search.value)
  }

  predicate PassStatus(f: Filters, o: Order) {
    Given(f.status) ==> o.status == f.status.value
  }

  predicate PassDates(f: Filters, endOfDay: int -> int, o: Order) {
    && (f.startDate.Some? ==> o.createdAt >= f.startDate.value)
    && (f.endDate.Some? ==> o.createdAt <= endOfDay(f.endDate.value))
  }

  /** An order passes every filter that is set. */
  predicate Matches(f: Filters, endOfDay: int -> int, o: Order) {
    PassSearch(f, o) && PassStatus(f, o) && PassDates(f, endOfDay, o)
  }

  function SortKey(field: SortField): Order -> Sorting.Key {
    match field
    case ByCreatedAt => (o: Order) => Sorting.Num(o.createdAt)
    case ByTotalAmount => (o: Order) => Sorting.Num(o.totalAmount)
    case ByStatus => (o: Order) => Sorting.Str(o.status)
  }

  /** The three filter steps of `applyFilters`, in their order; the input is copied first and
      never changed. */
  function Narrow(orders: seq<Order>, f: Filters, endOfDay: int -> int): (r: seq<Order>)
    ensures forall o :: multiset(r)[o] == if Matches(f, endOfDay, o) then multiset(orders)[o] else 0
    ensures Seqs.IsSubsequence(r, orders)
    ensures !Given(f.search) && !Given(f.status) && f.startDate.None? && f.endDate.None? ==> r == orders
  {
    var bySearch := Seqs.FilterWhen(Given(f.search), orders, (o: Order) => PassSearch(f, o));
    var byStatus := Seqs.FilterWhen(Given(f.status), bySearch, (o: Order) => PassStatus(f, o));
    var byDates := Seqs.FilterWhen(f.startDate.Some? || f.endDate.Some?, byStatus, (o: Order) => PassDates(f, endOfDay, o));
    Seqs.SubsequenceTransitive(byDates, byStatus, bySearch);
    Seqs.SubsequenceTransitive(byDates, bySearch, orders);
    byDates
  }

  /** `applyFilters`: the filters, then the optional sort. */
  function ApplyFilters(orders: seq<Order>, f: Filters, endOfDay: int -> int): (r: seq<Order>)
    ensures forall o :: multiset(r)[o] == if Matches(f, endOfDay, o) then multiset(orders)[o] else 0
    ensures f.sortBy.None? ==> Seqs.IsSubsequence(r, orders)
    ensures f.sortBy.Some? ==> Sorting.Sorted(r, SortKey(f.sortBy.value), f.desc)
    ensures !Given(f.search) && !Given(f.status) && f.startDate.None? && f.endDate.None? && f.sortBy.None?
      ==> r == orders
  {
    var narrowed := Narrow(orders, f, endOfDay);
    if f.sortBy.Some? then Sorting.Sort(narrowed, SortKey(f.sortBy.value), f.desc) else narrowed
  }

  /** The filtered table holds exactly the orders that pass every filter that is set. */
  lemma FilteredOrdersMatch(orders: seq<Order>, f: Filters, endOfDay: int -> int)
    ensures forall o :: o in ApplyFilters(orders, f, endOfDay) <==> o in orders && Matches(f, endOfDay, o)
  {
    var r := ApplyFilters(orders, f, endOfDay);
    forall o ensures o in r <==> o in orders && Matches(f, endOfDay, o) {
      assert o in r <==> multiset(r)[o] > 0;
      assert o in orders <==> multiset(orders)[o] > 0;
    }
  }

  /** `calculateOrderTotal`. */
  function CalculateOrderTotal(o: Order): int {
    ItemsTotal(o.items)
  }

  /** The client computes the same total as the server's pre-save hook, so for an order saved
      after its items changed the two agree. */
  lemma CalculateTotalMatchesHook(o: Order, d: CalendarDate, count: nat, isNew: bool)
    ensures CalculateOrderTotal(o) == PreSave(o, isNew, true, d, count).totalAmount
    ensures CalculateOrderTotal(PreSave(o, isNew, true, d, count)) == PreSave(o, isNew, true, d, count).totalAmount
  {
  }

  datatype Summary = Summary(
    totalOrders: nat,
    totalRevenue: int,
    pendingOrders: nat,
    confirmedOrders: nat,
    processingOrders: nat,
    completedOrders: nat,
    cancelledOrders: nat)

  /** One `forEach` step: add the amount, and count the status when it is one of the five. */
  function Tally(s: Summary, o: Order): Summary {
    var s' := s.(totalRevenue := s.totalRevenue + o.totalAmount);
    match ParseOrderStatus(o.status)
    case Some(Pending) => s'.(pendingOrders := s'.pendingOrders + 1)
    case Some(Confirmed) => s'.(confirmedOrders := s'.confirmedOrders + 1)
    case Some(Processing) => s'.(processingOrders := s'.processingOrders + 1)
    case Some(Completed) => s'.(completedOrders := s'.completedOrders + 1)
    case Some(Cancelled) => s'.(cancelledOrders := s'.cancelledOrders + 1)
    case None => s'
  }

  function TallyAll(s: Summary, orders: seq<Order>): (r: Summary)
    ensures r.totalOrders == s.totalOrders
    decreases |orders|
  {
    if |orders| == 0 then s else TallyAll(Tally(s, orders[0]), orders[1..])
  }

  /** `calculateOrderSummary`. */
  function CalculateOrderSummary(orders: seq<Order>): (r: Summary)
    ensures r.totalOrders == |orders|
  {
    TallyAll(Summary(|orders|, 0, 0, 0, 0, 0, 0), orders)
  }

  function HasStatus(st: OrderStatus): Order -> bool {
    (o: Order) => ParseOrderStatus(o.status) == Some(st)
  }

  function UnknownStatus(o: Order): bool {
    ParseOrderStatus(o.status).None?
  }

  /** Tallying adds the amounts and counts each status, starting from any summary. */
  lemma {:induction false} TallyAllCounts(s: Summary, orders: seq<Order>)
    ensures var t := TallyAll(s, orders);
      && t.totalOrders == s.totalOrders
      && t.totalRevenue == s.totalRevenue + Seqs.Sum(orders, Amount)
      && t.pendingOrders == s.pendingOrders + Seqs.Count(orders, HasStatus(Pending))
      && t.confirmedOrders == s.confirmedOrders + Seqs.Count(orders, HasStatus(Confirmed))
      && t.processingOrders == s.processingOrders + Seqs.Count(orders, HasStatus(Processing))
      && t.completedOrders == s.completedOrders + Seqs.Count(orders, HasStatus(Completed))
      && t.cancelledOrders == s.cancelledOrders + Seqs.Count(orders, HasStatus(Cancelled))
    decreases |orders|
  {
    if |orders| > 0 {
      TallyAllCounts(Tally(s, orders[0]), orders[1..]);
    }
  }

  /** Every order has one of the five statuses or none of them. */
  lemma {:induction false} StatusCountsCover(orders: seq<Order>)
    ensures Seqs.Count(orders, HasStatus(Pending)) + Seqs.Count(orders, HasStatus(Confirmed))
      + Seqs.Count(orders, HasStatus(Processing)) + Seqs.Count(orders, HasStatus(Completed))
      + Seqs.Count(orders, HasStatus(Cancelled)) + Seqs.Count(orders, UnknownStatus) == |orders|
  {
    if |orders| > 0 {
      StatusCountsCover(orders[1..]);
    }
  }

  /** The summary counts every order, adds up their amounts, and its five status counters add up
      to the number of orders less those whose status is outside the enum. */
  lemma SummaryCounts(orders: seq<Order>)
    ensures var s := CalculateOrderSummary(orders);
      && s.totalOrders == |orders|
      && s.totalRevenue == Seqs.Sum(orders, Amount)
      && s.pendingOrders + s.confirmedOrders + s.processingOrders + s.completedOrders + s.cancelledOrders
         == |orders| - Seqs.Count(orders, UnknownStatus)
  {
    TallyAllCounts(Summary(|orders|, 0, 0, 0, 0, 0, 0), orders);
    StatusCountsCover(orders);
  }

  /** When every status is in the enum, the five counters add up to the number of orders. */
  lemma {:induction false} SummaryCountersCoverAll(orders: seq<Order>)
    requires forall i :: 0 <= i < |orders| ==> ParseOrderStatus(orders[i].status).Some?
    ensures var s := CalculateOrderSummary(orders);
      s.pendingOrders + s.confirmedOrders + s.processingOrders + s.completedOrders + s.cancelledOrders
        == s.totalOrders
  {
    SummaryCounts(orders);
    NoUnknownStatus(orders);
  }

  lemma {:induction false} NoUnknownStatus(orders: seq<Order>)
    requires forall i :: 0 <= i < |orders| ==> ParseOrderStatus(orders[i].status).Some?
    ensures Seqs.Count(orders, UnknownStatus) == 0
  {
    if |orders| > 0 {
      assert forall i :: 0 <= i < |orders[1..]| ==> orders[1..][i] == orders[i + 1];
      NoUnknownStatus(orders[1..]);
    }
  }
}

=== FILE: order_model.dfy ===
/** The order document: its line items, the two pre-save hooks (order number, total), the
    display virtuals and the schema bounds. Amounts are integer VND. */
module OrderModel {
  import opened Wrappers
  import Text
  import Seqs

  /** One ordered car: `unitPrice` is the car's list price, `depositAmount` is paid per unit. */
  datatype OrderItem = OrderItem(car: nat, quantity: int, selectedColor: string, depositAmount: int, unitPrice: int)

  datatype CustomerInfo = CustomerInfo(fullName: string, email: string, phone: string, address: string, city: string)

  /** `status` and `paymentStatus` are kept as the raw strings the API carries; the schema
      restricts them to their enums. */
  datatype Order = Order(
    orderNumber: string,
    user: nat,
    items: seq<OrderItem>,
    customer: CustomerInfo,
    paymentMethod: string,
    paymentStatus: string,
    paymentAmount: int,
    status: string,
    totalAmount: int,
    createdAt: int)

  datatype OrderStatus = Pending | Confirmed | Processing | Completed | Cancelled

  function OrderStatusCode(s: OrderStatus): string {
    match s
    case Pending => "pending"
    case Confirmed => "confirmed"
    case Processing => "processing"
    case Completed => "completed"
    case Cancelled => "cancelled"
  }

  /** The enum check on `status`. */
  function ParseOrderStatus(s: string): (r: Option<OrderStatus>)
    ensures r.Some? ==> OrderStatusCode(r.value) == s
    ensures r.None? ==> forall st: OrderStatus :: OrderStatusCode(st) != s
  {
    if s == "pending" then Some(Pending)
    else if s == "confirmed" then Some(Confirmed)
    else if s == "processing" then Some(Processing)
    else if s == "completed" then Some(Completed)
    else if s == "cancelled" then Some(Cancelled)
    else None
  }

  lemma OrderStatusRoundTrip(s: OrderStatus)
    ensures ParseOrderStatus(OrderStatusCode(s)) == Some(s)
  {
  }

  datatype PaymentStatus = PaymentPending | Paid | Failed | Refunded

  function PaymentStatusCode(s: PaymentStatus): string {
    match s
    case PaymentPending => "pending"
    case Paid => "completed"
    case Failed => "failed"
    case Refunded => "refunded"
  }

  /** The enum check on `payment.status`. */
  function ParsePaymentStatus(s: string): (r: Option<PaymentStatus>)
    ensures r.Some? ==> PaymentStatusCode(r.value) == s
    ensures r.None? ==> forall st: PaymentStatus :: PaymentStatusCode(st) != s
  {
    if s == "pending" then Some(PaymentPending)
    else if s == "completed" then Some(Paid)
    else if s == "failed" then Some(Failed)
    else if s == "refunded" then Some(Refunded)
    else None
  }

  lemma PaymentStatusRoundTrip(s: PaymentStatus)
    ensures ParsePaymentStatus(PaymentStatusCode(s)) == Some(s)
  {
  }

  const PaymentMethods: seq<string> := ["bank_transfer", "credit_card", "cash"]

  /** The schema's per-item bounds: at least one unit, a non-negative deposit, a colour. */
  predicate ItemValid(it: OrderItem) {
    it.quantity >= 1 && it.depositAmount >= 0 && it.selectedColor != ""
  }

  /** The schema validators other than those on the three fields the hooks compute
      (`orderNumber`, `totalAmount`, `payment.amount`). Required strings must be non-empty. */
  predicate FieldsValid(o: Order) {
    && (forall i :: 0 <= i < |o.items| ==> ItemValid(o.items[i]))
    && o.customer.fullName != "" && o.customer.email != "" && o.customer.phone != ""
    && o.customer.address != "" && o.customer.city != ""
    && Text.OneOf(o.paymentMethod, PaymentMethods)
    && ParsePaymentStatus(o.paymentStatus).Some?
    && ParseOrderStatus(o.status).Some?
  }

  /** Every validator of the schema; an empty `orderNumber` stands for an unset one. */
  predicate SchemaValid(o: Order) {
    o.orderNumber != "" && FieldsValid(o) && o.totalAmount >= 0
  }

  /** An order's `totalAmount`, as the statistics and summaries add it up. */
  function Amount(o: Order): int {
    o.totalAmount
  }

  function ItemDeposit(it: OrderItem): int {
    it.depositAmount * it.quantity
  }

  /** `items.reduce((total, item) => total + item.depositAmount * item.quantity, 0)`. */
  function ItemsTotal(items: seq<OrderItem>): int {
    Seqs.Sum(items, ItemDeposit)
  }

  /** Items within the schema bounds never add up to a negative total. */
  lemma {:induction false} ItemsTotalNonNegative(items: seq<OrderItem>)
    requires forall i :: 0 <= i < |items| ==> ItemValid(items[i])
    ensures ItemsTotal(items) >= 0
  {
    if |items| > 0 {
      assert forall i :: 0 <= i < |items[1..]| ==> items[1..][i] == items[i + 1];
      ItemsTotalNonNegative(items[1..]);
    }
  }

  /** The total of two lists of items is the sum of their totals. */
  lemma ItemsTotalAppend(a: seq<OrderItem>, b: seq<OrderItem>)
    ensures ItemsTotal(a + b) == ItemsTotal(a) + ItemsTotal(b)
  {
    Seqs.SumAppend(a, b, ItemDeposit);
  }

  /** The local date `new Date()` gives the hook; `month0` is `getMonth()`, counted from 0. */
  datatype CalendarDate = CalendarDate(year: nat, month0: nat, day: nat)

  /** `String(n).padStart(w, '0')`. */
  function Padded(n: nat, w: nat): string {
    Text.PadStart(Text.NatToString(n), w, '0')
  }

  /** `VF${year}${month}${day}${String(count + 1).padStart(4, '0')}`. */
  function OrderNumber(d: CalendarDate, count: nat): (r: string)
    ensures |r| >= 2 && r[..2] == "VF"
  {
    "VF" + Text.NatToString(d.year) + Padded(d.month0 + 1, 2) + Padded(d.day, 2) + Padded(count + 1, 4)
  }

  /** A real date (four-digit year) and fewer than 9999 earlier orders give a 14-character number
      whose fields read back as year, month, day and sequence number. */
  lemma OrderNumberLayout(d: CalendarDate, count: nat)
    requires 1000 <= d.year < 10000 && d.month0 < 12 && 1 <= d.day <= 31 && count + 1 < 10000
    ensures var s := OrderNumber(d, count);
      && |s| == 14 && s[..2] == "VF"
      && Text.AllDigits(s[2..6]) && Text.DigitsValue(s[2..6]) == d.year
      && Text.AllDigits(s[6..8]) && Text.DigitsValue(s[6..8]) == d.month0 + 1
      && Text.AllDigits(s[8..10]) && Text.DigitsValue(s[8..10]) == d.day
      && Text.AllDigits(s[10..]) && Text.DigitsValue(s[10..]) == count + 1
  {
    YearField(d.year);
    PaddedField(d.month0 + 1, 2);
    PaddedField(d.day, 2);
    PaddedField(count + 1, 4);
    Fields("VF", Text.NatToString(d.year), Padded(d.month0 + 1, 2), Padded(d.day, 2), Padded(count + 1, 4));
  }

  lemma YearField(year: nat)
    requires 1000 <= year < 10000
    ensures |Text.NatToString(year)| == 4
    ensures Text.AllDigits(Text.NatToString(year)) && Text.DigitsValue(Text.NatToString(year)) == year
  {
    assert Text.Pow10(3) == 1000 && Text.Pow10(4) == 10000;
    Text.NatToStringLength(year, 4);
    Text.NatToStringRoundTrip(year);
  }

  lemma PaddedField(n: nat, w: nat)
    requires 1 <= w <= 4 && n < Text.Pow10(w)
    ensures |Padded(n, w)| == w && Text.AllDigits(Padded(n, w)) && Text.DigitsValue(Padded(n, w)) == n
  {
    Text.PaddedLength(n, w);
    Text.PaddedRoundTrip(n, w);
  }

  /** Where the five parts of an order number sit. */
  lemma Fields(p: string, y: string, m: string, dd: string, c: string)
    requires |p| == 2 && |y| == 4 && |m| == 2 && |dd| == 2 && |c| == 4
    ensures var s := p + y + m + dd + c;
      && |s| == 14 && s[..2] == p && s[2..6] == y && s[6..8] == m && s[8..10] == dd && s[10..] == c
  {
    var s := p + y + m + dd + c;
    assert s[..2] == p;
    assert s[2..6] == y;
    assert s[6..8] == m;
    assert s[8..10] == dd;
    assert s[10..] == c;
  }

  /** From the 10000th order of the store on, the sequence part outgrows its four digits, so
      the number is longer than 14 characters. */
  lemma LongSequenceNumber(d: CalendarDate, count: nat)
    requires 1000 <= d.year < 10000 && d.month0 < 12 && 1 <= d.day <= 31 && count + 1 >= 10000
    ensures |OrderNumber(d, count)| > 14
  {
    assert Text.Pow10(4) == 10000;
    Text.NatToStringLong(count + 1, 4);
    YearField(d.year);
    var s := OrderNumber(d, count);
    assert |s| == 2 + 4 + |Padded(d.month0 + 1, 2)| + |Padded(d.day, 2)| + |Padded(count + 1, 4)|;
  }

  /** Two orders numbered on the same day from different counts get different numbers. */
  lemma OrderNumberInjective(d: CalendarDate, c1: nat, c2: nat)
    requires 1000 <= d.year < 10000 && d.month0 < 12 && 1 <= d.day <= 31
    requires c1 + 1 < 10000 && c2 + 1 < 10000
    requires OrderNumber(d, c1) == OrderNumber(d, c2)
    ensures c1 == c2
  {
    OrderNumberLayout(d, c1);
    OrderNumberLayout(d, c2);
  }

  /** The first pre-save hook: a new document gets its number; an existing one keeps it. */
  function NumberHook(o: Order, isNew: bool, d: CalendarDate, count: nat): (r: Order)
    ensures r.(orderNumber := o.orderNumber) == o
    ensures isNew ==> r.orderNumber == OrderNumber(d, count)
    ensures !isNew ==> r.orderNumber == o.orderNumber
  {
    if isNew then o.(orderNumber := OrderNumber(d, count)) else o
  }

  /** The second pre-save hook: when the items changed, the total and the payment amount are
      recomputed from them; otherwise both are left as they were. */
  function TotalHook(o: Order, itemsModified: bool): (r: Order)
    ensures r.(totalAmount := o.totalAmount, paymentAmount := o.paymentAmount) == o
    ensures itemsModified ==> r.totalAmount == ItemsTotal(o.items) && r.paymentAmount == r.totalAmount
    ensures !itemsModified ==> r == o
  {
    if itemsModified then
      var total := ItemsTotal(o.items);
      o.(totalAmount := total, paymentAmount := total)
    else o
  }

  /** Both hooks, in registration order. */
  function PreSave(o: Order, isNew: bool, itemsModified: bool, d: CalendarDate, count: nat): (r: Order)
    ensures r.(orderNumber := o.orderNumber, totalAmount := o.totalAmount, paymentAmount := o.paymentAmount) == o
    ensures r.orderNumber == if isNew then OrderNumber(d, count) else o.orderNumber
    ensures itemsModified ==> r.totalAmount == ItemsTotal(o.items) && r.paymentAmount == r.totalAmount
    ensures !itemsModified ==> r.totalAmount == o.totalAmount && r.paymentAmount == o.paymentAmount
  {
    TotalHook(NumberHook(o, isNew, d, count), itemsModified)
  }

  /** A newly created order is numbered, its total is the sum of its deposits and equals the
      payment amount, and with items inside their bounds that total meets the schema's minimum. */
  lemma CreatedOrderTotals(o: Order, d: CalendarDate, count: nat)
    ensures var r := PreSave(o, true, true, d, count);
      && r.orderNumber == OrderNumber(d, count)
      && r.totalAmount == ItemsTotal(o.items) && r.paymentAmount == r.totalAmount
      && r.items == o.items && r.user == o.user && r.status == o.status
    ensures (forall i :: 0 <= i < |o.items| ==> ItemValid(o.items[i])) ==> PreSave(o, true, true, d, count).totalAmount >= 0
  {
    if forall i :: 0 <= i < |o.items| ==> ItemValid(o.items[i]) {
      ItemsTotalNonNegative(o.items);
    }
  }

  /** Saving an existing order with unchanged items touches neither its number nor its total. */
  lemma ResaveKeepsOrder(o: Order, d: CalendarDate, count: nat)
    ensures PreSave(o, false, false, d, count) == o
  {
  }

  /** `formattedOrderNumber`. */
  function FormattedOrderNumber(o: Order): (r: string)
    ensures |r| == |o.orderNumber| + 1 && r[0] == '#' && r[1..] == o.orderNumber
  {
    "#" + o.orderNumber
  }

  /** `statusDisplay`: the Vietnamese label, or the raw value outside the enum. */
  function OrderStatusDisplay(raw: string): (r: string)
    ensures ParseOrderStatus(raw).None? ==> r == raw
    ensures ParseOrderStatus(raw).Some? ==> r != raw
  {
    match ParseOrderStatus(raw)
    case Some(Pending) => "Chờ xử lý"
    case Some(Confirmed) => "Đã xác nhận"
    case Some(Processing) => "Đang xử lý"
    case Some(Completed) => "Hoàn thành"
    case Some(Cancelled) => "Đã hủy"
    case None => raw
  }

  /** Different statuses get different labels. */
  lemma OrderStatusDisplayInjective(a: OrderStatus, b: OrderStatus)
    requires OrderStatusDisplay(OrderStatusCode(a)) == OrderStatusDisplay(OrderStatusCode(b))
    ensures a == b
  {
  }

  /** `paymentStatusDisplay`: the Vietnamese label, or the raw value outside the enum. */
  function PaymentStatusDisplay(raw: string): (r: string)
    ensures ParsePaymentStatus(raw).None? ==> r == raw
    ensures ParsePaymentStatus(raw).Some? ==> r != raw
  {
    match ParsePaymentStatus(raw)
    case Some(PaymentPending) => "Chờ thanh toán"
    case Some(Paid) => "Đã thanh toán"
    case Some(Failed) => "Thanh toán thất bại"
    case Some(Refunded) => "Đã hoàn tiền"
    case None => raw
  }

  lemma PaymentStatusDisplayInjective(a: PaymentStatus, b: PaymentStatus)
    requires PaymentStatusDisplay(PaymentStatusCode(a)) == PaymentStatusDisplay(PaymentStatusCode(b))
    ensures a == b
  {
  }

  /** The `getByUser` filter: the user's orders, narrowed to one status when one is given. */
  predicate ByUser(o: Order, userId: nat, status: Option<string>) {
    o.user == userId && (status.None? || status.value == "" || o.status == status.value)
  }

  /** `save()` as Mongoose runs it: validation is its own first pre-save hook, so the schema is
      checked before the order number and the total are filled in. */
  function SaveAsWritten(o: Order, isNew: bool, itemsModified: bool, d: CalendarDate, count: nat): (r: Option<Order>)
    ensures r.Some? <==> SchemaValid(o)
    ensures r.Some? ==> r.value == PreSave(o, isNew, itemsModified, d, count)
  {
    if SchemaValid(o) then Some(PreSave(o, isNew, itemsModified, d, count)) else None
  }

  /** A new order that does not bring its own number is rejected by `save()` as written, however
      valid everything else is: the required `orderNumber` is checked before the hook sets it. */
  lemma NewOrderWithoutNumberRejected(o: Order, d: CalendarDate, count: nat)
    requires o.orderNumber == ""
    ensures SaveAsWritten(o, true, true, d, count) == None
    ensures PreSave(o, true, true, d, count).orderNumber != ""
  {
  }

  /** `save()` with the hooks run before validation (as `pre('validate')` hooks would be). */
  function Save(o: Order, isNew: bool, itemsModified: bool, d: CalendarDate, count: nat): (r: Option<Order>)
    ensures r.Some? <==> SchemaValid(PreSave(o, isNew, itemsModified, d, count))
    ensures r.Some? ==> r.value == PreSave(o, isNew, itemsModified, d, count)
  {
    var saved := PreSave(o, isNew, itemsModified, d, count);
    if SchemaValid(saved) then Some(saved) else None
  }

  /** With the hooks first, a new order is stored exactly when its own fields are valid: its
      number is generated and its total computed, whatever the body said about them. */
  lemma NewOrderSaved(o: Order, d: CalendarDate, count: nat)
    ensures Save(o, true, true, d, count).Some? <==> FieldsValid(o)
    ensures Save(o, true, true, d, count).Some? ==>
      var r := Save(o, true, true, d, count).value;
      r.orderNumber == OrderNumber(d, count) && r.totalAmount == ItemsTotal(o.items) && r.paymentAmount == r.totalAmount
  {
    var r := PreSave(o, true, true, d, count);
    assert r.orderNumber[0] == 'V';
    assert FieldsValid(r) == FieldsValid(o);
    if FieldsValid(o) {
      ItemsTotalNonNegative(o.items);
    }
  }
}

=== FILE: paging.dfy ===
/** The page/limit handling shared by the list endpoints of the test-drive, order and contact
    controllers, and the `skip`/`limit` windows of the model statics. */
module Paging {
  import opened Wrappers
  import Sorting
  import Stores

  /** `parseInt(q, 10) || d`: an absent, unparsable (`NaN`) or zero value falls back to `d`. */
  function ParamOr(parsed: Option<int>, d: int): (r: int)
    ensures parsed.Some? && parsed.value != 0 ==> r == parsed.value
    ensures parsed.None? || parsed.value == 0 ==> r == d
  {
    if parsed.Some? && parsed.value != 0 then parsed.value else d
  }

  /** The index of the first document of a page. */
  function StartIndex(page: int, limit: int): (r: int)
    ensures page >= 1 && limit >= 0 ==> r >= 0
  {
    (page - 1) * limit
  }

  datatype PageRef = PageRef(page: int, limit: int)

  /** The `pagination` object of a list response. */
  datatype Pagination = Pagination(next: Option<PageRef>, prev: Option<PageRef>)

  function Paginate(page: int, limit: int, total: nat): (p: Pagination)
    ensures p.next.Some? ==> p.next.value == PageRef(page + 1, limit)
    ensures p.prev.Some? ==> p.prev.value == PageRef(page - 1, limit)
  {
    var start := StartIndex(page, limit);
    Pagination(
      if start + limit < total then Some(PageRef(page + 1, limit)) else None,
      if start > 0 then Some(PageRef(page - 1, limit)) else None)
  }

  /** `find(q).skip(skip).limit(limit)` over the matching documents in query order;
      a limit of 0 means no limit. */
  function Window<T>(items: seq<T>, skip: nat, limit: nat): (r: seq<T>)
    ensures |r| <= |items|
    ensures limit > 0 ==> |r| <= limit
    ensures forall i :: 0 <= i < |r| ==> skip + i < |items| && r[i] == items[skip + i]
    ensures skip < |items| && limit > 0 ==> |r| == if skip + limit <= |items| then limit else |items| - skip
    ensures skip >= |items| ==> r == []
    ensures forall x :: x in r ==> x in items
  {
    if skip >= |items| then []
    else if limit == 0 || skip + limit > |items| then items[skip..]
    else items[skip..skip + limit]
  }

  /** The documents shown on page `page` (from 1) when pages hold `limit` documents. */
  function PageOf<T>(items: seq<T>, page: int, limit: int): seq<T>
    requires page >= 1 && limit >= 1
  {
    Window(items, StartIndex(page, limit), limit)
  }

  /** With a valid page and limit, a `next` link is offered exactly when the next page holds
      documents, and a `prev` link exactly when this is not the first page. */
  lemma PaginateMatchesPages<T>(items: seq<T>, page: int, limit: int)
    requires page >= 1 && limit >= 1
    ensures Paginate(page, limit, |items|).next.Some? <==> |PageOf(items, page + 1, limit)| > 0
    ensures Paginate(page, limit, |items|).prev.Some? <==> page > 1
  {
    assert StartIndex(page + 1, limit) == StartIndex(page, limit) + limit;
    if page > 1 {
      assert StartIndex(page, limit) >= limit;
    }
  }

  /** A window of a sorted sequence is sorted. */
  lemma SortedWindow<T>(items: seq<T>, skip: nat, limit: nat, key: T -> Sorting.Key, desc: bool)
    requires Sorting.Sorted(items, key, desc)
    ensures Sorting.Sorted(Window(items, skip, limit), key, desc)
  {
    var r := Window(items, skip, limit);
    forall i, j | 0 <= i < j < |r| ensures Sorting.InOrder(key(r[i]), key(r[j]), desc) {
      assert r[i] == items[skip + i] && r[j] == items[skip + j];
    }
  }

  /** `page` is the `skip`/`limit` window of the documents `docs` put in `key` order; documents
      whose keys tie may come in either order, as the store leaves them. */
  ghost predicate SortedWindowOf<T(!new)>(page: seq<T>, docs: multiset<T>, key: T -> Sorting.Key, desc: bool,
                                          skip: nat, limit: nat) {
    exists s: seq<T> :: multiset(s) == docs && Sorting.Sorted(s, key, desc) && page == Window(s, skip, limit)
  }

  /** The number of documents a window shows out of `total`. */
  function WindowSize(total: nat, skip: nat, limit: nat): nat {
    if skip >= total then 0
    else if limit == 0 || skip + limit > total then total - skip
    else limit
  }

  /** Such a page holds documents of `docs` only, each at most as often as `docs` does, and as
      many as the window leaves: it is empty only when the skip passes the last document. */
  lemma WindowOfSize<T(!new)>(page: seq<T>, docs: multiset<T>, key: T -> Sorting.Key, desc: bool,
                              skip: nat, limit: nat)
    requires SortedWindowOf(page, docs, key, desc, skip, limit)
    ensures multiset(page) <= docs
    ensures |page| == WindowSize(|docs|, skip, limit)
  {
    var s :| multiset(s) == docs && Sorting.Sorted(s, key, desc) && page == Window(s, skip, limit);
    if skip < |s| {
      var e := if limit == 0 || skip + limit > |s| then |s| else skip + limit;
      assert page == s[skip..e];
      SliceInBag(s, skip, e);
    }
  }

  /** A slice holds no document more often than the whole sequence. */
  lemma SliceInBag<T>(s: seq<T>, i: nat, j: nat)
    requires i <= j <= |s|
    ensures multiset(s[i..j]) <= multiset(s)
  {
    assert s == s[..i] + s[i..j] + s[j..];
  }

  /** `find(filter).sort(key).skip(skip).limit(limit)` together with `countDocuments(filter)`:
      one page of the matching documents in key order, and how many documents match. */
  method FindPage<K, V(==, !new)>(store: map<K, V>, p: V -> bool, key: V -> Sorting.Key, desc: bool,
                                  skip: nat, limit: nat)
    returns (page: seq<V>, total: nat)
    ensures total == |Stores.Matching(store, p)|
    ensures |page| <= total
    ensures forall v :: v in page ==> v in store.Values && p(v)
    ensures Sorting.Sorted(page, key, desc)
    ensures SortedWindowOf(page, Stores.Docs(store, Stores.Matching(store, p)), key, desc, skip, limit)
  {
    var all := Stores.Collect(store, p);
    Sorting.SortKeepsMembers(all, key, desc);
    var sorted := Sorting.Sort(all, key, desc);
    page := Window(sorted, skip, limit);
    SortedWindow(sorted, skip, limit, key, desc);
    total := |all|;
  }
}

=== FILE: postman.dfy ===
/** The sample-body generator of the collection script: a JSON value built from a JSON-schema-like
    tree, following `$ref` links into the named component schemas. */
module Postman {
  import opened Wrappers
  import Text

  /** A JSON value; `Undefined` is the value JavaScript yields for a missing array element. */
  datatype Json =
    | Undefined
    | Null
    | Bool(b: bool)
    | Num(n: int)
    | Str(s: string)
    | Arr(elems: seq<Json>)
    | Obj(fields: seq<(string, Json)>)

  /** The keywords of a schema the generator reads. `properties` lists the property schemas in
      key order; an absent `properties` and an empty one generate alike, so both are `[]`. */
  datatype Schema = Schema(
    ref: Option<string>,
    typ: Option<string>,
    properties: seq<Property>,
    items: Option<Schema>,
    example: Option<Json>,
    format: Option<string>,
    enumValues: Option<seq<Json>>,
    minimum: Option<int>)

  /** One entry of `properties`. */
  datatype Property = Property(key: string, schema: Schema)

  /** The schema `{}`. */
  const Empty: Schema := Schema(None, None, [], None, None, None, None, None)

  const RefPrefix: string := "#/components/schemas/"

  /** `s.replace(pattern, '')` with a string pattern: the first occurrence is removed. */
  function RemoveFirst(s: string, pattern: string): (r: string)
    requires |pattern| > 0
    ensures Text.IsPrefix(pattern, s) ==> r == s[|pattern|..]
    ensures |r| == |s| || |r| == |s| - |pattern|
  {
    if Text.IsPrefix(pattern, s) then s[|pattern|..]
    else if |s| == 0 then s
    else [s[0]] + RemoveFirst(s[1..], pattern)
  }

  /** A `$ref` is followed only when it is a non-empty string. */
  predicate HasRef(s: Schema) {
    s.ref.Some? && s.ref.value != ""
  }

  /** The schema a `$ref` names, or `{}` when the components have no such name. */
  function Resolve(s: Schema, components: map<string, Schema>): Schema
    requires HasRef(s)
  {
    var name := RemoveFirst(s.ref.value, RefPrefix);
    if name in components then components[name] else Empty
  }

  /** `schema.example !== undefined`. */
  predicate HasExample(s: Schema) {
    s.example.Some? && s.example.value != Undefined
  }

  /** A string format the generator has a fixed sample for. */
  predicate FixedFormat(s: Schema) {
    s.format == Some("email") || s.format == Some("date") || s.format == Some("date-time")
  }

  /** The sample of a leaf schema: the example if there is one, else a value by type. A string
      goes by format, then by the first enum value, then `"string"`; a number or integer is its
      minimum or 0; a boolean is true; anything else is null. */
  function LeafSample(s: Schema): (r: Json)
    ensures HasExample(s) ==> r == s.example.value
    ensures !HasExample(s) && s.typ == Some("string") && s.format == Some("email") ==> r == Str("user@example.com")
    ensures !HasExample(s) && s.typ == Some("string") && s.format == Some("date") ==> r == Str("2024-12-01")
    ensures !HasExample(s) && s.typ == Some("string") && s.format == Some("date-time") ==> r == Str("2024-12-01T10:00:00Z")
    ensures !HasExample(s) && s.typ == Some("string") && !FixedFormat(s) && s.enumValues.Some? ==>
      r == (if |s.enumValues.value| > 0 then s.enumValues.value[0] else Undefined)
    ensures !HasExample(s) && s.typ == Some("string") && !FixedFormat(s) && s.enumValues.None? ==> r == Str("string")
    ensures !HasExample(s) && s.typ in {Some("number"), Some("integer")} ==> r == Num(s.minimum.GetOr(0))
    ensures !HasExample(s) && s.typ == Some("boolean") ==> r == Bool(true)
    ensures !HasExample(s) && s.typ !in {Some("string"), Some("number"), Some("integer"), Some("boolean")} ==> r == Null
  {
    if HasExample(s) then s.example.value
    else if s.typ == Some("string") then
      if s.format == Some("email") then Str("user@example.com")
      else if s.format == Some("date") then Str("2024-12-01")
      else if s.format == Some("date-time") then Str("2024-12-01T10:00:00Z")
      else if s.enumValues.Some? then
        (if |s.enumValues.value| > 0 then s.enumValues.value[0] else Undefined)
      else Str("string")
    else if s.typ == Some("number") || s.typ == Some("integer") then Num(s.minimum.GetOr(0))
    else if s.typ == Some("boolean") then Bool(true)
    else Null
  }

  /** Whether every entry of a list of generated values is present. */
  predicate AllPresent(vals: seq<Option<Json>>) {
    forall i :: 0 <= i < |vals| ==> vals[i].Some?
  }

  /** `generateSampleFromSchema`. Following a `$ref` uses one unit of `fuel`; `None` stands for
      the unbounded recursion a cycle of references causes. An array with no `items` schema
      generates from `{}`, which is null. */
  function Generate(s: Schema, components: map<string, Schema>, fuel: nat): (r: Option<Json>)
    ensures HasRef(s) && fuel == 0 ==> r.None?
    ensures !HasRef(s) && s.typ != Some("object") && s.typ != Some("array") ==> r == Some(LeafSample(s))
    ensures r.Some? && !HasRef(s) && s.typ == Some("object") ==>
      && r.value.Obj? && |r.value.fields| == |s.properties|
      && forall i :: 0 <= i < |s.properties| ==> r.value.fields[i].0 == s.properties[i].key
    ensures r.Some? && !HasRef(s) && s.typ == Some("array") ==> r.value.Arr? && |r.value.elems| == 1
    ensures !HasRef(s) && s.typ == Some("array") && s.items.None? ==> r == Some(Arr([Null]))
    decreases fuel, s
  {
    if HasRef(s) then
      if fuel == 0 then None else Generate(Resolve(s, components), components, fuel - 1)
    else if s.typ == Some("object") then
      var props := s.properties;
      var vals := seq(|props|, i requires 0 <= i < |props| =>
        assert props[i] in props; Generate(props[i].schema, components, fuel));
      if AllPresent(vals) then Some(Obj(seq(|props|, i requires 0 <= i < |props| => (props[i].key, vals[i].value))))
      else None
    else if s.typ == Some("array") then
      if s.items.None? then Some(Arr([Null]))
      else
        match Generate(s.items.value, components, fuel)
        case Some(v) => Some(Arr([v]))
        case None => None
    else Some(LeafSample(s))
  }

  /** `{}` has no type and no example, so it yields null. */
  lemma EmptyIsNull(components: map<string, Schema>, fuel: nat)
    ensures Generate(Empty, components, fuel) == Some(Null)
  {
  }

  /** A `$ref` generates from the component it names; an unknown name yields null. */
  lemma RefResolution(s: Schema, components: map<string, Schema>, fuel: nat)
    requires HasRef(s) && fuel > 0
    ensures Generate(s, components, fuel) == Generate(Resolve(s, components), components, fuel - 1)
    ensures RemoveFirst(s.ref.value, RefPrefix) !in components ==> Generate(s, components, fuel) == Some(Null)
  {
  }

  /** A `$ref` of the usual form names the component after the prefix. */
  lemma PrefixedRefNamesComponent(s: Schema, components: map<string, Schema>, name: string)
    requires s.ref == Some(RefPrefix + name)
    ensures HasRef(s) && Resolve(s, components) == if name in components then components[name] else Empty
  {
    assert Text.IsPrefix(RefPrefix, RefPrefix + name);
    assert (RefPrefix + name)[|RefPrefix|..] == name;
  }

  /** An object schema yields an object with exactly its property keys, in order, each value
      generated from its property schema; the type wins over an example. */
  lemma ObjectSample(s: Schema, components: map<string, Schema>, fuel: nat)
    requires !HasRef(s) && s.typ == Some("object")
    requires Generate(s, components, fuel).Some?
    ensures var r := Generate(s, components, fuel).value;
      && r.Obj?
      && |r.fields| == |s.properties|
      && forall i :: 0 <= i < |r.fields| ==>
           r.fields[i].0 == s.properties[i].key
           && Generate(s.properties[i].schema, components, fuel) == Some(r.fields[i].1)
  {
  }

  /** Conversely, once every property has a sample, so has the object, and it is made of them. */
  lemma ObjectFromProperties(s: Schema, components: map<string, Schema>, fuel: nat, values: seq<Json>)
    requires !HasRef(s) && s.typ == Some("object")
    requires |values| == |s.properties|
    requires forall i :: 0 <= i < |values| ==> Generate(s.properties[i].schema, components, fuel) == Some(values[i])
    ensures Generate(s, components, fuel).Some?
    ensures var r := Generate(s, components, fuel).value;
      && r.Obj? && |r.fields| == |values|
      && forall i :: 0 <= i < |values| ==> r.fields[i] == (s.properties[i].key, values[i])
  {
  }

  /** An array schema yields a one-element array of its item sample. */
  lemma ArraySample(s: Schema, components: map<string, Schema>, fuel: nat)
    requires !HasRef(s) && s.typ == Some("array")
    requires Generate(s, components, fuel).Some?
    ensures var r := Generate(s, components, fuel).value;
      && r.Arr? && |r.elems| == 1
      && Some(r.elems[0]) == Generate(s.items.GetOr(Empty), components, fuel)
  {
  }

  /** A schema with no `$ref` anywhere inside it. */
  predicate RefFree(s: Schema)
    decreases s
  {
    && !HasRef(s)
    && (forall i :: 0 <= i < |s.properties| ==>
          (assert s.properties[i] in s.properties; RefFree(s.properties[i].schema)))
    && (s.items.Some? ==> RefFree(s.items.value))
  }

  /** A sample fits a reference-free schema: an object has the schema's keys in order with
      fitting values, an array holds fitting items, an example stands for itself, and a leaf has
      the kind of its type. */
  predicate Fits(j: Json, s: Schema)
    decreases s
  {
    if s.typ == Some("object") then
      && j.Obj?
      && |j.fields| == |s.properties|
      && forall i :: 0 <= i < |j.fields| ==>
           (assert s.properties[i] in s.properties;
            j.fields[i].0 == s.properties[i].key && Fits(j.fields[i].1, s.properties[i].schema))
    else if s.typ == Some("array") then
      && j.Arr? && |j.elems| > 0
      && forall k :: 0 <= k < |j.elems| ==> (s.items.None? ==> j.elems[k] == Null) && (s.items.Some? ==> Fits(j.elems[k], s.items.value))
    else if HasExample(s) then j == s.example.value
    else if s.typ == Some("string") then
      if FixedFormat(s) || s.enumValues.None? then j.Str?
      else if |s.enumValues.value| == 0 then j == Undefined
      else j == s.enumValues.value[0]
    else if s.typ == Some("number") || s.typ == Some("integer") then j.Num?
    else if s.typ == Some("boolean") then j.Bool?
    else j == Null
  }

  /** Without references the generator needs no fuel, and its sample fits the schema. */
  lemma {:induction false} RefFreeSampleFits(s: Schema, components: map<string, Schema>, fuel: nat)
    requires RefFree(s)
    ensures Generate(s, components, fuel).Some?
    ensures Fits(Generate(s, components, fuel).value, s)
    decreases s
  {
    if s.typ == Some("object") {
      var props := s.properties;
      forall i | 0 <= i < |props|
        ensures Generate(props[i].schema, components, fuel).Some?
        ensures Fits(Generate(props[i].schema, components, fuel).value, props[i].schema)
      {
        assert props[i] in props;
        RefFreeSampleFits(props[i].schema, components, fuel);
      }
    } else if s.typ == Some("array") {
      if s.items.Some? {
        RefFreeSampleFits(s.items.value, components, fuel);
      }
    }
  }

  /** Once a sample is produced, more fuel produces the same sample: the fuel only cuts off
      cycles of references. */
  lemma {:induction false} MoreFuelSameSample(s: Schema, components: map<string, Schema>, fuel: nat, more: nat)
    requires fuel <= more
    requires Generate(s, components, fuel).Some?
    ensures Generate(s, components, more) == Generate(s, components, fuel)
    decreases fuel, s
  {
    if HasRef(s) {
      MoreFuelSameSample(Resolve(s, components), components, fuel - 1, more - 1);
    } else if s.typ == Some("object") {
      var props := s.properties;
      ObjectSample(s, components, fuel);
      forall i | 0 <= i < |props|
        ensures Generate(props[i].schema, components, more) == Generate(props[i].schema, components, fuel)
      {
        assert props[i] in props;
        MoreFuelSameSample(props[i].schema, components, fuel, more);
      }
      var fields := Generate(s, components, fuel).value.fields;
      var values := seq(|props|, i requires 0 <= i < |props| => fields[i].1);
      ObjectFromProperties(s, components, fuel, values);
      ObjectFromProperties(s, components, more, values);
      assert Generate(s, components, more).value.fields == fields;
    } else if s.typ == Some("array") {
      if s.items.Some? {
        MoreFuelSameSample(s.items.value, components, fuel, more);
      }
    }
  }

  /** A schema that refers to itself never produces a sample: the recursion does not end. */
  lemma {:induction false} SelfReferenceNeverEnds(s: Schema, components: map<string, Schema>, fuel: nat)
    requires HasRef(s)
    requires RemoveFirst(s.ref.value, RefPrefix) in components
    requires components[RemoveFirst(s.ref.value, RefPrefix)] == s
    ensures Generate(s, components, fuel).None?
    decreases fuel
  {
    if fuel > 0 {
      SelfReferenceNeverEnds(s, components, fuel - 1);
    }
  }
}

=== FILE: seo.dfy ===
/** The page-title rule of the SEO head component: every title carries the brand name. */
module Seo {
  import Text

  const Brand: string := "VinFast"

  const BrandSuffix: string := " | VinFast"

  /** The title used when a page gives none. */
  const DefaultTitle: string := Brand + " - Cửa hàng ô tô điện hàng đầu Việt Nam"

  /** `fullTitle`: a title that already names the brand is kept; any other gets the brand
      appended. */
  function FullTitle(title: string): (r: string)
    ensures Text.Contains(title, Brand) ==> r == title
    ensures !Text.Contains(title, Brand) ==> r == title + BrandSuffix
  {
    if Text.Contains(title, Brand) then title else title + BrandSuffix
  }

  /** The brand appended at the end is an occurrence of it. */
  lemma SuffixNamesBrand(title: string)
    ensures Text.Contains(title + BrandSuffix, Brand)
  {
    var s := title + BrandSuffix;
    assert s[|title| + 3..|title| + 3 + |Brand|] == Brand;
    assert Text.OccursAt(s, Brand, |title| + 3);
  }

  /** Every full title names the brand. */
  lemma FullTitleNamesBrand(title: string)
    ensures Text.Contains(FullTitle(title), Brand)
  {
    if !Text.Contains(title, Brand) {
      SuffixNamesBrand(title);
    }
  }

  /** Applying the rule to a full title changes nothing, and the title a page starts from is
      a prefix of what is shown. */
  lemma FullTitleIdempotent(title: string)
    ensures FullTitle(FullTitle(title)) == FullTitle(title)
    ensures Text.IsPrefix(title, FullTitle(title))
  {
    FullTitleNamesBrand(title);
  }

  /** A title that starts with the brand is shown as it is. */
  lemma BrandFirstUnchanged(rest: string)
    ensures FullTitle(Brand + rest) == Brand + rest
  {
    assert (Brand + rest)[0..|Brand|] == Brand;
    assert Text.OccursAt(Brand + rest, Brand, 0);
  }

  /** The default title starts with the brand, so it is shown as it is. */
  lemma DefaultTitleUnchanged()
    ensures FullTitle(DefaultTitle) == DefaultTitle
  {
    BrandFirstUnchanged(" - Cửa hàng ô tô điện hàng đầu Việt Nam");
  }
}

=== FILE: seqs.dfy ===
/** Order-preserving list operations (`filter`, `find`, `reduce`, `new Set`) over sequences. */
module Seqs {
  import opened Wrappers

  /** `a` can be obtained from `b` by deleting elements: the relative order of `a` is that of `b`. */
  predicate IsSubsequence<T(==)>(a: seq<T>, b: seq<T>)
    decreases |b|
  {
    || |a| == 0
    || (&& |b| > 0
        && ((a[0] == b[0] && IsSubsequence(a[1..], b[1..])) || IsSubsequence(a, b[1..])))
  }

  /** Dropping the first element of a subsequence keeps it a subsequence. */
  lemma {:induction false} SubsequenceDropHead<T>(a: seq<T>, b: seq<T>)
    requires |a| > 0 && IsSubsequence(a, b)
    ensures IsSubsequence(a[1..], b)
    decreases |b|
  {
    if a[0] == b[0] && IsSubsequence(a[1..], b[1..]) {
    } else {
      SubsequenceDropHead(a, b[1..]);
    }
  }

  /** Subsequence is transitive, so chained filters keep the input order. */
  lemma {:induction false} SubsequenceTransitive<T>(a: seq<T>, b: seq<T>, c: seq<T>)
    requires IsSubsequence(a, b) && IsSubsequence(b, c)
    ensures IsSubsequence(a, c)
    decreases |c|
  {
    if |a| == 0 {
    } else if b[0] == c[0] && IsSubsequence(b[1..], c[1..]) {
      if a[0] == b[0] && IsSubsequence(a[1..], b[1..]) {
        SubsequenceTransitive(a[1..], b[1..], c[1..]);
      } else {
        SubsequenceTransitive(a, b[1..], c[1..]);
      }
    } else {
      SubsequenceTransitive(a, b, c[1..]);
    }
  }

  /** `Array.prototype.filter`: the elements satisfying `p`, in their original order. */
  function Filter<T(==,!new)>(s: seq<T>, p: T -> bool): (r: seq<T>)
    ensures |r| <= |s|
    ensures forall x :: x in r <==> x in s && p(x)
    ensures forall x :: multiset(r)[x] == if p(x) then multiset(s)[x] else 0
    ensures IsSubsequence(r, s)
  {
    if |s| == 0 then []
    else
      var rest := Filter(s[1..], p);
      assert s == [s[0]] + s[1..];
      if p(s[0]) then
        assert ([s[0]] + rest)[1..] == rest;
        [s[0]] + rest
      else
        rest
  }

  /** Filtering with a predicate that holds everywhere changes nothing. */
  lemma {:induction false} FilterAll<T(!new)>(s: seq<T>, p: T -> bool)
    requires forall x :: x in s ==> p(x)
    ensures Filter(s, p) == s
  {
    if |s| > 0 {
      FilterAll(s[1..], p);
    }
  }

  /** Filtering with a predicate that holds nowhere leaves nothing. */
  lemma {:induction false} FilterNone<T(!new)>(s: seq<T>, p: T -> bool)
    requires forall x :: x in s ==> !p(x)
    ensures Filter(s, p) == []
  {
    if |s| > 0 {
      FilterNone(s[1..], p);
    }
  }

  /** Filter distributes over concatenation. */
  lemma {:induction false} FilterAppend<T(!new)>(a: seq<T>, b: seq<T>, p: T -> bool)
    ensures Filter(a + b, p) == Filter(a, p) + Filter(b, p)
  {
    if |a| == 0 {
      assert a + b == b;
    } else {
      assert (a + b)[1..] == a[1..] + b;
      FilterAppend(a[1..], b, p);
    }
  }

  /** Every sequence is a subsequence of itself. */
  lemma {:induction false} SubsequenceRefl<T>(s: seq<T>)
    ensures IsSubsequence(s, s)
  {
    if |s| > 0 {
      SubsequenceRefl(s[1..]);
    }
  }

  /** `if (on) s = s.filter(p)`: one optional step of a filter chain. An element keeps all its
      copies unless the step is on and rejects it. */
  function FilterWhen<T(==,!new)>(on: bool, s: seq<T>, p: T -> bool): (r: seq<T>)
    ensures forall x :: multiset(r)[x] == if on && !p(x) then 0 else multiset(s)[x]
    ensures IsSubsequence(r, s)
    ensures !on ==> r == s
  {
    SubsequenceRefl(s);
    if on then Filter(s, p) else s
  }

  /** The number of elements satisfying `p`. */
  function Count<T>(s: seq<T>, p: T -> bool): (n: nat)
    ensures n <= |s|
  {
    if |s| == 0 then 0 else (if p(s[0]) then 1 else 0) + Count(s[1..], p)
  }

  /** `filter(p).length` is the count of `p`. */
  lemma {:induction false} CountIsFilterLength<T(!new)>(s: seq<T>, p: T -> bool)
    ensures Count(s, p) == |Filter(s, p)|
  {
    if |s| > 0 {
      CountIsFilterLength(s[1..], p);
    }
  }

  /** `reduce((t, x) => t + f(x), 0)`. */
  function Sum<T>(s: seq<T>, f: T -> int): int
  {
    if |s| == 0 then 0 else f(s[0]) + Sum(s[1..], f)
  }

  lemma {:induction false} SumAppend<T>(a: seq<T>, b: seq<T>, f: T -> int)
    ensures Sum(a + b, f) == Sum(a, f) + Sum(b, f)
  {
    if |a| == 0 {
      assert a + b == b;
    } else {
      assert (a + b)[1..] == a[1..] + b;
      SumAppend(a[1..], b, f);
    }
  }

  /** A sum of non-negative terms is non-negative. */
  lemma {:induction false} SumNonNegative<T>(s: seq<T>, f: T -> int)
    requires forall x :: x in s ==> f(x) >= 0
    ensures Sum(s, f) >= 0
  {
    if |s| > 0 {
      SumNonNegative(s[1..], f);
    }
  }

  /** `findIndex`: the first position whose element satisfies `p`. */
  function FindIndex<T>(s: seq<T>, p: T -> bool): (r: Option<nat>)
    ensures r.Some? ==> r.value < |s| && p(s[r.value])
    ensures r.Some? ==> forall j :: 0 <= j < r.value ==> !p(s[j])
    ensures r.None? <==> forall j :: 0 <= j < |s| ==> !p(s[j])
  {
    if |s| == 0 then None
    else if p(s[0]) then Some(0)
    else
      match FindIndex(s[1..], p)
      case None => None
      case Some(i) => Some(i + 1)
  }

  /** `Array.prototype.find`: the first element satisfying `p`, or `undefined`. */
  function Find<T>(s: seq<T>, p: T -> bool): (r: Option<T>)
    ensures r.Some? ==> r.value in s && p(r.value)
    ensures r.None? <==> forall x :: x in s ==> !p(x)
  {
    match FindIndex(s, p)
    case None => None
    case Some(i) => Some(s[i])
  }

  /** No element occurs twice. */
  predicate Distinct<T(==)>(s: seq<T>) {
    forall i, j :: 0 <= i < j < |s| ==> s[i] != s[j]
  }

  /** The position of the first occurrence of `x`. */
  function IndexOf<T(==)>(s: seq<T>, x: T): (i: nat)
    requires x in s
    ensures i < |s| && s[i] == x
    ensures forall j :: 0 <= j < i ==> s[j] != x
  {
    if s[0] == x then 0 else 1 + IndexOf(s[1..], x)
  }

  lemma {:induction false} IndexOfPrefix<T>(s: seq<T>, x: T, y: T)
    requires x in s
    ensures IndexOf(s + [y], x) == IndexOf(s, x)
  {
    if s[0] != x {
      assert (s + [y])[1..] == s[1..] + [y];
      IndexOfPrefix(s[1..], x, y);
    }
  }

  /** `[...new Set(s)]`: each value once, in order of first occurrence. */
  function Dedup<T(==,!new)>(s: seq<T>): (r: seq<T>)
    ensures Distinct(r)
    ensures forall x :: x in r <==> x in s
    ensures forall i, j :: 0 <= i < j < |r| ==> IndexOf(s, r[i]) < IndexOf(s, r[j])
    decreases |s|
  {
    if |s| == 0 then []
    else
      var init := s[..|s| - 1];
      var last := s[|s| - 1];
      assert s == init + [last];
      var d := Dedup(init);
      forall x | x in init ensures IndexOf(s, x) == IndexOf(init, x) {
        IndexOfPrefix(init, x, last);
      }
      if last in d then d
      else
        assert IndexOf(s, last) == |s| - 1;
        d + [last]
  }
}

=== FILE: slug.dfy ===
/** The slug rule shared by the news and car models: lower-case, strip diacritics, turn `đ`
    into `d`, keep `[a-z0-9 -]`, turn runs of white space into one dash, collapse runs of dashes
    and trim. Lower-casing, Unicode decomposition and the removal of combining marks
    (`toLowerCase().normalize('NFD').replace(/[̀-ͯ]/g, '')`) are one function the
    caller supplies. */
module Slug {
  import Text
  import Seqs

  /** A character a slug may hold. */
  predicate SlugChar(c: char) {
    'a' <= c <= 'z' || '0' <= c <= '9' || c == '-'
  }

  /** A character the `[^a-z0-9 -]` step keeps. */
  predicate Kept(c: char) {
    SlugChar(c) || c == ' '
  }

  /** No dash is followed by another dash. */
  predicate NoDoubleDash(s: string) {
    forall i :: 0 <= i < |s| - 1 ==> !(s[i] == '-' && s[i + 1] == '-')
  }

  /** What the replace steps promise of its output. */
  predicate IsSlug(s: string) {
    (forall i :: 0 <= i < |s| ==> SlugChar(s[i])) && NoDoubleDash(s)
  }

  function StrokeToD(c: char): char {
    if c == 'đ' || c == 'Đ' then 'd' else c
  }

  /** `.replace(/[đĐ]/g, 'd')`. */
  function ReplaceStrokeD(s: string): (r: string)
    ensures |r| == |s|
    ensures forall i :: 0 <= i < |s| ==> r[i] == StrokeToD(s[i])
  {
    if |s| == 0 then [] else [StrokeToD(s[0])] + ReplaceStrokeD(s[1..])
  }

  /** `.replace(/[^a-z0-9 -]/g, '')`. */
  function KeepSlugChars(s: string): (r: string)
    ensures forall c :: c in r <==> c in s && Kept(c)
    ensures Seqs.IsSubsequence(r, s)
  {
    Seqs.Filter(s, Kept)
  }

  /** `.replace(/\s+/g, '-')`: every maximal run of white space becomes one dash. */
  function DashSpaces(s: string): (r: string)
    ensures forall c :: c in r ==> c == '-' || (c in s && !Text.IsSpace(c))
    ensures |s| > 0 && !Text.IsSpace(s[0]) ==> |r| > 0 && r[0] == s[0]
  {
    DashRuns(s, false)
  }

  /** The replacement scanning left to right; `inRun` says the previous character was white
      space, whose dash is already written. */
  function DashRuns(s: string, inRun: bool): (r: string)
    ensures forall c :: c in r ==> c == '-' || (c in s && !Text.IsSpace(c))
    ensures |s| > 0 && !Text.IsSpace(s[0]) ==> |r| > 0 && r[0] == s[0]
  {
    if |s| == 0 then []
    else if Text.IsSpace(s[0]) then
      (if inRun then [] else ['-']) + DashRuns(s[1..], true)
    else [s[0]] + DashRuns(s[1..], false)
  }

  /** `.replace(/-+/g, '-')`: every maximal run of dashes becomes one dash. */
  function CollapseDashes(s: string): (r: string)
    ensures forall c :: c in r ==> c in s
    ensures |s| > 0 ==> |r| > 0 && r[0] == s[0]
    ensures NoDoubleDash(r)
  {
    CollapseRuns(s, false)
  }

  /** The replacement scanning left to right; `afterDash` says the previous character was a
      dash, which is already written. */
  function CollapseRuns(s: string, afterDash: bool): (r: string)
    ensures forall c :: c in r ==> c in s
    ensures |s| > 0 && !(afterDash && s[0] == '-') ==> |r| > 0 && r[0] == s[0]
    ensures afterDash && |r| > 0 ==> r[0] != '-'
    ensures NoDoubleDash(r)
  {
    if |s| == 0 then []
    else if s[0] == '-' then
      (if afterDash then [] else ['-']) + CollapseRuns(s[1..], true)
    else [s[0]] + CollapseRuns(s[1..], false)
  }

  /** The steps after diacritic removal, in their order. */
  function Finish(s: string): (r: string)
    ensures IsSlug(r)
  {
    var collapsed := CollapseDashes(DashSpaces(KeepSlugChars(ReplaceStrokeD(s))));
    StepsMakeSlug(s);
    Text.Trim(collapsed)
  }

  /** Before the trim, the steps already leave a slug, and a slug has no space to trim. */
  lemma StepsMakeSlug(s: string)
    ensures var collapsed := CollapseDashes(DashSpaces(KeepSlugChars(ReplaceStrokeD(s))));
      IsSlug(collapsed) && Text.Trim(collapsed) == collapsed
  {
    var kept := KeepSlugChars(ReplaceStrokeD(s));
    DashedAreSlugChars(kept);
    CollapsedIsSlug(DashSpaces(kept));
  }

  /** Replacing the white space of kept characters leaves slug characters only. */
  lemma DashedAreSlugChars(t: string)
    requires forall c :: c in t ==> Kept(c)
    ensures forall c :: c in DashSpaces(t) ==> SlugChar(c)
  {
  }

  /** Collapsing the dashes of slug characters gives a slug, which has no space to trim. */
  lemma CollapsedIsSlug(t: string)
    requires forall c :: c in t ==> SlugChar(c)
    ensures IsSlug(CollapseDashes(t)) && Text.Trim(CollapseDashes(t)) == CollapseDashes(t)
  {
    var collapsed := CollapseDashes(t);
    forall i | 0 <= i < |collapsed| ensures SlugChar(collapsed[i]) && !Text.IsSpace(collapsed[i]) {
      assert collapsed[i] in collapsed;
    }
    Text.TrimNoSpace(collapsed);
  }

  /** The slug of a title or a name, given the diacritic-stripping step. */
  function Slugify(title: string, fold: string -> string): (r: string)
    ensures IsSlug(r)
  {
    Finish(fold(title))
  }

  lemma {:induction false} DashSpacesNoSpace(s: string)
    requires forall i :: 0 <= i < |s| ==> !Text.IsSpace(s[i])
    ensures DashSpaces(s) == s
  {
    DashRunsNoSpace(s);
  }

  lemma {:induction false} DashRunsNoSpace(s: string)
    requires forall i :: 0 <= i < |s| ==> !Text.IsSpace(s[i])
    ensures DashRuns(s, false) == s
  {
    if |s| > 0 {
      DashRunsNoSpace(s[1..]);
    }
  }

  lemma CollapseNoDoubleDash(s: string)
    requires NoDoubleDash(s)
    ensures CollapseDashes(s) == s
  {
    CollapseRunsKeeps(s, false);
  }

  lemma {:induction false} CollapseRunsKeeps(s: string, afterDash: bool)
    requires NoDoubleDash(s)
    requires afterDash && |s| > 0 ==> s[0] != '-'
    ensures CollapseRuns(s, afterDash) == s
  {
    if |s| > 0 {
      assert NoDoubleDash(s[1..]);
      if s[0] == '-' && |s| > 1 {
        assert s[1] != '-';
      }
      CollapseRunsKeeps(s[1..], s[0] == '-');
    }
  }

  /** The steps leave a string of lower-case letters and digits without white space or dashes
      unchanged once its barred d's are replaced. */
  lemma {:induction false} FinishKeeps(x: string)
    requires forall i :: 0 <= i < |x| ==> SlugChar(x[i])
    requires NoDoubleDash(x)
    ensures Finish(x) == x
  {
    var a := ReplaceStrokeD(x);
    assert a == x;
    forall c | c in x
      ensures Kept(c)
    {
      var i :| 0 <= i < |x| && x[i] == c;
    }
    Seqs.FilterAll(x, Kept);
    assert KeepSlugChars(a) == x;
    DashSpacesNoSpace(x);
    CollapseNoDoubleDash(x);
    Text.TrimNoSpace(x);
  }

  /** A slug is its own slug: running the steps again changes nothing. */
  lemma FinishIdempotent(s: string)
    ensures Finish(Finish(s)) == Finish(s)
  {
    FinishKeeps(Finish(s));
  }

  /** Replacing the barred d's twice is replacing them once. */
  lemma FinishAfterReplace(s: string)
    ensures Finish(ReplaceStrokeD(s)) == Finish(s)
  {
    var once := ReplaceStrokeD(s);
    var twice := ReplaceStrokeD(once);
    assert |twice| == |once|;
    assert forall i :: 0 <= i < |once| ==> twice[i] == once[i];
    assert twice == once;
  }

  /** `đ` and `Đ` survive as `d`: a word of lower-case letters, digits and barred d's keeps its
      length and has each barred d replaced. */
  lemma StrokeBecomesD(s: string)
    requires forall i :: 0 <= i < |s| ==> ('a' <= s[i] <= 'z' || '0' <= s[i] <= '9' || s[i] == 'đ' || s[i] == 'Đ')
    ensures Finish(s) == ReplaceStrokeD(s)
  {
    ReplacedWordIsSlug(s);
    FinishKeeps(ReplaceStrokeD(s));
    FinishAfterReplace(s);
  }

  lemma ReplacedWordIsSlug(s: string)
    requires forall i :: 0 <= i < |s| ==> ('a' <= s[i] <= 'z' || '0' <= s[i] <= '9' || s[i] == 'đ' || s[i] == 'Đ')
    ensures forall i :: 0 <= i < |ReplaceStrokeD(s)| ==> SlugChar(ReplaceStrokeD(s)[i]) && ReplaceStrokeD(s)[i] != '-'
    ensures NoDoubleDash(ReplaceStrokeD(s))
  {
  }
}

=== FILE: sorting.dfy ===
/** `Array.prototype.sort` with the comparator the client hooks use:
    `(a, b) => a > b ? 1 : -1` for ascending and `(a, b) => b > a ? 1 : -1` for descending. */
module Sorting {

  /** A sort key: a number (price, year, timestamp) or a string (name, status). */
  datatype Key = Num(n: int) | Str(s: string)

  /** JavaScript `a < b` on strings: lexicographic order of character codes. */
  predicate StrLess(a: string, b: string)
    decreases |a|
  {
    if |b| == 0 then false
    else if |a| == 0 then true
    else if a[0] != b[0] then a[0] < b[0]
    else StrLess(a[1..], b[1..])
  }

  lemma {:induction false} StrLessIrreflexive(a: string)
    ensures !StrLess(a, a)
  {
    if |a| > 0 {
      StrLessIrreflexive(a[1..]);
    }
  }

  lemma {:induction false} StrLessTransitive(a: string, b: string, c: string)
    requires StrLess(a, b) && StrLess(b, c)
    ensures StrLess(a, c)
    decreases |a|
  {
    if |a| > 0 && a[0] == b[0] && b[0] == c[0] {
      StrLessTransitive(a[1..], b[1..], c[1..]);
    }
  }

  /** Two different strings are ordered one way or the other. */
  lemma {:induction false} StrLessTotal(a: string, b: string)
    requires a != b
    ensures StrLess(a, b) || StrLess(b, a)
    decreases |a|
  {
    if |a| > 0 && |b| > 0 && a[0] == b[0] {
      assert a == [a[0]] + a[1..] && b == [b[0]] + b[1..];
      StrLessTotal(a[1..], b[1..]);
    }
  }

  /** JavaScript `a > b` on two keys of the same kind (numbers are placed before strings). */
  predicate Greater(a: Key, b: Key) {
    match (a, b)
    case (Num(x), Num(y)) => x > y
    case (Str(x), Str(y)) => StrLess(y, x)
    case (Str(_), Num(_)) => true
    case (Num(_), Str(_)) => false
  }

  /** `a` may come before `b` in the sorted output: the comparator does not put `a` after `b`. */
  predicate InOrder(a: Key, b: Key, desc: bool) {
    if desc then !Greater(b, a) else !Greater(a, b)
  }

  lemma InOrderTransitive(a: Key, b: Key, c: Key, desc: bool)
    requires InOrder(a, b, desc) && InOrder(b, c, desc)
    ensures InOrder(a, c, desc)
  {
    match (a, b, c)
    case (Str(x), Str(y), Str(z)) =>
      if desc {
        if StrLess(x, z) {
          if StrLess(x, y) {} else if x == y {} else { StrLessTotal(x, y); StrLessTransitive(y, x, z); }
        }
      } else {
        if StrLess(z, x) {
          if StrLess(y, x) {} else if x == y {} else { StrLessTotal(x, y); StrLessTransitive(z, x, y); }
        }
      }
    case _ =>
  }

  lemma InOrderTotal(a: Key, b: Key, desc: bool)
    ensures InOrder(a, b, desc) || InOrder(b, a, desc)
  {
    match (a, b)
    case (Str(x), Str(y)) =>
      if StrLess(x, y) && StrLess(y, x) {
        StrLessTransitive(x, y, x);
        StrLessIrreflexive(x);
      }
    case _ =>
  }

  /** Every pair of positions is in comparator order. */
  predicate Sorted<T>(s: seq<T>, key: T -> Key, desc: bool) {
    forall i, j :: 0 <= i < j < |s| ==> InOrder(key(s[i]), key(s[j]), desc)
  }

  /** A sorted sequence headed by an element in order with all of it is sorted. */
  lemma ConsSorted<T>(h: T, t: seq<T>, key: T -> Key, desc: bool)
    requires Sorted(t, key, desc)
    requires forall j :: 0 <= j < |t| ==> InOrder(key(h), key(t[j]), desc)
    ensures Sorted([h] + t, key, desc)
  {
    var r := [h] + t;
    forall i, j | 0 <= i < j < |r| ensures InOrder(key(r[i]), key(r[j]), desc) {
      if i > 0 { assert r[i] == t[i - 1] && r[j] == t[j - 1]; }
    }
  }

  function Insert<T>(x: T, s: seq<T>, key: T -> Key, desc: bool): (r: seq<T>)
    requires Sorted(s, key, desc)
    ensures multiset(r) == multiset(s) + multiset{x}
    ensures forall y :: y in r ==> y == x || y in s
    ensures Sorted(r, key, desc)
  {
    if |s| == 0 then [x]
    else if InOrder(key(x), key(s[0]), desc) then
      forall j | 0 <= j < |s| ensures InOrder(key(x), key(s[j]), desc) {
        if j > 0 { InOrderTransitive(key(x), key(s[0]), key(s[j]), desc); }
      }
      assert s == [s[0]] + s[1..];
      ConsSorted(x, s, key, desc);
      [x] + s
    else
      InOrderTotal(key(x), key(s[0]), desc);
      var rest := Insert(x, s[1..], key, desc);
      assert s == [s[0]] + s[1..];
      forall j | 0 <= j < |rest| ensures InOrder(key(s[0]), key(rest[j]), desc) {
        assert rest[j] in rest;
        if rest[j] != x {
          assert rest[j] in s[1..];
          var k :| 0 <= k < |s[1..]| && s[1..][k] == rest[j];
          assert s[k + 1] == rest[j];
        }
      }
      ConsSorted(s[0], rest, key, desc);
      assert multiset([s[0]] + rest) == multiset{s[0]} + multiset(rest);
      assert multiset(s) == multiset{s[0]} + multiset(s[1..]);
      [s[0]] + rest
  }

  /** The sorted arrangement of `s`: the same elements, each pair in comparator order. */
  function Sort<T>(s: seq<T>, key: T -> Key, desc: bool): (r: seq<T>)
    ensures multiset(r) == multiset(s)
    ensures |r| == |s|
    ensures Sorted(r, key, desc)
  {
    if |s| == 0 then []
    else
      assert s == [s[0]] + s[1..];
      var r := Insert(s[0], Sort(s[1..], key, desc), key, desc);
      assert |r| == |multiset(r)|;
      r
  }

  /** A sorted permutation holds exactly the elements it was given. */
  lemma SortKeepsMembers<T>(s: seq<T>, key: T -> Key, desc: bool)
    ensures forall x :: x in Sort(s, key, desc) <==> x in s
  {
    var r := Sort(s, key, desc);
    forall x ensures x in r <==> x in s {
      assert x in r <==> x in multiset(r);
      assert x in s <==> x in multiset(s);
    }
  }
}

=== FILE: stores.dfy ===
/** Collections of documents keyed by id, as the controllers see them: `find(filter)` is the
    set of ids whose document matches, and `countDocuments(filter)` is its size. */
module Stores {
  /** The ids of the documents matching `p`. */
  function Matching<K, V>(store: map<K, V>, p: V -> bool): set<K> {
    set id | id in store && p(store[id])
  }

  /** The documents of the ids `ids`, one per stored id: what `find` returns for them, as a bag. */
  ghost function Docs<K, V>(store: map<K, V>, ids: set<K>): multiset<V>
    decreases ids
  {
    if ids == {} then multiset{}
    else
      var k :| k in ids;
      (if k in store then multiset{store[k]} else multiset{}) + Docs(store, ids - {k})
  }

  /** The bag does not depend on which id is taken first. */
  lemma {:induction false} DocsPick<K, V>(store: map<K, V>, ids: set<K>, j: K)
    requires ids <= store.Keys && j in ids
    ensures Docs(store, ids) == multiset{store[j]} + Docs(store, ids - {j})
    decreases ids
  {
    var k :| k in ids && Docs(store, ids) == multiset{store[k]} + Docs(store, ids - {k});
    if k != j {
      DocsPick(store, ids - {k}, j);
      DocsPick(store, ids - {j}, k);
      assert ids - {k} - {j} == ids - {j} - {k};
    }
  }

  /** Adding an id adds its document to the bag. */
  lemma DocsAdd<K, V>(store: map<K, V>, ids: set<K>, j: K)
    requires ids <= store.Keys && j in store && j !in ids
    ensures Docs(store, ids + {j}) == Docs(store, ids) + multiset{store[j]}
  {
    DocsPick(store, ids + {j}, j);
    assert ids + {j} - {j} == ids;
  }

  /** A document occurs in the bag as often as ids in `ids` hold it. */
  lemma {:induction false} DocsCount<K, V>(store: map<K, V>, ids: set<K>, v: V)
    requires ids <= store.Keys
    ensures Docs(store, ids)[v] == |set id | id in ids && store[id] == v|
    decreases ids
  {
    if ids != {} {
      var k :| k in ids;
      DocsPick(store, ids, k);
      DocsCount(store, ids - {k}, v);
      var rest := set id | id in ids - {k} && store[id] == v;
      if store[k] == v {
        assert (set id | id in ids && store[id] == v) == rest + {k};
      } else {
        assert (set id | id in ids && store[id] == v) == rest;
      }
    }
  }

  /** `find(filter)`: the matching documents, one per matching id, in some order. */
  method Collect<K, V(==)>(store: map<K, V>, p: V -> bool) returns (vs: seq<V>)
    ensures multiset(vs) == Docs(store, Matching(store, p))
    ensures |vs| == |Matching(store, p)|
    ensures forall v :: v in vs ==> p(v) && v in store.Values
  {
    vs := [];
    var remaining := store.Keys;
    var found: set<K> := {};
    while remaining != {}
      invariant remaining <= store.Keys
      invariant found == Matching(store, p) - remaining
      invariant multiset(vs) == Docs(store, found)
      invariant |vs| == |found|
      invariant forall v :: v in vs ==> p(v) && v in store.Values
      decreases remaining
    {
      var id :| id in remaining;
      CollectStep(store, p, remaining, found, id);
      if p(store[id]) {
        vs := vs + [store[id]];
        found := found + {id};
      }
      remaining := remaining - {id};
    }
  }

  /** One step of `Collect`: taking `id` out of the ids still to visit. */
  lemma CollectStep<K, V>(store: map<K, V>, p: V -> bool, remaining: set<K>, found: set<K>, id: K)
    requires remaining <= store.Keys && id in remaining && found == Matching(store, p) - remaining
    ensures p(store[id]) ==>
      && id !in found && found + {id} <= store.Keys
      && Matching(store, p) - (remaining - {id}) == found + {id}
      && Docs(store, found + {id}) == Docs(store, found) + multiset{store[id]}
      && |found + {id}| == |found| + 1
    ensures !p(store[id]) ==> Matching(store, p) - (remaining - {id}) == found
  {
    if p(store[id]) {
      DocsAdd(store, found, id);
    }
  }

  /** A narrower filter never counts more documents. */
  lemma SubsetCard<K>(a: set<K>, b: set<K>)
    requires a <= b
    ensures |a| <= |b|
  {
    assert b == a + (b - a);
  }

  /** A subset as large as its superset is the superset. */
  lemma SubsetSameCard<K>(a: set<K>, b: set<K>)
    requires a <= b && |a| == |b|
    ensures a == b
  {
    assert b == a + (b - a);
    assert |b - a| == 0;
  }
}

=== FILE: testdrive_controller.dfy ===
/** The test-drive request handlers: create, update, read, status patch and the two list
    endpoints, over the booking store. Identity, the car collection and "now" are inputs. */
module TestDriveController {
  import opened Wrappers
  import opened Access
  import opened TestDriveModel
  import Paging
  import Sorting
  import Stores
  import Text
  import Email

  /** The request fields a validation rule is attached to; `SavedDocument` is the schema check
      at save time. */
  datatype Field =
    | FullName | Email | Phone | PreferredDate | PreferredTime | LocationField | Message
    | StatusField | ConfirmedDate | ConfirmedTime | AdminNotes | Rating | Comment
    | Page | Limit | DateParam | SavedDocument

  function FieldPath(f: Field): string {
    match f
    case FullName => "customerInfo.fullName"
    case Email => "customerInfo.email"
    case Phone => "customerInfo.phone"
    case PreferredDate => "schedule.preferredDate"
    case PreferredTime => "schedule.preferredTime"
    case LocationField => "location"
    case Message => "message"
    case StatusField => "status"
    case ConfirmedDate => "schedule.confirmedDate"
    case ConfirmedTime => "schedule.confirmedTime"
    case AdminNotes => "adminNotes"
    case Rating => "feedback.rating"
    case Comment => "feedback.comment"
    case Page => "page"
    case Limit => "limit"
    case DateParam => "date"
    case SavedDocument => ""
  }

  datatype Error =
    | Invalid(fields: seq<Field>)   // request or schema validation failed
    | CarUnavailable                // the car does not exist or is inactive
    | SlotUnavailable               // checkConflict found a booking
    | NotFound
    | Forbidden
    | Unauthenticated               // `protect` found no valid token
    | CastFailed                    // a query value the store cannot cast (`CastError`)
    | ServerError                   // a storage error passed on to the error middleware

  function HttpStatus(e: Error): nat {
    match e
    case NotFound => 404
    case CastFailed => 404
    case Forbidden => 403
    case Unauthenticated => 401
    case ServerError => 500
    case _ => 400
  }

  /** The car collection as far as bookings need it: whether each car id is active. */
  type CarIndex = map<nat, bool>

  predicate CarUsable(cars: CarIndex, car: nat) {
    car in cars && cars[car]
  }

  /** The owner (when the booking has one) or an admin. Anonymous bookings: admins only. */
  predicate MayManage(b: Booking, caller: Caller) {
    OwnerOrAdmin(b.user, caller)
  }

  /** Reading is refused only when the booking belongs to someone else and the caller is not admin. */
  predicate MayRead(b: Booking, caller: Caller) {
    !(b.user.Some? && b.user.value != caller.id && caller.role != Admin)
  }

  /** Whoever may manage a booking may read it; anyone may read an anonymous booking, but only an
      admin may manage one. */
  lemma ManageImpliesRead(b: Booking, caller: Caller)
    ensures MayManage(b, caller) ==> MayRead(b, caller)
    ensures b.user.None? ==> MayRead(b, caller) && (MayManage(b, caller) <==> caller.role == Admin)
  {
  }

  /** A create request after validation. Only the customer, the requested pair, the location and
      the message are validated; every other field is copied from the body as the store casts it. */
  datatype CreateBody = CreateBody(
    car: nat,
    customer: Customer,
    preferredDate: int,
    preferredTime: string,
    location: Location,
    message: Option<string>,
    status: Option<string>,
    confirmedDate: Option<int>,
    confirmedTime: Option<string>,
    adminNotes: Option<string>,
    assignedStaff: Option<nat>,
    feedback: Option<Feedback>)

  /** The customer as stored: the schema setters trim the name and lower-case the e-mail. */
  function StoredCustomer(fullName: string, email: string, phone: string): Customer {
    Customer(Text.Trim(fullName), Text.Lower(email), phone)
  }

  /** The document `create` is asked to insert (`{...req.body, user}`); `user` is the caller's
      id, or null. */
  function NewBooking(body: CreateBody, caller: Option<Caller>, status: Status, now: int): Booking {
    Booking(
      if caller.Some? then Some(caller.value.id) else None,
      body.car,
      StoredCustomer(body.customer.fullName, body.customer.email, body.customer.phone),
      Schedule(body.preferredDate, body.preferredTime, body.confirmedDate, body.confirmedTime),
      body.location,
      status,
      body.message,
      body.adminNotes,
      body.assignedStaff,
      body.feedback,
      now)
  }

  /** The status a new document gets: the supplied one when it is in the enum, `pending` when none. */
  function InitialStatus(s: Option<string>): Option<Status> {
    if s.None? then Some(Pending) else ParseStatus(s.value)
  }

  /** `createTestDrive`: the car check comes first, then `checkConflict` on the REQUESTED date and
      time against the CONFIRMED pairs of stored bookings, then the insert (schema validation). */
  method CreateTestDrive(store: Store, cars: CarIndex, caller: Option<Caller>, body: CreateBody, newId: nat, now: int)
    returns (store': Store, r: Result<nat, Error>)
    requires newId !in store
    ensures r.Err? ==> store' == store
    ensures !CarUsable(cars, body.car) ==> r == Err(CarUnavailable)
    ensures CarUsable(cars, body.car) && HasConflict(store, Some(body.preferredDate), Some(body.preferredTime), body.location, None)
      ==> r == Err(SlotUnavailable)
    ensures r.Ok? <==>
      && CarUsable(cars, body.car)
      && !HasConflict(store, Some(body.preferredDate), Some(body.preferredTime), body.location, None)
      && InitialStatus(body.status).Some?
      && SchemaValid(NewBooking(body, caller, InitialStatus(body.status).value, now), now)
    ensures r.Ok? ==> r.value == newId && newId in store' && store' == store[newId := store'[newId]]
    ensures r.Ok? ==> store'[newId].user == (if caller.Some? then Some(caller.value.id) else None)
    ensures r.Ok? && body.status.None? ==> store'[newId].status == Pending
    ensures r.Ok? ==> store'[newId].schedule == Schedule(body.preferredDate, body.preferredTime, body.confirmedDate, body.confirmedTime)
    ensures r.Ok? ==> && Email.Matches(store'[newId].customer.email)
                      && MaxLength(body.adminNotes, 1000) && FeedbackValid(body.feedback)
                      && store'[newId].adminNotes == body.adminNotes && store'[newId].feedback == body.feedback
    ensures r.Ok? && UniqueActiveSlots(store) && body.confirmedDate.None? ==> UniqueActiveSlots(store')
  {
    if !(body.car in cars && cars[body.car]) {
      return store, Err(CarUnavailable);
    }
    var conflict := CheckConflict(store, Some(body.preferredDate), Some(body.preferredTime), body.location, None);
    if conflict.Some? {
      return store, Err(SlotUnavailable);
    }
    var status := InitialStatus(body.status);
    if status.None? {
      return store, Err(Invalid([StatusField]));
    }
    var b := NewBooking(body, caller, status.value, now);
    if !SchemaValid(b, now) {
      return store, Err(Invalid([SavedDocument]));
    }
    store' := store[newId := b];
    if UniqueActiveSlots(store) && body.confirmedDate.None? {
      AddingUnconfirmedKeepsUnique(store, newId, b);
    }
    return store', Ok(newId);
  }

  /** A date in a request body as the store casts it: an instant, the empty string (cast to
      null), or text that is not a date. */
  datatype DateInput = At(time: int) | Blank | Uncastable

  /** A `schedule` object of an update body. It replaces the stored schedule as a whole: a part
      it leaves out is not kept but unset. */
  datatype SchedulePatch = SchedulePatch(
    preferredDate: Option<DateInput>,
    preferredTime: Option<string>,
    confirmedDate: Option<DateInput>,
    confirmedTime: Option<string>)

  /** A `customerInfo` object of an update body; like `schedule`, it replaces the stored one. */
  datatype CustomerPatch = CustomerPatch(fullName: Option<string>, email: Option<string>, phone: Option<string>)

  /** The body of an update (`Object.assign(testDrive, req.body)`); absent top-level fields keep
      their stored value, present ones replace it. Enumerated fields arrive as strings and are
      checked when the document is saved. */
  datatype Patch = Patch(
    user: Option<nat>,
    car: Option<nat>,
    customer: Option<CustomerPatch>,
    schedule: Option<SchedulePatch>,
    status: Option<string>,
    location: Option<string>,
    adminNotes: Option<string>,
    assignedStaff: Option<nat>,
    feedback: Option<Feedback>,
    message: Option<string>)

  function Override<T>(patch: Option<T>, stored: T): T {
    if patch.Some? then patch.value else stored
  }

  /** The replaced schedule, or None when the save cannot keep it: the requested date is missing,
      empty or not a date (the required rule or the cast fails), or the confirmed date is text
      that is not a date. A missing requested time is stored empty, which the enum refuses. */
  function ReplacedSchedule(sp: SchedulePatch): Option<Schedule> {
    if sp.preferredDate.None? || !sp.preferredDate.value.At? || sp.confirmedDate == Some(Uncastable) then None
    else
      Some(Schedule(
        sp.preferredDate.value.time,
        sp.preferredTime.GetOr(""),
        if sp.confirmedDate.Some? && sp.confirmedDate.value.At? then Some(sp.confirmedDate.value.time) else None,
        sp.confirmedTime))
  }

  /** The replaced customer: a missing part is stored empty, which the schema refuses. */
  function ReplacedCustomer(cp: CustomerPatch): Customer {
    StoredCustomer(cp.fullName.GetOr(""), cp.email.GetOr(""), cp.phone.GetOr(""))
  }

  /** The document after the assignment, or None when a status or location is outside its enum
      or a replaced schedule cannot be stored. */
  function Apply(b: Booking, p: Patch): Option<Booking> {
    var status := if p.status.Some? then ParseStatus(p.status.value) else Some(b.status);
    var location := if p.location.Some? then ParseLocation(p.location.value) else Some(b.location);
    var schedule := if p.schedule.Some? then ReplacedSchedule(p.schedule.value) else Some(b.schedule);
    if status.None? || location.None? || schedule.None? then None
    else
      Some(b.(
        user := if p.user.Some? then p.user else b.user,
        car := Override(p.car, b.car),
        customer := if p.customer.Some? then ReplacedCustomer(p.customer.value) else b.customer,
        schedule := schedule.value,
        status := status.value,
        location := location.value,
        adminNotes := if p.adminNotes.Some? then p.adminNotes else b.adminNotes,
        assignedStaff := if p.assignedStaff.Some? then p.assignedStaff else b.assignedStaff,
        feedback := if p.feedback.Some? then p.feedback else b.feedback,
        message := if p.message.Some? then p.message else b.message))
  }

  /** A date in the body is truthy unless it is absent or the empty string. */
  predicate TruthyDate(d: Option<DateInput>) {
    d.Some? && !d.value.Blank?
  }

  /** The update re-checks conflicts only when its `schedule` supplies a confirmed date or a
      non-empty confirmed time. */
  predicate TouchesSchedule(p: Patch) {
    p.schedule.Some? && (TruthyDate(p.schedule.value.confirmedDate) || Truthy(p.schedule.value.confirmedTime))
  }

  /** The re-check query cannot be built: its confirmed date is text that is not a date. */
  predicate RecheckCastFails(p: Patch) {
    p.schedule.Some? && p.schedule.value.confirmedDate == Some(Uncastable)
  }

  /** The arguments of the re-check: each missing part is taken from the stored booking
      (`body.x || stored.x`); an undefined stored part stays undefined. */
  function RecheckDate(b: Booking, p: Patch): Option<int> {
    if p.schedule.Some? && p.schedule.value.confirmedDate.Some? && p.schedule.value.confirmedDate.value.At?
    then Some(p.schedule.value.confirmedDate.value.time)
    else b.schedule.confirmedDate
  }

  function RecheckTime(b: Booking, p: Patch): Option<string> {
    if p.schedule.Some? && Truthy(p.schedule.value.confirmedTime) then p.schedule.value.confirmedTime
    else b.schedule.confirmedTime
  }

  /** The location of the re-check; a location outside the enum matches no stored booking. */
  function RecheckLocation(b: Booking, p: Patch): Option<Location> {
    if Truthy(p.location) then ParseLocation(p.location.value) else Some(b.location)
  }

  ghost predicate RecheckFinds(store: Store, id: nat, p: Patch)
    requires id in store
  {
    && TouchesSchedule(p)
    && RecheckLocation(store[id], p).Some?
    && HasConflict(store, RecheckDate(store[id], p), RecheckTime(store[id], p), RecheckLocation(store[id], p).value, Some(id))
  }

  /** `updateTestDrive`: not-found, then owner-or-admin, then the conflict re-check (excluding the
      booking itself; a confirmed date the query cannot cast is a `CastError`), then the save
      with full schema validation. Nothing is written on failure. */
  method UpdateTestDrive(store: Store, id: nat, caller: Caller, patch: Patch, now: int)
    returns (store': Store, r: Result<Booking, Error>)
    ensures r.Err? ==> store' == store
    ensures id !in store ==> r == Err(NotFound)
    ensures id in store && !MayManage(store[id], caller) ==> r == Err(Forbidden)
    ensures r == Err(CastFailed) <==> id in store && MayManage(store[id], caller) && RecheckCastFails(patch)
    ensures r == Err(SlotUnavailable) <==>
      id in store && MayManage(store[id], caller) && !RecheckCastFails(patch) && RecheckFinds(store, id, patch)
    ensures r.Ok? <==>
      && id in store && MayManage(store[id], caller) && !RecheckCastFails(patch) && !RecheckFinds(store, id, patch)
      && Apply(store[id], patch).Some? && SchemaValid(Apply(store[id], patch).value, now)
    ensures r.Ok? ==> id in store && r.value == Apply(store[id], patch).value && store' == store[id := r.value]
    ensures r.Ok? && UniqueActiveSlots(store) && patch.schedule.Some?
        && (patch.schedule.value.confirmedTime.None? || Truthy(patch.schedule.value.confirmedTime))
        && (patch.location.None? || Truthy(patch.location))
      ==> UniqueActiveSlots(store')
    ensures r.Ok? && UniqueActiveSlots(store) && patch.status.None? && patch.location.None? && patch.schedule.None?
      ==> UniqueActiveSlots(store')
  {
    if id !in store {
      return store, Err(NotFound);
    }
    var b := store[id];
    if !((b.user.Some? && b.user.value == caller.id) || caller.role == Admin) {
      return store, Err(Forbidden);
    }
    if TouchesSchedule(patch) {
      if RecheckCastFails(patch) {
        return store, Err(CastFailed);
      }
      var loc := RecheckLocation(b, patch);
      if loc.Some? {
        var conflict := CheckConflict(store, RecheckDate(b, patch), RecheckTime(b, patch), loc.value, Some(id));
        if conflict.Some? {
          return store, Err(SlotUnavailable);
        }
      }
    }
    var updated := Apply(b, patch);
    if updated.None? || !SchemaValid(updated.value, now) {
      return store, Err(Invalid([SavedDocument]));
    }
    store' := store[id := updated.value];
    r := Ok(updated.value);
    if UniqueActiveSlots(store) && patch.schedule.Some?
      && (patch.schedule.value.confirmedTime.None? || Truthy(patch.schedule.value.confirmedTime))
      && (patch.location.None? || Truthy(patch.location))
    {
      var nb := updated.value;
      if nb.schedule.confirmedDate.Some? && nb.schedule.confirmedTime.Some? {
        assert TouchesSchedule(patch);
        assert RecheckDate(b, patch) == nb.schedule.confirmedDate;
        assert RecheckTime(b, patch) == nb.schedule.confirmedTime;
        assert RecheckLocation(b, patch) == Some(nb.location);
        CheckedReplacementKeepsUnique(store, id, nb);
      } else {
        UnconfirmedReplacementKeepsUnique(store, id, nb);
      }
    }
    if UniqueActiveSlots(store) && patch.status.None? && patch.location.None? && patch.schedule.None? {
      SameSlotReplacementKeepsUnique(store, id, updated.value);
    }
  }

  /** Replacing a booking by one with the same status, location and confirmed pair keeps the invariant. */
  lemma SameSlotReplacementKeepsUnique(store: Store, id: nat, b: Booking)
    requires UniqueActiveSlots(store) && id in store
    requires b.status == store[id].status && b.location == store[id].location
    requires b.schedule.confirmedDate == store[id].schedule.confirmedDate
    requires b.schedule.confirmedTime == store[id].schedule.confirmedTime
    ensures UniqueActiveSlots(store[id := b])
  {
    var s' := store[id := b];
    forall i, j | i in s' && j in s' && i != j ensures !Clash(s'[i], s'[j]) {
      assert Clash(s'[i], s'[j]) == Clash(store[i], store[j]);
    }
  }

  /** `getTestDrive`. */
  function GetTestDrive(store: Store, id: nat, caller: Caller): (r: Result<Booking, Error>)
    ensures r.Ok? <==> id in store && MayRead(store[id], caller)
    ensures r.Ok? ==> r.value == store[id]
    ensures id !in store ==> r == Err(NotFound)
    ensures id in store && !MayRead(store[id], caller) ==> r == Err(Forbidden)
  {
    if id !in store then Err(NotFound)
    else if !MayRead(store[id], caller) then Err(Forbidden)
    else Ok(store[id])
  }

  /** `updateTestDriveStatus`: `findByIdAndUpdate(id, {status}, {runValidators})`. The enum is
      validated before the lookup; an undefined status leaves the document as it is. There is no
      transition rule and no conflict check. */
  method UpdateTestDriveStatus(store: Store, id: nat, status: Option<string>)
    returns (store': Store, r: Result<Booking, Error>)
    ensures r.Err? ==> store' == store
    ensures status.Some? && ParseStatus(status.value).None? ==> r == Err(Invalid([StatusField]))
    ensures (status.None? || ParseStatus(status.value).Some?) && id !in store ==> r == Err(NotFound)
    ensures (status.None? || ParseStatus(status.value).Some?) && id in store ==> r.Ok?
    ensures r.Ok? ==> id in store && store' == store[id := r.value]
    ensures r.Ok? && status.Some? ==> r.value == store[id].(status := ParseStatus(status.value).value)
    ensures r.Ok? && status.None? ==> r.value == store[id]
  {
    var parsed: Option<Status> := None;
    if status.Some? {
      parsed := ParseStatus(status.value);
      if parsed.None? {
        return store, Err(Invalid([StatusField]));
      }
    }
    if id !in store {
      return store, Err(NotFound);
    }
    var b := store[id];
    if parsed.Some? {
      b := b.(status := parsed.value);
    }
    return store[id := b], Ok(b);
  }

  /** `deleteTestDrive`: not-found, or the booking is removed and nothing else changes. */
  function DeleteTestDrive(store: Store, id: nat): (r: Result<Store, Error>)
    ensures r.Err? <==> id !in store
    ensures r.Err? ==> r.error == NotFound
    ensures r.Ok? ==> id !in r.value && forall k :: k in r.value <==> k in store && k != id
    ensures r.Ok? ==> forall k :: k in r.value ==> r.value[k] == store[k]
  {
    if id !in store then Err(NotFound) else Ok(store - {id})
  }

  /** Deleting a booking never breaks the one-active-booking-per-slot invariant. */
  lemma DeleteKeepsUnique(store: Store, id: nat)
    requires UniqueActiveSlots(store) && id in store
    ensures DeleteTestDrive(store, id).Ok? && UniqueActiveSlots(DeleteTestDrive(store, id).value)
  {
  }

  /** The date validator runs on every save: once the requested date is not after `now`, an
      update of the booking, feedback included, is accepted only when it brings a whole new
      schedule whose requested date is after `now`. */
  lemma PastBookingNeedsReschedule(b: Booking, patch: Patch, now: int)
    requires b.schedule.preferredDate <= now
    requires Apply(b, patch).Some? && SchemaValid(Apply(b, patch).value, now)
    ensures patch.schedule.Some? && patch.schedule.value.preferredDate.Some?
    ensures patch.schedule.value.preferredDate.value.At? && patch.schedule.value.preferredDate.value.time > now
  {
  }

  /** Such a schedule is enough: a past booking that is valid apart from its dates is accepted
      with a new requested pair, and its confirmed pair is dropped. */
  lemma RescheduleRevivesPastBooking(b: Booking, t: int, time: string, now: int)
    requires b.schedule.preferredDate <= now
    requires SchemaValid(b.(schedule := Schedule(t, time, None, None)), now)
    ensures var p := Patch(None, None, None, Some(SchedulePatch(Some(At(t)), Some(time), None, None)),
                           None, None, None, None, None, None);
      && !TouchesSchedule(p)
      && Apply(b, p) == Some(b.(schedule := Schedule(t, time, None, None)))
      && SchemaValid(Apply(b, p).value, now)
  {
  }

  /** A `schedule` that brings only the confirmed pair unsets the requested pair, so the save
      refuses it whatever the stored booking holds: an update that confirms a slot this way
      fails validation even when the conflict re-check passes. */
  lemma ConfirmOnlyScheduleRejected(b: Booking, patch: Patch, now: int)
    requires patch.schedule.Some? && patch.schedule.value.preferredDate.None?
    ensures Apply(b, patch).None?
  {
  }

  /** A `schedule` in the body replaces the stored one as a whole: the schedule after the update
      does not depend on the schedule before it. */
  lemma ScheduleReplacedWhole(b1: Booking, b2: Booking, patch: Patch)
    requires patch.schedule.Some? && Apply(b1, patch).Some? && Apply(b2, patch).Some?
    ensures Apply(b1, patch).value.schedule == Apply(b2, patch).value.schedule
    ensures Apply(b1, patch).value.schedule.confirmedDate.Some? ==>
      patch.schedule.value.confirmedDate.Some? && patch.schedule.value.confirmedDate.value.At?
  {
  }

  /** Re-activating a cancelled booking through the status patch can leave two active bookings on
      one confirmed slot: the invariant holds before and fails after. */
  lemma StatusPatchCanBreakUniqueness()
    ensures exists store: Store, id: nat ::
      id in store && UniqueActiveSlots(store) && !UniqueActiveSlots(store[id := store[id].(status := Confirmed)])
  {
    var sched := Schedule(100, "10:00", Some(100), Some("10:00"));
    var c := Customer("An", "an@example.com", "0912345678");
    var a := Booking(None, 1, c, sched, Hanoi, Cancelled, None, None, None, None, 0);
    var b := a.(status := Confirmed);
    var store: Store := map[0 := a, 1 := b];
    forall i, j | i in store && j in store && i != j ensures !Clash(store[i], store[j]) {
    }
    var after := store[0 := store[0].(status := Confirmed)];
    assert Clash(after[0], after[1]);
  }

  /** A request that was never confirmed blocks nothing: a second create for the same requested
      date, time and showroom passes the conflict check. */
  lemma PendingRequestDoesNotBlockCreate(store: Store, id: nat, b: Booking)
    requires id !in store && !HasConflict(store, Some(b.schedule.preferredDate), Some(b.schedule.preferredTime), b.location, None)
    requires b.status == Pending && b.schedule.confirmedDate.None?
    ensures !HasConflict(store[id := b], Some(b.schedule.preferredDate), Some(b.schedule.preferredTime), b.location, None)
  {
    NonOccupyingBookingIsInvisible(store, id, b, b.schedule.preferredDate, b.schedule.preferredTime, b.location, None);
  }

  /** Confirmed pairs supplied in a create body are not checked, so a create can double-book. */
  lemma CreateWithConfirmedPairCanBreakUniqueness()
    ensures exists store: Store, id: nat, b: Booking ::
      && id !in store && UniqueActiveSlots(store)
      && !HasConflict(store, Some(b.schedule.preferredDate), Some(b.schedule.preferredTime), b.location, None)
      && !UniqueActiveSlots(store[id := b])
  {
    var c := Customer("An", "an@example.com", "0912345678");
    var a := Booking(None, 1, c, Schedule(100, "10:00", Some(100), Some("10:00")), Hanoi, Confirmed, None, None, None, None, 0);
    var b := a.(schedule := Schedule(100, "09:00", Some(100), Some("10:00")), status := Pending);
    var store: Store := map[0 := a];
    assert !Conflicts(store, 0, Some(100), Some("09:00"), Hanoi, None);
    assert !HasConflict(store, Some(100), Some("09:00"), Hanoi, None);
    assert UniqueActiveSlots(store);
    var after := store[1 := b];
    assert Clash(after[0], after[1]);
    assert !UniqueActiveSlots(after);
    assert b.schedule.preferredDate == 100 && b.schedule.preferredTime == "09:00" && b.location == Hanoi;
    assert 1 !in store && UniqueActiveSlots(store)
      && !HasConflict(store, Some(b.schedule.preferredDate), Some(b.schedule.preferredTime), b.location, None)
      && !UniqueActiveSlots(store[1 := b]);
  }

  /** The filter of `getTestDrives`. */
  predicate ListFilter(b: Booking, status: Option<Status>, location: Option<Location>) {
    (status.None? || b.status == status.value) && (location.None? || b.location == location.value)
  }

  function CreatedAtKey(b: Booking): Sorting.Key {
    Sorting.Num(b.createdAt)
  }

  /** `sort({createdAt: -1})`: a permutation, newest first. */
  function SortNewestFirst(bs: seq<Booking>): (sorted: seq<Booking>)
    ensures multiset(sorted) == multiset(bs)
    ensures forall b :: b in sorted <==> b in bs
    ensures Sorting.Sorted(sorted, CreatedAtKey, true)
  {
    Sorting.SortKeepsMembers(bs, CreatedAtKey, true);
    Sorting.Sort(bs, CreatedAtKey, true)
  }

  function Listed(status: Option<Status>, location: Option<Location>): Booking -> bool {
    b => ListFilter(b, status, location)
  }

  /** The ids `find` and `countDocuments` select are those of the matching bookings. */
  lemma ListedIds(store: Store, status: Option<Status>, location: Option<Location>)
    ensures Stores.Matching(store, Listed(status, location))
      == set id | id in store && ListFilter(store[id], status, location)
  {
  }

  function Mine(userId: nat, status: Option<Status>): Booking -> bool {
    b => ByUser(b, userId, status)
  }

  /** `getTestDrives` (admin): the filtered bookings, newest first, one page of them, the total
      count and the next/prev links. */
  method GetTestDrives(store: Store, page: int, limit: int, status: Option<Status>, location: Option<Location>)
    returns (data: seq<Booking>, total: nat, pagination: Paging.Pagination)
    requires page >= 1 && limit >= 1
    ensures total == |set id | id in store && ListFilter(store[id], status, location)|
    ensures |data| <= limit
    ensures forall b :: b in data ==> b in store.Values && ListFilter(b, status, location)
    ensures Sorting.Sorted(data, CreatedAtKey, true)
    ensures Paging.SortedWindowOf(data, Stores.Docs(store, Stores.Matching(store, Listed(status, location))),
                                  CreatedAtKey, true, Paging.StartIndex(page, limit), limit)
    ensures pagination == Paging.Paginate(page, limit, total)
  {
    var all := Stores.Collect(store, Listed(status, location));
    ListedIds(store, status, location);
    var sorted := SortNewestFirst(all);
    data := Paging.Window(sorted, Paging.StartIndex(page, limit), limit);
    Paging.SortedWindow(sorted, Paging.StartIndex(page, limit), limit, CreatedAtKey, true);
    total := |all|;
    pagination := Paging.Paginate(page, limit, total);
  }

  /** The ids of every booking of one user. */
  function UserBookingIds(store: Store, userId: nat): set<nat> {
    set id | id in store && ByUser(store[id], userId, None)
  }

  /** `getUserTestDrives`: `getByUser` with the status filter, but a `total` that counts every
      booking of the user whatever its status. A negative skip is a storage error. */
  method GetUserTestDrives(store: Store, userId: nat, page: int, limit: int, status: Option<Status>)
    returns (r: Result<(seq<Booking>, nat), Error>)
    ensures r.Err? <==> Paging.StartIndex(page, limit) < 0
    ensures r.Ok? ==> r.value.1 == |UserBookingIds(store, userId)|
    ensures r.Ok? ==> forall b :: b in r.value.0 ==> b in store.Values && ByUser(b, userId, status)
    ensures r.Ok? ==> |r.value.0| <= r.value.1
    ensures r.Ok? ==> Sorting.Sorted(r.value.0, CreatedAtKey, true)
    ensures r.Ok? ==> Paging.SortedWindowOf(r.value.0, Stores.Docs(store, Stores.Matching(store, Mine(userId, status))),
                                            CreatedAtKey, true, Paging.StartIndex(page, limit),
                                            if limit < 0 then -limit else limit)
  {
    var start := Paging.StartIndex(page, limit);
    if start < 0 {
      return Err(ServerError);
    }
    var mine := Stores.Collect(store, Mine(userId, status));
    var sorted := SortNewestFirst(mine);
    var window := Paging.Window(sorted, start, if limit < 0 then -limit else limit);
    Paging.SortedWindow(sorted, start, if limit < 0 then -limit else limit, CreatedAtKey, true);
    var totalSet := UserBookingIds(store, userId);
    var shownSet := Stores.Matching(store, Mine(userId, status));
    assert shownSet <= totalSet;
    Stores.SubsetCard(shownSet, totalSet);
    return Ok((window, |totalSet|));
  }
}

=== FILE: testdrive_model.dfy ===
/** The test-drive booking record: its enumerations, schema validators, display virtuals and the
    two scheduling statics `checkConflict` and `getAvailableSlots`. */
module TestDriveModel {
  import opened Wrappers
  import Seqs
  import Text
  import Email

  /** The eight bookable times of day, in catalog order. */
  const Slots: seq<string> := ["08:00", "09:00", "10:00", "11:00", "14:00", "15:00", "16:00", "17:00"]

  /** The enum check on a time of day. */
  predicate IsSlot(t: string) {
    Text.OneOf(t, Slots)
  }

  /** The five showrooms. */
  datatype Location = Hanoi | Hcm | Danang | Haiphong | Cantho

  function LocationCode(l: Location): string {
    match l
    case Hanoi => "hanoi"
    case Hcm => "hcm"
    case Danang => "danang"
    case Haiphong => "haiphong"
    case Cantho => "cantho"
  }

  /** The enum check on `location`: only the five showroom codes are accepted. */
  function ParseLocation(s: string): (r: Option<Location>)
    ensures r.Some? ==> LocationCode(r.value) == s
    ensures r.None? ==> forall l: Location :: LocationCode(l) != s
  {
    if s == "hanoi" then Some(Hanoi)
    else if s == "hcm" then Some(Hcm)
    else if s == "danang" then Some(Danang)
    else if s == "haiphong" then Some(Haiphong)
    else if s == "cantho" then Some(Cantho)
    else None
  }

  const LocationCodes: seq<string> := ["hanoi", "hcm", "danang", "haiphong", "cantho"]

  /** The enum list accepts exactly what the parser accepts. */
  lemma LocationCodesMatchParse(s: string)
    ensures Text.OneOf(s, LocationCodes) <==> ParseLocation(s).Some?
  {
    Text.OneOfIsMembership(s, LocationCodes);
  }

  lemma LocationRoundTrip(l: Location)
    ensures ParseLocation(LocationCode(l)) == Some(l)
  {
  }

  datatype Status = Pending | Confirmed | Completed | Cancelled | NoShow

  function StatusCode(s: Status): string {
    match s
    case Pending => "pending"
    case Confirmed => "confirmed"
    case Completed => "completed"
    case Cancelled => "cancelled"
    case NoShow => "no_show"
  }

  /** The enum check on `status`. */
  function ParseStatus(s: string): (r: Option<Status>)
    ensures r.Some? ==> StatusCode(r.value) == s
    ensures r.None? ==> forall st: Status :: StatusCode(st) != s
  {
    if s == "pending" then Some(Pending)
    else if s == "confirmed" then Some(Confirmed)
    else if s == "completed" then Some(Completed)
    else if s == "cancelled" then Some(Cancelled)
    else if s == "no_show" then Some(NoShow)
    else None
  }

  const StatusCodes: seq<string> := ["pending", "confirmed", "completed", "cancelled", "no_show"]

  lemma StatusCodesMatchParse(s: string)
    ensures Text.OneOf(s, StatusCodes) <==> ParseStatus(s).Some?
  {
    Text.OneOfIsMembership(s, StatusCodes);
  }

  lemma StatusRoundTrip(s: Status)
    ensures ParseStatus(StatusCode(s)) == Some(s)
  {
  }

  /** Only pending and confirmed bookings take part in conflicts and availability. */
  predicate IsActive(s: Status) {
    s == Pending || s == Confirmed
  }

  datatype Customer = Customer(fullName: string, email: string, phone: string)

  /** The requested pair is set at creation; the confirmed pair is a separate, optional pair. */
  datatype Schedule = Schedule(
    preferredDate: int,
    preferredTime: string,
    confirmedDate: Option<int>,
    confirmedTime: Option<string>)

  datatype Feedback = Feedback(rating: Option<int>, comment: Option<string>, submittedAt: Option<int>)

  datatype Booking = Booking(
    user: Option<nat>,
    car: nat,
    customer: Customer,
    schedule: Schedule,
    location: Location,
    status: Status,
    message: Option<string>,
    adminNotes: Option<string>,
    assignedStaff: Option<nat>,
    feedback: Option<Feedback>,
    createdAt: int)

  /** The booking collection, by document id. */
  type Store = map<nat, Booking>

  /** `^[0-9]{10,11}$`. */
  predicate PhoneValid(p: string) {
    10 <= |p| <= 11 && Text.AllDigits(p)
  }

  predicate MaxLength(s: Option<string>, n: nat) {
    s.None? || |s.value| <= n
  }

  predicate FeedbackValid(f: Option<Feedback>) {
    f.None? || (&& (f.value.rating.None? || 1 <= f.value.rating.value <= 5)
                && MaxLength(f.value.comment, 1000))
  }

  /** The schema validators a save runs on every initialised path of the document: required
      fields, the 100-character name, the e-mail and phone patterns, a preferred date strictly
      after `now`, a catalog preferred time, the text limits and the rating range. */
  predicate SchemaValid(b: Booking, now: int) {
    && 0 < |b.customer.fullName| <= 100
    && Email.Matches(b.customer.email)
    && PhoneValid(b.customer.phone)
    && b.schedule.preferredDate > now
    && IsSlot(b.schedule.preferredTime)
    && MaxLength(b.message, 500)
    && MaxLength(b.adminNotes, 1000)
    && FeedbackValid(b.feedback)
  }

  /** The filter of `checkConflict` and `getAvailableSlots` for one booking. A date or time that
      is undefined is dropped from the filter and so constrains nothing. Only the CONFIRMED pair
      is compared; the requested pair is never looked at. */
  predicate MatchesSlot(b: Booking, date: Option<int>, time: Option<string>, loc: Location) {
    && b.location == loc
    && IsActive(b.status)
    && (date.None? || b.schedule.confirmedDate == date)
    && (time.None? || b.schedule.confirmedTime == time)
  }

  /** Booking `id` is a hit for `checkConflict(date, time, loc, excludeId)`. */
  predicate Conflicts(store: Store, id: nat, date: Option<int>, time: Option<string>, loc: Location, excludeId: Option<nat>) {
    && id in store
    && (excludeId.None? || id != excludeId.value)
    && MatchesSlot(store[id], date, time, loc)
  }

  ghost predicate HasConflict(store: Store, date: Option<int>, time: Option<string>, loc: Location, excludeId: Option<nat>) {
    exists id :: Conflicts(store, id, date, time, loc, excludeId)
  }

  /** `checkConflict`: some booking matching the filter, other than `excludeId`, or none. */
  method CheckConflict(store: Store, date: Option<int>, time: Option<string>, loc: Location, excludeId: Option<nat>)
    returns (r: Option<nat>)
    ensures r.Some? ==> Conflicts(store, r.value, date, time, loc, excludeId)
    ensures r.None? <==> !HasConflict(store, date, time, loc, excludeId)
  {
    var remaining := store.Keys;
    while remaining != {}
      invariant remaining <= store.Keys
      invariant forall id :: id in store && id !in remaining ==> !Conflicts(store, id, date, time, loc, excludeId)
      decreases remaining
    {
      var id :| id in remaining;
      if Conflicts(store, id, date, time, loc, excludeId) {
        return Some(id);
      }
      remaining := remaining - {id};
    }
    return None;
  }

  /** An active booking at `loc` holds the confirmed pair (`date`, `time`). */
  ghost predicate SlotTaken(store: Store, date: int, time: string, loc: Location) {
    exists id :: id in store && MatchesSlot(store[id], Some(date), Some(time), loc)
  }

  /** The `distinct('schedule.confirmedTime')` of the active bookings confirmed at `date`, `loc`. */
  method BookedTimes(store: Store, date: int, loc: Location) returns (times: set<string>)
    ensures forall t :: t in times <==> SlotTaken(store, date, t, loc)
  {
    times := {};
    var remaining := store.Keys;
    while remaining != {}
      invariant remaining <= store.Keys
      invariant forall t :: t in times <==>
        exists id :: id in store && id !in remaining && MatchesSlot(store[id], Some(date), Some(t), loc)
      decreases remaining
    {
      var id :| id in remaining;
      var b := store[id];
      if b.location == loc && IsActive(b.status) && b.schedule.confirmedDate == Some(date) && b.schedule.confirmedTime.Some? {
        times := times + {b.schedule.confirmedTime.value};
      }
      remaining := remaining - {id};
    }
  }

  /** `getAvailableSlots`: the catalog minus the booked confirmed times, in catalog order. */
  method GetAvailableSlots(store: Store, date: int, loc: Location) returns (slots: seq<string>)
    ensures Seqs.IsSubsequence(slots, Slots)
    ensures forall t :: t in slots <==> t in Slots && !SlotTaken(store, date, t, loc)
    ensures (forall t :: t in Slots ==> !SlotTaken(store, date, t, loc)) ==> slots == Slots
  {
    var booked := BookedTimes(store, date, loc);
    slots := Seqs.Filter(Slots, t => t !in booked);
    if forall t :: t in Slots ==> !SlotTaken(store, date, t, loc) {
      Seqs.FilterAll(Slots, t => t !in booked);
    }
  }

  /** A free slot is exactly one `checkConflict` (without exclusion) finds nothing for. */
  lemma AvailabilityAgreesWithConflict(store: Store, date: int, time: string, loc: Location)
    ensures SlotTaken(store, date, time, loc) <==> HasConflict(store, Some(date), Some(time), loc, None)
  {
    if SlotTaken(store, date, time, loc) {
      var id :| id in store && MatchesSlot(store[id], Some(date), Some(time), loc);
      assert Conflicts(store, id, Some(date), Some(time), loc, None);
    }
  }

  /** With `excludeId` given, that booking is never reported, whatever it holds. */
  lemma ExcludedNeverConflicts(store: Store, id: nat, date: Option<int>, time: Option<string>, loc: Location)
    ensures !Conflicts(store, id, date, time, loc, Some(id))
  {
  }

  /** A booking whose confirmed pair is not fully set matches no filter that names both a date
      and a time, whatever its requested pair and status. */
  lemma UnconfirmedMatchesNothing(b: Booking, date: int, time: string, loc: Location)
    requires b.schedule.confirmedDate.None? || b.schedule.confirmedTime.None?
    ensures !MatchesSlot(b, Some(date), Some(time), loc)
  {
  }

  /** Adding a booking that holds no confirmed pair, or that is not active (completed, cancelled,
      no-show), changes neither availability nor any fully specified conflict check. */
  lemma NonOccupyingBookingIsInvisible(store: Store, id: nat, b: Booking, date: int, time: string, loc: Location, excludeId: Option<nat>)
    requires id !in store
    requires b.schedule.confirmedDate.None? || b.schedule.confirmedTime.None? || !IsActive(b.status)
    ensures SlotTaken(store[id := b], date, time, loc) <==> SlotTaken(store, date, time, loc)
    ensures HasConflict(store[id := b], Some(date), Some(time), loc, excludeId)
        <==> HasConflict(store, Some(date), Some(time), loc, excludeId)
  {
    var s' := store[id := b];
    if SlotTaken(s', date, time, loc) {
      var k :| k in s' && MatchesSlot(s'[k], Some(date), Some(time), loc);
      assert k != id && k in store;
    }
    if SlotTaken(store, date, time, loc) {
      var k :| k in store && MatchesSlot(store[k], Some(date), Some(time), loc);
      assert k in s' && s'[k] == store[k];
    }
    if HasConflict(s', Some(date), Some(time), loc, excludeId) {
      var k :| Conflicts(s', k, Some(date), Some(time), loc, excludeId);
      assert k != id && Conflicts(store, k, Some(date), Some(time), loc, excludeId);
    }
    if HasConflict(store, Some(date), Some(time), loc, excludeId) {
      var k :| Conflicts(store, k, Some(date), Some(time), loc, excludeId);
      assert Conflicts(s', k, Some(date), Some(time), loc, excludeId);
    }
  }

  /** Two different active bookings at one showroom hold the same confirmed pair. */
  predicate Clash(a: Booking, b: Booking) {
    && IsActive(a.status) && IsActive(b.status)
    && a.location == b.location
    && a.schedule.confirmedDate.Some? && a.schedule.confirmedTime.Some?
    && a.schedule.confirmedDate == b.schedule.confirmedDate
    && a.schedule.confirmedTime == b.schedule.confirmedTime
  }

  /** The scheduling invariant: no two active bookings share location, confirmed date and time. */
  ghost predicate UniqueActiveSlots(store: Store) {
    forall i, j :: i in store && j in store && i != j ==> !Clash(store[i], store[j])
  }

  /** Replacing a booking by one that holds no confirmed pair keeps the invariant. */
  lemma UnconfirmedReplacementKeepsUnique(store: Store, id: nat, b: Booking)
    requires UniqueActiveSlots(store) && id in store
    requires b.schedule.confirmedDate.None? || b.schedule.confirmedTime.None?
    ensures UniqueActiveSlots(store[id := b])
  {
    var s' := store[id := b];
    forall i, j | i in s' && j in s' && i != j ensures !Clash(s'[i], s'[j]) {
      if i != id && j != id {
        assert s'[i] == store[i] && s'[j] == store[j];
      }
    }
  }

  /** A booking that holds no confirmed pair can be added without breaking the invariant. */
  lemma AddingUnconfirmedKeepsUnique(store: Store, id: nat, b: Booking)
    requires UniqueActiveSlots(store) && id !in store
    requires b.schedule.confirmedDate.None? || b.schedule.confirmedTime.None?
    ensures UniqueActiveSlots(store[id := b])
  {
  }

  /** Replacing booking `id` keeps the invariant when the conflict check on the new booking's own
      confirmed pair and location, excluding `id`, finds nothing. */
  lemma CheckedReplacementKeepsUnique(store: Store, id: nat, b: Booking)
    requires UniqueActiveSlots(store) && id in store
    requires !HasConflict(store, b.schedule.confirmedDate, b.schedule.confirmedTime, b.location, Some(id))
    ensures UniqueActiveSlots(store[id := b])
  {
    var s' := store[id := b];
    forall i, j | i in s' && j in s' && i != j ensures !Clash(s'[i], s'[j]) {
      if i == id && Clash(b, s'[j]) {
        assert Conflicts(store, j, b.schedule.confirmedDate, b.schedule.confirmedTime, b.location, Some(id));
      }
      if j == id && Clash(s'[i], b) {
        assert Conflicts(store, i, b.schedule.confirmedDate, b.schedule.confirmedTime, b.location, Some(id));
      }
    }
  }

  /** `statusDisplay`: the Vietnamese label, or the raw value for a value outside the enum. */
  function StatusDisplay(raw: string): (r: string)
    ensures ParseStatus(raw).None? ==> r == raw
    ensures ParseStatus(raw).Some? ==> r != raw
  {
    match ParseStatus(raw)
    case Some(Pending) => "Chờ xác nhận"
    case Some(Confirmed) => "Đã xác nhận"
    case Some(Completed) => "Hoàn thành"
    case Some(Cancelled) => "Đã hủy"
    case Some(NoShow) => "Không đến"
    case None => raw
  }

  /** Each status has its own label. */
  lemma StatusDisplayInjective(a: Status, b: Status)
    requires StatusDisplay(StatusCode(a)) == StatusDisplay(StatusCode(b))
    ensures a == b
  {
  }

  /** `locationDisplay`: the showroom's name, or the raw value for a value outside the enum. */
  function LocationDisplay(raw: string): (r: string)
    ensures ParseLocation(raw).None? ==> r == raw
    ensures ParseLocation(raw).Some? ==> r != raw
  {
    match ParseLocation(raw)
    case Some(Hanoi) => "Showroom Hà Nội - Long Biên"
    case Some(Hcm) => "Showroom TP.HCM - Quận 1"
    case Some(Danang) => "Showroom Đà Nẵng - Hải Châu"
    case Some(Haiphong) => "Showroom Hải Phòng - Lê Chân"
    case Some(Cantho) => "Showroom Cần Thơ - Ninh Kiều"
    case None => raw
  }

  const PendingMarker: string := " (chờ xác nhận)"
  const Undetermined: string := "Chưa xác định"

  /** A time string that JavaScript treats as true: defined and not empty. */
  predicate Truthy(s: Option<string>) {
    s.Some? && s.value != ""
  }

  /** `formattedSchedule`; `fmt` stands for the locale date formatter. */
  function FormattedSchedule(s: Schedule, fmt: int -> string): (r: string)
    ensures s.confirmedDate.Some? && Truthy(s.confirmedTime) ==> EndsWith(r, " lúc " + s.confirmedTime.value)
    ensures !(s.confirmedDate.Some? && Truthy(s.confirmedTime)) && s.preferredTime != "" ==>
      EndsWith(r, " lúc " + s.preferredTime + PendingMarker)
    ensures !(s.confirmedDate.Some? && Truthy(s.confirmedTime)) && s.preferredTime == "" ==> r == Undetermined
  {
    if s.confirmedDate.Some? && Truthy(s.confirmedTime) then
      fmt(s.confirmedDate.value) + " lúc " + s.confirmedTime.value
    else if s.preferredTime != "" then
      fmt(s.preferredDate) + " lúc " + s.preferredTime + PendingMarker
    else Undetermined
  }

  predicate EndsWith(s: string, suffix: string) {
    |suffix| <= |s| && s[|s| - |suffix|..] == suffix
  }

  /** The schedule text shows the confirmed pair when both parts are set, and then carries no
      pending marker; otherwise it shows the requested pair marked as pending, or the
      undetermined text when there is no requested time. */
  lemma FormattedScheduleCases(s: Schedule, fmt: int -> string)
    requires s.confirmedTime.Some? ==> s.confirmedTime.value in Slots || s.confirmedTime.value == ""
    ensures s.confirmedDate.Some? && Truthy(s.confirmedTime) ==>
      Text.IsPrefix(fmt(s.confirmedDate.value), FormattedSchedule(s, fmt))
      && !EndsWith(FormattedSchedule(s, fmt), PendingMarker)
    ensures !(s.confirmedDate.Some? && Truthy(s.confirmedTime)) && s.preferredTime != "" ==>
      Text.IsPrefix(fmt(s.preferredDate), FormattedSchedule(s, fmt))
      && EndsWith(FormattedSchedule(s, fmt), PendingMarker)
    ensures !(s.confirmedDate.Some? && Truthy(s.confirmedTime)) && s.preferredTime == "" ==>
      FormattedSchedule(s, fmt) == Undetermined
  {
    var r := FormattedSchedule(s, fmt);
    if s.confirmedDate.Some? && Truthy(s.confirmedTime) {
      var d := fmt(s.confirmedDate.value);
      assert r == d + (" lúc " + s.confirmedTime.value);
      assert r[..|d|] == d;
      var t := s.confirmedTime.value;
      assert t[|t| - 1] == '0';
      assert r[|r| - 1] == t[|t| - 1];
      assert PendingMarker[|PendingMarker| - 1] == ')';
    } else if s.preferredTime != "" {
      var d := fmt(s.preferredDate);
      assert r == d + (" lúc " + s.preferredTime + PendingMarker);
      assert r[..|d|] == d;
    }
  }

  /** The filter of `getByUser`: the user's bookings, optionally of one status. */
  predicate ByUser(b: Booking, userId: nat, status: Option<Status>) {
    b.user == Some(userId) && (status.None? || b.status == status.value)
  }
}

=== FILE: testdrive_routes.dfy ===
/** The test-drive routes: the request validation chains, the access level of each route, and
    the handlers they feed. The e-mail checks of the validation library are parameters. */
module TestDriveRoutes {
  import opened Wrappers
  import Text
  import Seqs
  import Paging
  import opened TestDriveModel
  import opened Access
  import opened TestDriveController
  import Stores
  import Email

  /** A date as received: an ISO-8601 string, another string that JavaScript's date parser reads
      (and the store casts), the empty string, or text that is no date at all. */
  datatype RawDate = Iso(time: int) | Loose(time: int) | Empty | Unparsable

  /** An integer parameter: one that parses as an integer, or one that does not. */
  datatype RawInt = Int(value: int) | NotInt

  datatype RawCreate = RawCreate(
    car: nat,
    fullName: string,
    email: string,
    phone: string,
    preferredDate: RawDate,
    preferredTime: string,
    location: string,
    message: Option<string>,
    status: Option<string>,
    confirmedDate: Option<int>,
    confirmedTime: Option<string>,
    adminNotes: Option<string>,
    assignedStaff: Option<nat>,
    feedback: Option<Feedback>)

  /** Strictly after the time of the request. */
  predicate Future(d: RawDate, now: int) {
    d.Iso? && d.time > now
  }

  predicate NameOk(s: string) {
    2 <= |Text.Trim(s)| <= 100
  }

  /** An optional text field, trimmed, of at most `n` characters. */
  predicate OptionalTextOk(s: Option<string>, n: nat) {
    s.None? || |Text.Trim(s.value)| <= n
  }

  function TrimOpt(s: Option<string>): Option<string> {
    if s.Some? then Some(Text.Trim(s.value)) else None
  }

  predicate LocationOk(s: string) {
    Text.OneOf(s, LocationCodes)
  }

  predicate StatusOk(s: string) {
    Text.OneOf(s, StatusCodes)
  }


  /** The fields of `rules` whose rule fails, in chain order. */
  function Failing(rules: seq<Field>, holds: Field -> bool): (errs: seq<Field>)
    ensures forall f :: f in errs <==> f in rules && !holds(f)
    ensures errs == [] <==> forall f :: f in rules ==> holds(f)
  {
    var errs := Seqs.Filter(rules, f => !holds(f));
    assert errs != [] ==> errs[0] in errs;
    errs
  }

  /** Whether the create rule attached to `f` holds. */
  predicate CreateRule(raw: RawCreate, now: int, isEmail: string -> bool, f: Field) {
    match f
    case FullName => NameOk(raw.fullName)
    case Email => isEmail(raw.email)
    case Phone => PhoneValid(raw.phone)
    case PreferredDate => Future(raw.preferredDate, now)
    case PreferredTime => IsSlot(raw.preferredTime)
    case LocationField => LocationOk(raw.location)
    case Message => OptionalTextOk(raw.message, 500)
    case _ => true
  }

  /** Every rule of the create chain holds. */
  predicate CreateValid(raw: RawCreate, now: int, isEmail: string -> bool) {
    && NameOk(raw.fullName) && isEmail(raw.email) && PhoneValid(raw.phone)
    && Future(raw.preferredDate, now) && IsSlot(raw.preferredTime)
    && LocationOk(raw.location) && OptionalTextOk(raw.message, 500)
  }

  /** The failing rules of the create chain, in chain order. */
  function CreateErrors(raw: RawCreate, now: int, isEmail: string -> bool): seq<Field> {
    Failing([FullName, Email, Phone, PreferredDate, PreferredTime, LocationField, Message], f => CreateRule(raw, now, isEmail, f))
  }

  /** The create chain: on success the body the handler sees, with the name and message trimmed
      and the e-mail normalised. The fields outside the chain are passed on as they are. */
  function ValidateCreate(raw: RawCreate, now: int, isEmail: string -> bool, normalizeEmail: string -> string)
    : (r: Result<CreateBody, Error>)
    ensures r.Err? <==> !CreateValid(raw, now, isEmail)
    ensures r.Err? ==> r.error == Invalid(CreateErrors(raw, now, isEmail))
    ensures r.Ok? ==> && 2 <= |r.value.customer.fullName| <= 100
                      && r.value.customer.fullName == Text.Trim(raw.fullName)
                      && r.value.customer.email == normalizeEmail(raw.email)
                      && PhoneValid(r.value.customer.phone)
                      && r.value.preferredDate > now
                      && IsSlot(r.value.preferredTime)
                      && LocationCode(r.value.location) == raw.location
                      && MaxLength(r.value.message, 500)
                      && r.value.status == raw.status
                      && r.value.adminNotes == raw.adminNotes && r.value.feedback == raw.feedback
  {
    if !CreateValid(raw, now, isEmail) then Err(Invalid(CreateErrors(raw, now, isEmail)))
    else
      LocationCodesMatchParse(raw.location);
      Ok(CreateBody(
        raw.car,
        Customer(Text.Trim(raw.fullName), normalizeEmail(raw.email), raw.phone),
        raw.preferredDate.time,
        raw.preferredTime,
        ParseLocation(raw.location).value,
        TrimOpt(raw.message),
        raw.status,
        raw.confirmedDate,
        raw.confirmedTime,
        raw.adminNotes,
        raw.assignedStaff,
        raw.feedback))
  }

  /** A body that passes the create chain, carries no status and keeps the fields outside the
      chain within their bounds passes the schema at insert time exactly when its normalised
      e-mail, lower-cased, fits the schema's pattern: the create can then fail only on that, the
      car or the conflict check. */
  lemma ValidCreateMeetsSchema(raw: RawCreate, now: int, isEmail: string -> bool, normalizeEmail: string -> string, caller: Option<Caller>)
    requires ValidateCreate(raw, now, isEmail, normalizeEmail).Ok?
    requires raw.status.None? && MaxLength(raw.adminNotes, 1000) && FeedbackValid(raw.feedback)
    ensures var body := ValidateCreate(raw, now, isEmail, normalizeEmail).value;
      && InitialStatus(body.status) == Some(Pending)
      && (SchemaValid(NewBooking(body, caller, Pending, now), now) <==> Email.Matches(Text.Lower(normalizeEmail(raw.email))))
  {
    var body := ValidateCreate(raw, now, isEmail, normalizeEmail).value;
    var b := NewBooking(body, caller, Pending, now);
    Text.TrimIdempotent(raw.fullName);
    assert b.customer.fullName == body.customer.fullName;
    assert b.customer.email == Text.Lower(normalizeEmail(raw.email));
  }

  /** The chain bounds neither the admin notes nor the rating of a create body; the schema does,
      at insert time. */
  lemma LongNotesRefusedAtInsert(raw: RawCreate, now: int, isEmail: string -> bool, normalizeEmail: string -> string, caller: Option<Caller>)
    requires ValidateCreate(raw, now, isEmail, normalizeEmail).Ok?
    requires !MaxLength(raw.adminNotes, 1000) || !FeedbackValid(raw.feedback)
    ensures forall st :: !SchemaValid(NewBooking(ValidateCreate(raw, now, isEmail, normalizeEmail).value, caller, st, now), now)
  {
  }

  datatype RawFeedback = RawFeedback(rating: Option<int>, comment: Option<string>)

  /** A `schedule` object as received. */
  datatype RawSchedule = RawSchedule(
    preferredDate: Option<RawDate>,
    preferredTime: Option<string>,
    confirmedDate: Option<RawDate>,
    confirmedTime: Option<string>)

  /** An update body as received; `rating` is None when absent or not an integer. */
  datatype RawPatch = RawPatch(
    user: Option<nat>,
    car: Option<nat>,
    customer: Option<CustomerPatch>,
    schedule: Option<RawSchedule>,
    status: Option<string>,
    location: Option<string>,
    adminNotes: Option<string>,
    assignedStaff: Option<nat>,
    feedback: Option<RawFeedback>,
    message: Option<string>)

  /** `schedule.confirmedDate`, when given, is an ISO-8601 date. */
  predicate ConfirmedDateOk(raw: RawPatch) {
    raw.schedule.None? || raw.schedule.value.confirmedDate.None? || raw.schedule.value.confirmedDate.value.Iso?
  }

  /** `schedule.confirmedTime`, when given, is a catalog time. */
  predicate ConfirmedTimeOk(raw: RawPatch) {
    raw.schedule.None? || raw.schedule.value.confirmedTime.None? || IsSlot(raw.schedule.value.confirmedTime.value)
  }

  predicate UpdateRule(raw: RawPatch, f: Field) {
    match f
    case StatusField => raw.status.None? || StatusOk(raw.status.value)
    case ConfirmedDate => ConfirmedDateOk(raw)
    case ConfirmedTime => ConfirmedTimeOk(raw)
    case AdminNotes => OptionalTextOk(raw.adminNotes, 1000)
    case _ => true
  }

  /** Every rule of the admin update chain holds; each rule is optional. */
  predicate UpdateValid(raw: RawPatch) {
    && (raw.status.None? || StatusOk(raw.status.value))
    && ConfirmedDateOk(raw)
    && ConfirmedTimeOk(raw)
    && OptionalTextOk(raw.adminNotes, 1000)
  }

  /** The failing rules of the admin update chain, in chain order. */
  function UpdateErrors(raw: RawPatch): seq<Field> {
    Failing([StatusField, ConfirmedDate, ConfirmedTime, AdminNotes], f => UpdateRule(raw, f))
  }

  predicate RatingOk(f: Option<RawFeedback>) {
    f.Some? && f.value.rating.Some? && 1 <= f.value.rating.value <= 5
  }

  predicate FeedbackRule(raw: RawPatch, f: Field) {
    match f
    case Rating => RatingOk(raw.feedback)
    case Comment => raw.feedback.None? || OptionalTextOk(raw.feedback.value.comment, 1000)
    case _ => true
  }

  /** Every rule of the feedback chain holds: a rating in [1, 5] is required, a comment is
      optional. */
  predicate FeedbackChainValid(raw: RawPatch) {
    && raw.feedback.Some? && raw.feedback.value.rating.Some? && 1 <= raw.feedback.value.rating.value <= 5
    && OptionalTextOk(raw.feedback.value.comment, 1000)
  }

  /** The failing rules of the feedback chain, in chain order. */
  function FeedbackErrors(raw: RawPatch): seq<Field> {
    Failing([Rating, Comment], f => FeedbackRule(raw, f))
  }

  function ToFeedback(f: RawFeedback, trimComment: bool): Feedback {
    Feedback(f.rating, if trimComment then TrimOpt(f.comment) else f.comment, None)
  }

  /** A received date as the store casts it. */
  function ToDateInput(d: RawDate): DateInput {
    match d
    case Iso(t) => At(t)
    case Loose(t) => At(t)
    case Empty => Blank
    case Unparsable => Uncastable
  }

  function ToDateInputOpt(d: Option<RawDate>): Option<DateInput> {
    if d.Some? then Some(ToDateInput(d.value)) else None
  }

  function ToSchedulePatch(s: RawSchedule): SchedulePatch {
    SchedulePatch(ToDateInputOpt(s.preferredDate), s.preferredTime, ToDateInputOpt(s.confirmedDate), s.confirmedTime)
  }

  /** The body the update handler sees after a chain; the admin chain trims `adminNotes` and
      turns the confirmed date it has checked into a date, the feedback chain trims the comment
      and leaves every date as received. */
  function ToPatch(raw: RawPatch, adminChain: bool): Patch {
    Patch(
      raw.user,
      raw.car,
      raw.customer,
      if raw.schedule.Some? then Some(ToSchedulePatch(raw.schedule.value)) else None,
      raw.status,
      raw.location,
      if adminChain then TrimOpt(raw.adminNotes) else raw.adminNotes,
      raw.assignedStaff,
      if raw.feedback.Some? then Some(ToFeedback(raw.feedback.value, !adminChain)) else None,
      raw.message)
  }

  /** The admin chain refuses a confirmed date that is not ISO-8601, but the feedback route has no
      rule on it: there the store casts any date the parser reads, exactly as if it were ISO. */
  lemma FeedbackRouteTakesLooseDates(raw: RawPatch, t: int)
    requires raw.schedule.Some? && raw.schedule.value.confirmedDate == Some(Loose(t))
    ensures !UpdateValid(raw)
    ensures ToPatch(raw, false)
      == ToPatch(raw.(schedule := Some(raw.schedule.value.(confirmedDate := Some(Iso(t))))), false)
  {
  }

  /** The routes of the test-drive router. */
  datatype Endpoint =
    | CreateBooking | AvailableSlots | MyTestDrives | ReadOne | SubmitFeedback
    | ListAll | AdminUpdate | DeleteOne | StatusPatch | Stats

  /** No middleware, `optionalAuth`, `protect`, or `protect` + `authorize('admin')`. */
  datatype Guard = Public | OptionalAuth | LoggedIn | AdminOnly

  function GuardOf(e: Endpoint): (g: Guard)
    ensures g == AdminOnly <==> e in {ListAll, AdminUpdate, DeleteOne, StatusPatch, Stats}
    ensures g == LoggedIn <==> e in {MyTestDrives, ReadOne, SubmitFeedback}
  {
    match e
    case CreateBooking => OptionalAuth
    case AvailableSlots => Public
    case MyTestDrives => LoggedIn
    case ReadOne => LoggedIn
    case SubmitFeedback => LoggedIn
    case ListAll => AdminOnly
    case AdminUpdate => AdminOnly
    case DeleteOne => AdminOnly
    case StatusPatch => AdminOnly
    case Stats => AdminOnly
  }

  /** The outcome of the guard: None to go on, or the refusal. */
  function Admit(g: Guard, caller: Option<Caller>): (r: Option<Error>)
    ensures r.None? <==> g in {Public, OptionalAuth} || (g == LoggedIn && caller.Some?)
                          || (g == AdminOnly && caller.Some? && caller.value.role == Admin)
    ensures r == Some(Unauthenticated) <==> g in {LoggedIn, AdminOnly} && caller.None?
    ensures r == Some(Forbidden) <==> g == AdminOnly && caller.Some? && caller.value.role != Admin
  {
    match g
    case Public => None
    case OptionalAuth => None
    case LoggedIn => if caller.None? then Some(Unauthenticated) else None
    case AdminOnly =>
      if caller.None? then Some(Unauthenticated)
      else if caller.value.role != Admin then Some(Forbidden)
      else None
  }

  /** `POST /`: optional identity, the create chain, then `createTestDrive`. */
  method HandleCreate(store: Store, cars: CarIndex, caller: Option<Caller>, raw: RawCreate, newId: nat, now: int,
                      isEmail: string -> bool, normalizeEmail: string -> string)
    returns (store': Store, r: Result<nat, Error>)
    requires newId !in store
    ensures r.Err? ==> store' == store
    ensures CreateErrors(raw, now, isEmail) != [] ==> r == Err(Invalid(CreateErrors(raw, now, isEmail)))
    ensures r.Ok? ==> CreateErrors(raw, now, isEmail) == [] && newId in store' && store'[newId].schedule.preferredDate > now
    ensures r.Ok? ==> store'[newId].user == (if caller.Some? then Some(caller.value.id) else None)
    ensures r.Ok? ==> && Email.Matches(store'[newId].customer.email)
                      && MaxLength(raw.adminNotes, 1000) && FeedbackValid(raw.feedback)
  {
    var body := ValidateCreate(raw, now, isEmail, normalizeEmail);
    if body.Err? {
      return store, Err(body.error);
    }
    store', r := CreateTestDrive(store, cars, caller, body.value, newId, now);
  }

  /** `PUT /:id`: admin only, the update chain, then `updateTestDrive`. */
  method HandleAdminUpdate(store: Store, id: nat, caller: Option<Caller>, raw: RawPatch, now: int)
    returns (store': Store, r: Result<Booking, Error>)
    ensures r.Err? ==> store' == store
    ensures caller.None? ==> r == Err(Unauthenticated)
    ensures caller.Some? && caller.value.role != Admin ==> r == Err(Forbidden)
    ensures caller.Some? && caller.value.role == Admin && !UpdateValid(raw) ==> r == Err(Invalid(UpdateErrors(raw)))
    ensures caller.Some? && caller.value.role == Admin && UpdateValid(raw) && id !in store ==> r == Err(NotFound)
    ensures r != Err(CastFailed)
    ensures r.Ok? ==> caller.Some? && caller.value.role == Admin && UpdateValid(raw) && id in store
                      && store' == store[id := r.value]
  {
    var denied := Admit(GuardOf(AdminUpdate), caller);
    if denied.Some? {
      return store, Err(denied.value);
    }
    if !UpdateValid(raw) {
      return store, Err(Invalid(UpdateErrors(raw)));
    }
    store', r := UpdateTestDrive(store, id, caller.value, ToPatch(raw, true), now);
  }

  /** `PUT /:id/feedback`: any logged-in caller, the feedback chain, then `updateTestDrive` with
      the WHOLE body: not-found and ownership come first, and a confirmed date that is not a date
      only fails when the re-check query casts it. */
  method HandleFeedback(store: Store, id: nat, caller: Option<Caller>, raw: RawPatch, now: int)
    returns (store': Store, r: Result<Booking, Error>)
    ensures r.Err? ==> store' == store
    ensures caller.None? ==> r == Err(Unauthenticated)
    ensures caller.Some? && !FeedbackChainValid(raw) ==> r == Err(Invalid(FeedbackErrors(raw)))
    ensures caller.Some? && FeedbackChainValid(raw) && id !in store ==> r == Err(NotFound)
    ensures caller.Some? && FeedbackChainValid(raw) && id in store && !MayManage(store[id], caller.value)
      ==> r == Err(Forbidden)
    ensures caller.Some? && FeedbackChainValid(raw) && id in store && MayManage(store[id], caller.value)
        && raw.schedule.Some? && raw.schedule.value.confirmedDate == Some(Unparsable)
      ==> r == Err(CastFailed)
    ensures r.Ok? ==> caller.Some? && FeedbackChainValid(raw)
    ensures r.Ok? ==> id in store && MayManage(store[id], caller.value) && Apply(store[id], ToPatch(raw, false)).Some?
                      && r.value == Apply(store[id], ToPatch(raw, false)).value && store' == store[id := r.value]
  {
    var denied := Admit(GuardOf(SubmitFeedback), caller);
    if denied.Some? {
      return store, Err(denied.value);
    }
    if !FeedbackChainValid(raw) {
      return store, Err(Invalid(FeedbackErrors(raw)));
    }
    store', r := UpdateTestDrive(store, id, caller.value, ToPatch(raw, false), now);
  }

  /** The feedback route is open to every logged-in owner and forwards the whole body, so an owner
      who may not use the admin routes can still set the status of their own booking. */
  lemma OwnerSetsStatusThroughFeedback(b: Booking, caller: Caller, now: int)
    requires b.user == Some(caller.id) && caller.role == User && SchemaValid(b, now)
    ensures var raw := RawPatch(None, None, None, None, Some("cancelled"), None, None, None, Some(RawFeedback(Some(5), None)), None);
      && Admit(GuardOf(StatusPatch), Some(caller)) == Some(Forbidden)
      && Admit(GuardOf(SubmitFeedback), Some(caller)).None?
      && FeedbackChainValid(raw)
      && MayManage(b, caller)
      && !TouchesSchedule(ToPatch(raw, false))
      && Apply(b, ToPatch(raw, false)) == Some(b.(status := Cancelled, feedback := Some(Feedback(Some(5), None, None))))
      && SchemaValid(Apply(b, ToPatch(raw, false)).value, now)
  {
    var raw := RawPatch(None, None, None, None, Some("cancelled"), None, None, None, Some(RawFeedback(Some(5), None)), None);
    var p := ToPatch(raw, false);
    assert p == Patch(None, None, None, None, Some("cancelled"), None, None, None, Some(Feedback(Some(5), None, None)), None);
    assert ParseStatus("cancelled") == Some(Cancelled);
    var nb := b.(status := Cancelled, feedback := Some(Feedback(Some(5), None, None)));
    assert Apply(b, p) == Some(nb);
    assert SchemaValid(nb, now) by {
      assert nb.customer == b.customer && nb.schedule == b.schedule;
      assert nb.message == b.message && nb.adminNotes == b.adminNotes;
    }
  }

  /** A list query as received. */
  datatype RawQuery = RawQuery(page: Option<RawInt>, limit: Option<RawInt>, status: Option<string>, location: Option<string>)

  predicate QueryRule(q: RawQuery, f: Field) {
    match f
    case Page => q.page.None? || (q.page.value.Int? && q.page.value.value >= 1)
    case Limit => q.limit.None? || (q.limit.value.Int? && 1 <= q.limit.value.value <= 50)
    case StatusField => q.status.None? || StatusOk(q.status.value)
    case LocationField => q.location.None? || LocationOk(q.location.value)
    case _ => true
  }

  /** Every rule of the list query chain holds: page at least 1, limit in [1, 50], enums. */
  predicate QueryValid(q: RawQuery) {
    && (q.page.None? || (q.page.value.Int? && q.page.value.value >= 1))
    && (q.limit.None? || (q.limit.value.Int? && 1 <= q.limit.value.value <= 50))
    && (q.status.None? || StatusOk(q.status.value))
    && (q.location.None? || LocationOk(q.location.value))
  }

  /** The failing rules of the list query chain, in chain order. */
  function QueryErrors(q: RawQuery): seq<Field> {
    Failing([Page, Limit, StatusField, LocationField], f => QueryRule(q, f))
  }

  function IntParam(p: Option<RawInt>): Option<int> {
    if p.Some? && p.value.Int? then Some(p.value.value) else None
  }

  /** The status filter of a list query. */
  function QueryStatus(q: RawQuery): Option<Status> {
    if q.status.Some? then ParseStatus(q.status.value) else None
  }

  /** The location filter of a list query. */
  function QueryLocation(q: RawQuery): Option<Location> {
    if q.location.Some? then ParseLocation(q.location.value) else None
  }

  /** `GET /` (admin): the query chain, `page || 1`, `limit || 10`, an empty filter value
      ignored, then `getTestDrives`. */
  method HandleList(store: Store, caller: Option<Caller>, q: RawQuery)
    returns (r: Result<(seq<Booking>, nat, Paging.Pagination), Error>)
    ensures caller.None? ==> r == Err(Unauthenticated)
    ensures caller.Some? && caller.value.role != Admin ==> r == Err(Forbidden)
    ensures r.Ok? ==> QueryValid(q)
    ensures r.Ok? ==> var page := Paging.ParamOr(IntParam(q.page), 1);
                      var limit := Paging.ParamOr(IntParam(q.limit), 10);
                      page >= 1 && 1 <= limit <= 50 && |r.value.0| <= limit
                      && r.value.2 == Paging.Paginate(page, limit, r.value.1)
    ensures r.Ok? && q.status.Some? ==> forall b :: b in r.value.0 ==> StatusCode(b.status) == q.status.value
    ensures r.Ok? && q.location.Some? ==> forall b :: b in r.value.0 ==> LocationCode(b.location) == q.location.value
    ensures r.Ok? ==> var page := Paging.ParamOr(IntParam(q.page), 1);
                      var limit := Paging.ParamOr(IntParam(q.limit), 10);
                      Paging.SortedWindowOf(r.value.0, Stores.Docs(store, Stores.Matching(store, Listed(QueryStatus(q), QueryLocation(q)))),
                                            CreatedAtKey, true, Paging.StartIndex(page, limit), limit)
  {
    var denied := Admit(GuardOf(ListAll), caller);
    if denied.Some? {
      return Err(denied.value);
    }
    if !QueryValid(q) {
      return Err(Invalid(QueryErrors(q)));
    }
    var page := Paging.ParamOr(IntParam(q.page), 1);
    var limit := Paging.ParamOr(IntParam(q.limit), 10);
    // the chain has checked both enums, so neither value is empty and both parse
    if q.status.Some? {
      StatusCodesMatchParse(q.status.value);
    }
    if q.location.Some? {
      LocationCodesMatchParse(q.location.value);
    }
    var data, total, pagination := GetTestDrives(store, page, limit, QueryStatus(q), QueryLocation(q));
    return Ok((data, total, pagination));
  }

  /** `GET /available-slots`: a future date and a known location, then `getAvailableSlots`. */
  method HandleAvailableSlots(store: Store, date: RawDate, location: string, now: int)
    returns (r: Result<seq<string>, Error>)
    ensures r.Err? <==> !Future(date, now) || !LocationOk(location)
    ensures r.Ok? ==> ParseLocation(location).Some? && forall t :: t in r.value <==>
      t in Slots && !SlotTaken(store, date.time, t, ParseLocation(location).value)
  {
    var errs := (if Future(date, now) then [] else [DateParam]) + (if LocationOk(location) then [] else [LocationField]);
    if errs != [] {
      return Err(Invalid(errs));
    }
    LocationCodesMatchParse(location);
    var slots := GetAvailableSlots(store, date.time, ParseLocation(location).value);
    return Ok(slots);
  }
}

=== FILE: text.dfy ===
/** String primitives used across the code base: `toLowerCase`, `includes`, `trim`, `String(n)`
    and `padStart`, on strings as sequences of characters. */
module Text {

  /** ASCII upper-case letters are lowered; every other character is kept. */
  function LowerChar(c: char): char {
    if 'A' <= c <= 'Z' then (c as int + 32) as char else c
  }

  /** `toLowerCase`, restricted to the ASCII letters. */
  function Lower(s: string): (r: string)
    ensures |r| == |s|
    ensures forall i :: 0 <= i < |s| ==> r[i] == LowerChar(s[i])
  {
    seq(|s|, i requires 0 <= i < |s| => LowerChar(s[i]))
  }

  /** Lowering twice is lowering once, and the result holds no ASCII capital. */
  lemma LowerIdempotent(s: string)
    ensures Lower(Lower(s)) == Lower(s)
    ensures forall i :: 0 <= i < |s| ==> !('A' <= Lower(s)[i] <= 'Z')
  {
  }

  predicate IsPrefix(p: string, s: string) {
    |p| <= |s| && s[..|p|] == p
  }

  /** `needle` occurs in `hay` starting at position `i`. */
  predicate OccursAt(hay: string, needle: string, i: int) {
    0 <= i <= |hay| - |needle| && hay[i..i + |needle|] == needle
  }

  /** `hay.includes(needle)`: `needle` occurs at some position of `hay`. */
  function Contains(hay: string, needle: string): (r: bool)
    ensures r <==> exists i :: OccursAt(hay, needle, i)
    decreases |hay|
  {
    if IsPrefix(needle, hay) then
      assert OccursAt(hay, needle, 0);
      true
    else if |hay| == 0 then
      assert forall i :: !OccursAt(hay, needle, i);
      false
    else
      var r := Contains(hay[1..], needle);
      if r then
        var i :| OccursAt(hay[1..], needle, i);
        OccursShift(hay, needle, i);
        true
      else
        forall i | OccursAt(hay, needle, i) ensures false {
          OccursShift(hay, needle, i - 1);
        }
        false
  }

  /** An occurrence at `i` in the tail is an occurrence at `i + 1` in the whole string, and
      conversely, away from the first position. */
  lemma OccursShift(hay: string, needle: string, i: int)
    requires |hay| > 0
    ensures OccursAt(hay[1..], needle, i) <==> 0 <= i && OccursAt(hay, needle, i + 1)
  {
    if 0 <= i <= |hay| - 1 - |needle| {
      assert hay[1..][i..i + |needle|] == hay[i + 1..i + 1 + |needle|];
    }
  }

  /** Every string contains itself and the empty string. */
  lemma ContainsSelf(s: string)
    ensures Contains(s, s)
    ensures Contains(s, "")
  {
    assert OccursAt(s, s, 0);
    assert OccursAt(s, "", 0);
  }

  /** An occurrence in a prefix is an occurrence in the whole string. */
  lemma ContainsAppend(a: string, b: string, needle: string)
    requires Contains(a, needle)
    ensures Contains(a + b, needle)
  {
    var i :| OccursAt(a, needle, i);
    assert (a + b)[i..i + |needle|] == a[i..i + |needle|];
    assert OccursAt(a + b, needle, i);
  }

  /** The white-space characters JavaScript's `trim` and `\s` recognise in this model. */
  predicate IsSpace(c: char) {
    c == ' ' || c == '\t' || c == '\n' || c == '\r' || c == '\U{000B}' || c == '\U{000C}'
    || c == '\U{00A0}' || c == '\U{FEFF}'
  }

  function TrimStart(s: string): (r: string)
    ensures |r| <= |s| && r == s[|s| - |r|..]
    ensures |r| > 0 ==> !IsSpace(r[0])
    ensures forall i :: 0 <= i < |s| - |r| ==> IsSpace(s[i])
  {
    if |s| > 0 && IsSpace(s[0]) then TrimStart(s[1..]) else s
  }

  function TrimEnd(s: string): (r: string)
    ensures |r| <= |s| && r == s[..|r|]
    ensures |r| > 0 ==> !IsSpace(r[|r| - 1])
    ensures forall i :: |r| <= i < |s| ==> IsSpace(s[i])
  {
    if |s| > 0 && IsSpace(s[|s| - 1]) then TrimEnd(s[..|s| - 1]) else s
  }

  /** `trim`: the string without its leading and trailing white space. */
  function Trim(s: string): (r: string)
    ensures |r| <= |s|
    ensures exists k :: OccursAt(s, r, k)
    ensures |r| > 0 ==> !IsSpace(r[0]) && !IsSpace(r[|r| - 1])
  {
    var t := TrimStart(s);
    var r := TrimEnd(t);
    assert r == s[|s| - |t|..|s| - |t| + |r|];
    assert OccursAt(s, r, |s| - |t|);
    r
  }

  /** A string without white space is its own trim. */
  lemma TrimNoSpace(s: string)
    requires forall i :: 0 <= i < |s| ==> !IsSpace(s[i])
    ensures Trim(s) == s
  {
  }

  /** A string trims to nothing exactly when it is all white space. */
  lemma TrimBlank(s: string)
    ensures Trim(s) == "" <==> forall i :: 0 <= i < |s| ==> IsSpace(s[i])
  {
    var t := TrimStart(s);
    if Trim(s) == "" {
      assert TrimEnd(t) == "";
    } else {
      var r := Trim(s);
      var k :| OccursAt(s, r, k);
      assert s[k] == r[0];
    }
  }

  /** Trimming twice is trimming once. */
  lemma TrimIdempotent(s: string)
    ensures Trim(Trim(s)) == Trim(s)
  {
    var r := Trim(s);
    if |r| > 0 {
      assert TrimStart(r) == r;
      assert TrimEnd(r) == r;
    }
  }

  predicate IsDigit(c: char) {
    '0' <= c <= '9'
  }

  predicate AllDigits(s: string) {
    forall i :: 0 <= i < |s| ==> IsDigit(s[i])
  }

  function DigitChar(d: nat): (c: char)
    requires d < 10
    ensures IsDigit(c)
  {
    ('0' as int + d) as char
  }

  /** `String(n)` for a non-negative integer: its decimal digits, most significant first. */
  function NatToString(n: nat): (r: string)
    ensures |r| >= 1 && AllDigits(r)
  {
    if n < 10 then [DigitChar(n)] else NatToString(n / 10) + [DigitChar(n % 10)]
  }

  /** The number a string of decimal digits denotes (`parseInt(s, 10)` on digit strings). */
  function DigitsValue(s: string): nat
    requires AllDigits(s)
  {
    if |s| == 0 then 0 else DigitsValue(s[..|s| - 1]) * 10 + (s[|s| - 1] as int - '0' as int)
  }

  /** Reading back the digits of `n` gives `n`. */
  lemma {:induction false} NatToStringRoundTrip(n: nat)
    ensures DigitsValue(NatToString(n)) == n
  {
    if n >= 10 {
      var s := NatToString(n);
      assert s[..|s| - 1] == NatToString(n / 10);
      NatToStringRoundTrip(n / 10);
    }
  }

  function Pow10(k: nat): (p: nat)
    ensures p >= 1
  {
    if k == 0 then 1 else 10 * Pow10(k - 1)
  }

  /** A number with exactly `k` significant digits prints as `k` characters. */
  lemma {:induction false} NatToStringLength(n: nat, k: nat)
    requires k >= 1 && (k == 1 || Pow10(k - 1) <= n) && n < Pow10(k)
    ensures |NatToString(n)| == k
  {
    if k > 1 {
      PowMonotone(1, k - 1);
      if n >= 10 {
        NatToStringLength(n / 10, k - 1);
      }
    } else if n >= 10 {
    }
  }

  lemma {:induction false} PowMonotone(i: nat, j: nat)
    requires i <= j
    ensures Pow10(i) <= Pow10(j)
  {
    if i < j {
      PowMonotone(i, j - 1);
    }
  }

  /** `n` copies of `c`. */
  function Repeat(c: char, n: nat): (r: string)
    ensures |r| == n && forall i :: 0 <= i < n ==> r[i] == c
  {
    if n == 0 then [] else [c] + Repeat(c, n - 1)
  }

  /** `s.padStart(width, c)` for a one-character filler. */
  function PadStart(s: string, width: nat, c: char): (r: string)
    ensures |r| == if |s| >= width then |s| else width
    ensures r[|r| - |s|..] == s
    ensures forall i :: 0 <= i < |r| - |s| ==> r[i] == c
  {
    if |s| >= width then s else Repeat(c, width - |s|) + s
  }

  /** Leading zeros do not change the value of a digit string. */
  lemma {:induction false} LeadingZeros(k: nat, s: string)
    requires AllDigits(s)
    ensures AllDigits(Repeat('0', k) + s)
    ensures DigitsValue(Repeat('0', k) + s) == DigitsValue(s)
    decreases |s|
  {
    var z := Repeat('0', k);
    if |s| == 0 {
      assert z + s == z;
      ZerosValue(k);
    } else {
      assert (z + s)[..|z + s| - 1] == z + s[..|s| - 1];
      LeadingZeros(k, s[..|s| - 1]);
    }
  }

  lemma {:induction false} ZerosValue(k: nat)
    ensures AllDigits(Repeat('0', k)) && DigitsValue(Repeat('0', k)) == 0
  {
    if k > 0 {
      var z := Repeat('0', k);
      assert z[..k - 1] == Repeat('0', k - 1);
      ZerosValue(k - 1);
    }
  }

  /** Zero-padding a printed number and reading it back gives the number. */
  lemma PaddedRoundTrip(n: nat, width: nat)
    ensures AllDigits(PadStart(NatToString(n), width, '0'))
    ensures DigitsValue(PadStart(NatToString(n), width, '0')) == n
  {
    var s := NatToString(n);
    NatToStringRoundTrip(n);
    if |s| < width {
      LeadingZeros(width - |s|, s);
    }
  }

  /** `t` is one of the enum values `codes` (Mongoose `enum`, express-validator `isIn`),
      looked at one entry at a time. */
  predicate OneOf(t: string, codes: seq<string>) {
    |codes| > 0 && (codes[0] == t || OneOf(t, codes[1..]))
  }

  lemma {:induction false} OneOfIsMembership(t: string, codes: seq<string>)
    ensures OneOf(t, codes) <==> t in codes
  {
    if |codes| > 0 {
      OneOfIsMembership(t, codes[1..]);
      assert codes == [codes[0]] + codes[1..];
    }
  }

  /** A number below `10^w` prints in at most `w` digits. */
  lemma {:induction false} NatToStringShort(n: nat, w: nat)
    requires w >= 1 && n < Pow10(w)
    ensures |NatToString(n)| <= w
  {
    if n >= 10 {
      NatToStringShort(n / 10, w - 1);
    }
  }

  /** Zero-padding a number below `10^w` to width `w` gives exactly `w` digits. */
  lemma PaddedLength(n: nat, w: nat)
    requires w >= 1 && n < Pow10(w)
    ensures |PadStart(NatToString(n), w, '0')| == w
  {
    NatToStringShort(n, w);
  }

  /** A number of at least `10^k` prints in more than `k` digits. */
  lemma {:induction false} NatToStringLong(n: nat, k: nat)
    requires n >= Pow10(k)
    ensures |NatToString(n)| > k
  {
    if k > 0 {
      NatToStringLong(n / 10, k - 1);
    }
  }
}

=== FILE: wrappers.dfy ===
/** Optional values and error-carrying results shared by every module of the model. */
module Wrappers {

  /** A value that may be absent: JavaScript `undefined`/`null`, a missing document field. */
  datatype Option<+T> = None | Some(value: T) {

    /** The value, or `default` when absent (the `x || default` idiom on non-falsy values). */
    function GetOr(default: T): T {
      match this
      case Some(v) => v
      case None => default
    }
  }

  /** The outcome of an operation that either succeeds with a value or fails with an error. */
  datatype Result<+T, +E> = Ok(value: T) | Err(error: E)
}
